=== FILE: README.md ===
# Xumbr3ga chat hub: a verified model of its message core

`server.py` is a small multi-platform chat hub. It reads chat from Twitch
(IRC over WebSocket), Kick (a Pusher WebSocket) and YouTube (polling the
live-chat endpoint). It turns every message into one HTML fragment and
fans the fragments out to the browser overlays over Server-Sent Events.

This project models the parts of the hub that decide what a viewer sees:

- **Escaping and rendering.** `esc` and the three renderers: `tw_render`
  (Twitch `emotes` tag ranges), `ki_render` (`[emote:ID:NAME]` tokens) and
  `yt_parse_runs` (YouTube text and emoji runs). Each renderer is
  described by the *segments* it cuts its input into: escaped plain text,
  or one image per recognised emote.
- **Protocol parsing.** The IRCv3 tag block (`_tw_tags`), the
  classification of Twitch IRC lines, the Kick event handlers, and the
  extraction of the YouTube continuation token from the chat page
  (`_yt_extract_token`). The four regular expressions are written out by
  hand, with their greedy and leftmost behaviour.
- **The YouTube poll state.** The rate-limit backoff, the next
  continuation token, the poll interval, whether a page's actions are
  shown, and the end-of-stream test.
- **The broadcast hub.** The set of bounded client queues, `broadcast`,
  and the platform status map with `set_status`.

Modules:

| module | file | models |
|---|---|---|
| `Wrappers` | wrappers.dfy | `Option` and `Result` |
| `Strings` | strings.dfy | the string operations Python provides: `split`, `in`, `find`, `int()`, `\s`, `\d` |
| `Html` | html.dfy | `esc`, the `<img>` element, rendering a sequence of segments |
| `TwitchEmotes` | twitch_emotes.dfy | `tw_render` |
| `KickEmotes` | kick_emotes.dfy | `ki_render` |
| `YoutubeRuns` | youtube_runs.dfy | `yt_parse_runs` |
| `IrcTags` | irc_tags.dfy | `_tw_tags` |
| `TwitchLines` | twitch_lines.dfy | the Twitch line classification |
| `KickEvents` | kick_events.dfy | the Kick event handlers, including the gift count |
| `YoutubeToken` | youtube_token.dfy | `_yt_extract_token` |
| `YoutubePoll` | youtube_poll.dfy | the poll loop's variables and arithmetic |
| `Hub` | hub.dfy | `clients`, `platform_status`, `broadcast`, `set_status` |

Modelling choices:

- Strings are sequences of code points, as Python `str` values are.
- `int()` accepts only ASCII digit strings here.
- `\d` is the ASCII digits. `\s` is Python's set of Unicode whitespace.
- Python slices clamp their bounds. `PySlice` writes that out, so
  `tw_render` is modelled on every tag, not only on well-formed ones.
- A Python exception that drops a connection becomes an explicit outcome:
  `Failure` from `TwRender`, `BadEmotes` for a line, `Dropped` for a Kick
  event.
- Where the source loops over an accumulator, a method with loop
  invariants is proved equal to the function that specifies it:
  `WalkLoop`, `KiRenderLoop`, `YtParseRunsLoop` and `Hub.Broadcast`.
- State the source updates in place is modelled as classes:
  - `Hub.Queue` and `Hub.Hub` hold the client queues and the status map;
  - `YoutubePoll.Poller` holds the poll loop's `continuation`, `backoff`
    and `is_first`.

## Model

| member | source | states |
|---|---|---|
| Strings.JoinSplit | server.py:74-81 | the parts `str.split` cuts a string into, joined again with the separator, give the string back |
| Strings.JoinOnSplitOn | server.py:165 | the same for splitting a frame at CR LF |
| Strings.SplitOnParts | server.py:165 | no part of such a split contains the separator |
| Strings.ParseShowNat | server.py:82 | `int()` reads the decimal digits of any natural number back as that number |
| Strings.ParseNat | server.py:82 | `int()` succeeds exactly on a non-empty run of digits |
| Html.EscNoMarkup | server.py:32 | escaped text contains no `<`, `>`, `"` or `'`, so it can neither open a tag nor leave an attribute value |
| Html.UnescapeEsc | server.py:32 | decoding the five character references gives the text back: escaping loses nothing |
| Html.EscAppend | server.py:32 | escaping works character by character: the escape of a concatenation is the concatenation of the escapes |
| Html.EscPlain | server.py:32 | text without `& < > " '` is left as it is |
| Html.ImgTagOneOpen | server.py:90-93 | an image element whose source has no `<` and whose caption is escaped contains exactly one `<` |
| Html.RenderTagCount | server.py:86-95 | rendered segments contain one `<` per emote segment and no other, when the image sources have no `<` |
| Html.RenderAppend | server.py:86-95 | rendering segments one after the other gives the two renderings one after the other |
| TwitchEmotes.ParseEmotesEmpty | server.py:71-84 | the tag yields no range exactly when no `/`-part has a `:` and a position with `-` |
| TwitchEmotes.TwRenderPlain | server.py:70-84 | `tw_render` returns `esc(text)` exactly when the tag has no such part |
| TwitchEmotes.SortByStart | server.py:85 | the sort returns a permutation of the ranges |
| TwitchEmotes.SortByStartSorted | server.py:85 | the sort returns the ranges in ascending order of start |
| TwitchEmotes.SortWellFormed | server.py:85 | sorting keeps in-bounds, non-empty, pairwise disjoint ranges so |
| TwitchEmotes.PySlice | server.py:88-95 | a slice is the subsequence between its bounds when they are in range, and never longer than the text |
| TwitchEmotes.WalkLoop | server.py:86-95 | the loop over the sorted ranges computes the walk of the text |
| TwitchEmotes.WalkHasTag | server.py:87-93 | the walk of at least one range contains an image |
| TwitchEmotes.WalkRendersSegments | server.py:86-95 | for ranges laid end to end, the walk is the rendering of: the gap before each range as plain text, then the range as an image |
| TwitchEmotes.SegmentsCoverText | server.py:86-95 | those segments stand for the text exactly: their raw texts concatenate to it |
| TwitchEmotes.SegmentsEmotes | server.py:87-93 | there is one image per range, in order, with the range's id and the text it covers as its caption |
| TwitchEmotes.TwRenderLayout | server.py:70-95 | for well-formed ranges, the result of `tw_render` is the rendering of segments that cover the text, with one image per range |
| TwitchEmotes.TwRenderOneTagPerRange | server.py:70-95 | for well-formed ranges with markup-free ids, the output contains exactly one `<` per range |
| KickEmotes.MatchToken | server.py:101 | a match is a valid token (digits, then a name without `]`) whose text the string starts with |
| KickEmotes.MatchTokenComplete | server.py:101 | every valid token at the start of a string is matched as that token |
| KickEmotes.SplitTokens | server.py:101 | the split has an odd number of parts |
| KickEmotes.SplitTokensAlternate | server.py:101 | literal text and tokens alternate: every part at an odd index is the text of a valid token |
| KickEmotes.KiSplitConcat | server.py:101 | the parts of the split concatenate to the text |
| KickEmotes.FullMatch | server.py:104 | a part that matches as a whole is a valid token, or a token and a final newline, which `$` also accepts |
| KickEmotes.TokenMatched | server.py:104 | conversely, every valid token matches as a whole part, with or without a final newline |
| KickEmotes.KiRenderLoop | server.py:102-114 | the loop over the parts computes `ki_render` |
| KickEmotes.KiRenderSegments | server.py:100-114 | `ki_render` is the rendering of the text cut at its tokens |
| KickEmotes.KiSegmentsCover | server.py:100-114 | those segments stand for the text exactly |
| KickEmotes.KiSegmentsTokens | server.py:104-111 | every image is that of a valid token, captioned `:NAME:` |
| KickEmotes.KiSegmentsFind | server.py:101 | the text has an image segment exactly when a token occurs in it |
| KickEmotes.EscColons | server.py:109 | the caption `:NAME:` escaped is `:` + `esc(NAME)` + `:` |
| KickEmotes.KiSplitLiterals | server.py:101 | the split misses no token: no token occurs in the literal parts between the tokens |
| KickEmotes.KiRenderOneTagPerToken | server.py:100-114 | the output contains exactly one `<` per token of the split, which by `KiSplitLiterals` are all the tokens in the text |
| KickEmotes.KiRenderPlain | server.py:100-114 | `ki_render` returns `esc(text)` exactly when the text holds no token |
| YoutubeRuns.RemoveColons | server.py:127 | the name is left without a colon |
| YoutubeRuns.RemoveColonsKeeps | server.py:127 | a name without a colon is left as it is |
| YoutubeRuns.YtParseRunsLoop | server.py:119-135 | the loop that keeps the non-empty fragments computes the concatenation of every run's fragment |
| YoutubeRuns.YtParseRunsAppend | server.py:119-135 | the rendering of two lists of runs is the two renderings in order |
| YoutubeRuns.YtParseTextRuns | server.py:122-123 | a message of text runs is its text escaped |
| YoutubeRuns.FragmentTags | server.py:121-134 | a run gives one `<` if it shows an image and none otherwise |
| YoutubeRuns.YtTagCount | server.py:119-135 | the message contains one `<` per image run, when thumbnail URLs contain no `<` |
| YoutubeRuns.FragmentWithoutImage | server.py:124-134 | an emoji run without a URL gives its escaped name without colons; any other run without text gives nothing |
| IrcTags.TagBlock | server.py:141-143 | the block is the non-empty run after `@` without a space, ending at the first space or at the end of the line, and there is none exactly when the line does not start with `@` and a non-space |
| IrcTags.ParseItem | server.py:145 | an item is split at its first `=`; an item without `=` is a key with value `''` |
| IrcTags.ToMap | server.py:144-147 | the dictionary's keys are exactly the items' keys |
| IrcTags.ToMapLastWins | server.py:144-147 | a key's value is that of its last item |
| IrcTags.TwTagsOfTagsText | server.py:140-147 | writing tags into a line's tag block and parsing the line gives the dictionary of those tags |
| IrcTags.TwTagsValue | server.py:140-147 | a key written once reads back as its value |
| TwitchLines.MatchPrivmsg | server.py:180 | a match is a non-empty message without a line break |
| TwitchLines.MatchPrivmsgOf | server.py:180 | `PRIVMSG #chan :text` yields exactly `text` |
| TwitchLines.SearchSkips | server.py:180 | the search is leftmost: positions before the first `PRIVMSG #` contribute nothing |
| TwitchLines.ChatTextTakenForJoin | server.py:168-175 | any chat line whose message text contains `End of /NAMES list` is taken for the end of the NAMES reply |
| TwitchLines.ClassifyChatLine | server.py:176-187 | a chat line whose text does not contain that phrase gives the chat event of its tags and text |
| TwitchLines.ChatLineCommand | server.py:176 | the command of a chat line is `PRIVMSG` |
| TwitchLines.ChatLineFind | server.py:180 | the first `PRIVMSG #` of a chat line is its command's, whatever tags and source come before it |
| TwitchLines.ChatEvent | server.py:176-187 | a `PRIVMSG` line gives a chat message or a rendering failure exactly when the pattern finds a message text, and nothing otherwise; the sender is never empty |
| TwitchLines.NoticeEvent | server.py:188-201 | a `USERNOTICE` line gives a system message exactly when its `msg-id` is sub, resub, subgift, anonsubgift or raid: the subscription text for sub and resub, the gift text for subgift and anonsubgift, the raid text with `msg-param-viewerCount` (else `?`) for raid, each naming `display-name`, or `Alguém` when it is missing or empty |
| TwitchLines.ClassifyLine | server.py:168-201 | the tests run in order: `Pong` exactly for a line that starts with `PING`; `Joined` exactly for any other line that contains the NAMES phrase; a chat event only for a line with `PRIVMSG` and without the phrase; a notice only for a line with `USERNOTICE` and neither of those |
| TwitchLines.ClassifyLineFixed | server.py:168-201 | the same order with the NAMES test made on the IRC command: `Joined` exactly for a line whose command is 366 |
| TwitchLines.ClassifyFixedChatLine | server.py:168-187 | with the NAMES reply recognised by its command, every chat line gives the chat event of its tags and text, whatever the text says |
| TwitchLines.GetOr | server.py:178-179 | `tags.get(k) or d` falls back on a missing or empty value |
| TwitchLines.GetDefault | server.py:182 | `tags.get(k, d)` falls back only on a missing key |
| TwitchLines.LineEvents | server.py:165-204 | the lines of a frame give at most one event each, and no event follows a rendering failure, which ends the connection |
| TwitchLines.FrameEvents | server.py:165-204 | the same for a frame split at CR LF and classified as written |
| TwitchLines.FrameEventsFixed | server.py:165-204 | the same for the corrected classification |
| TwitchLines.FrameEventsOfLines | server.py:165-204 | a frame of IRC lines joined by CR LF, with or without the final CR LF Twitch ends each line with, gives, as written and corrected, the classification of each line in order, up to and including the first line whose emotes fail to render |
| TwitchLines.FrameOfOneLine | server.py:165-204 | a frame of one IRC line, with or without its final CR LF, gives that line's event |
| TwitchLines.FrameOfNamesChat | server.py:165-187 | a frame holding one CR LF-ended chat line whose text contains the NAMES phrase gives `Joined` as written, and the chat message corrected |
| YoutubeToken.WsRun | server.py:410-413 | `\s*` is greedy: it takes whitespace only, and stops only at a non-space or at the end |
| YoutubeToken.QuoteRun | server.py:410-413 | `[^"]` takes the maximal run of characters other than `"` |
| YoutubeToken.KeyValue | server.py:410-413 | a match of `"continuation"\s*:\s*"([^"]{20,})"` yields a token of at least 20 characters without `"` that stands between quotes in the text |
| YoutubeToken.LastInWindow | server.py:411-412 | the greedy `[^}]{0,200}` settles on the last key-value that starts in the window |
| YoutubeToken.StartsWithin | server.py:413 | `[^}]{0,100}"clickTrackingParams"` holds exactly when the key starts within the window |
| YoutubeToken.Search | server.py:415-416 | a search result is a quoted token of at least 20 characters without `"` |
| YoutubeToken.ExtractToken | server.py:408-419 | the token is the capture of the first pattern found, in the order reload, timed, invalidation, generic; it is `''` exactly when no pattern is found, and otherwise quoted in the page, at least 20 characters long and without `"` |
| YoutubeToken.ExtractReloadToken | server.py:408-419 | a page whose first reload object carries a token yields that token, whatever else the page holds |
| YoutubeToken.MatchTimedText | server.py:411 | a timed object whose last field is the key-value yields its token, whatever fields of up to 200 characters come before it |
| YoutubeToken.NoKeyValueInside | server.py:411-412 | no key-value starts inside one that closes its object |
| YoutubePoll.NextBackoff | server.py:364-365 | the backoff is at most 60000, 20000 after 0, and otherwise twice the old value until it reaches 60000 |
| YoutubePoll.BackoffSequence | server.py:364-368 | consecutive 429 answers from 0 give 20000, 40000, 60000, 60000, … |
| YoutubePoll.NextBackoffValue | server.py:364-365 | the backoff keeps to 0, 20000, 40000 or 60000 |
| YoutubePoll.TokenOf | server.py:378-383 | only a non-empty token counts |
| YoutubePoll.NextToken | server.py:377-384 | the continuation becomes the page's timed token, else its invalidation token, else its reload token, and stays as it was when the page has none; it never becomes empty |
| YoutubePoll.NextTokenStable | server.py:377-384 | reading the same page again keeps the token, and once a page carries a token the previous one does not matter |
| YoutubePoll.PollMs | server.py:386-390 | the poll interval is the timed data's non-zero `timeoutMs`, else the invalidation data's, else 5000; it is never 0 |
| YoutubePoll.TimedPage | server.py:377-397 | a page whose timed data carries a token and an interval takes both from it; a page without timed or invalidation data polls again after 2000 ms |
| YoutubePoll.SleepMs | server.py:397 | the sleep is at most 2000 ms, and the poll interval when that is smaller |
| YoutubePoll.EndedIgnoresCase | server.py:400 | the end-of-stream test ignores case |
| YoutubePoll.Contains404Ends | server.py:400 | any error whose text holds `404` ends the loop |
| YoutubePoll.HttpStatusEnds | server.py:370-400 | the error `HTTP <status>` ends the loop exactly when the status's digits hold `404`: a 404 ends it, a 500 does not |
| YoutubePoll.NotFoundEnds | server.py:400 | any error whose text holds `Not Found` ends the loop |
| YoutubePoll.Poller.RateLimited | server.py:364-368 | a 429 grows the backoff by `NextBackoff`, waits that long, and keeps the token |
| YoutubePoll.Poller.Polled | server.py:377-405 | a page sets the next token and passes the actions on only after the first page; then the backoff is reset and the loop sleeps at most 2000 ms, unless handling an action raises: then only the actions before it are handled, the backoff is kept, and the error ends the loop or waits 8 s |
| YoutubePoll.Poller.Failed | server.py:399-405 | the loop ends exactly on an end-of-stream error, and otherwise waits 8 s |
| YoutubePoll.BackoffRun | server.py:364-368 | a run of 429 answers waits `BackoffAfter(1)`, `BackoffAfter(2)`, … |
| KickEvents.GiftCount | server.py:297 | the count is the number of gifted names, or 1 when the list is missing or empty |
| KickEvents.OrDefault | server.py:274-276 | `d.get(k) or x` gives a non-empty string field, and falls back on a missing, null or empty one |
| KickEvents.GetDefault | server.py:286 | `d.get(k, x)` falls back only on a missing field: a string stays as it is, even empty, and a null reads `None` |
| KickEvents.ChatAction | server.py:269-281 | a chat event is sent exactly when its content is non-empty, with the content rendered by `ki_render`, under the sender's `username`, else `slug`, else `Anônimo`, and the identity colour or `''`; null data drops the connection |
| KickEvents.HandleEvent | server.py:253-298 | each event name gives its action: connection established → subscribe, subscription succeeded → connected, ping → pong, chat message → `ChatAction`, subscription → `SubText`, gifted subscriptions → `GiftText` of the data or `{}`; any other name gives nothing, and only the chat message event gives a chat message |
| KickEvents.GiftEventCount | server.py:291-297 | a gifted-subscriptions event names its giver and counts the gifted names; with no data it names `Alguém` and counts 1 |
| KickEvents.ChatEventPlain | server.py:269-281 | a chat message event whose content holds no emote token shows the content escaped, under the sender's name, slug or `Anônimo` |
| KickEvents.SubText | server.py:283-288 | a subscription names `Alguém` only for missing data or a missing name; an empty name stays empty and a null one reads `None` |
| KickEvents.GiftText | server.py:291-297 | a gift names its giver, or `Alguém` when the name is missing, null or empty, with the gift count |
| Hub.UnframeFrame | server.py:40 | the payload of a frame reads back |
| Hub.FrameLineBreaks | server.py:40 | a payload without LF makes one event: the frame's only LFs are the two that end it, and it holds a CR, which SSE also reads as a line end, only where the payload does |
| Hub.StatusFrameOneEvent | server.py:63-65 | a status message is one event: two LFs and no CR |
| Hub.Queue.PutNowait | server.py:42-45 | a queue with room gets the item at its tail; a full one is left as it was and reports it |
| Hub.Queue.Get | server.py:543 | a client takes the oldest frame of its queue |
| Hub.Hub.constructor | server.py:24-26 | there are no clients and every platform is off |
| Hub.Hub.Broadcast | server.py:38-48 | every queue that had room ends with the frame at its tail; every full one leaves the clients unchanged; no other client is added or removed; no client queue exceeds its bound |
| Hub.Hub.SetStatus | server.py:63-65 | only the platform's entry changes, then the status message is broadcast |
| Hub.Hub.Connect | server.py:536-537 | a fresh empty queue of 200 joins the clients |
| Hub.Hub.Disconnect | server.py:552 | the client's queue leaves the clients |

## Left out

- The reconnect loops (`twitch_loop`, `kick_loop`, `youtube_loop`) and
  `viewers_loop`. Their WebSocket and HTTP I/O, sleeps, random nicknames
  and prints are not modelled; what they decide is modelled above.
- `_yt_handle_action`: it is not part of this model. The poll state
  passes a page's actions on without looking at them. Whether handling
  an action raises, and with which message, is a parameter of
  `YoutubePoll.Poller.Polled`.
- The initial token loop of `youtube_loop` (server.py:328-342) is HTTP
  I/O. The extraction it repeats is `YoutubeToken.ExtractToken`.
- The SSE endpoint `events_handler`: stream writes, timeouts and
  cancellation. Only the queue it creates and its discard are modelled
  (`Hub.Hub.Connect`, `Hub.Hub.Disconnect`).
- History persistence (`save_message`, `_append_line`, `read_lines`, the
  lock), `static_handler` and `main`: file I/O, the file system and
  startup.
- `json.dumps` and `json.loads`:
  - payloads are strings; only the status payload is written out;
  - Kick event data is taken as already decoded into the fields the
    handlers read;
  - a field of another JSON type than the one the handler expects is not
    modelled.
- `esc(None)`: the model's strings are never None. `esc` of an empty
  string is `''`, as in the source.
- `KickEmotes.MatchToken`: `\d` is taken as the ASCII digits. Python's
  `\d` in a `str` pattern matches every Unicode decimal digit, so a
  token whose id holds, say, an Arabic-Indic digit is an image in the
  source and literal text in the model.
- `Strings.ParseNat`: Python's `int()` also accepts surrounding
  whitespace, a sign, `_` between digits and non-ASCII digits. The model
  accepts only ASCII digit strings and treats anything else as the error
  `int()` raises.
- `YoutubeRuns.RunFragment`: an emoji run whose `emoji` field is null
  makes `yt_parse_runs` raise in the source. The model has no such input.
  A `run['emoji']` without a URL or a name gives `''`.
- `YoutubeRuns.YtTagCount`: thumbnail URLs are put into `src` unescaped,
  so the one-image-per-run count holds only for URLs without `<`
  (`SafeUrls`).
- `TwitchEmotes.TwRenderOneTagPerRange`: the emote id is put into `src`
  unescaped, so the count holds only for ids without `<` (`SafeIds`).
  Overlapping or out-of-bounds ranges are rendered as Python slices
  them, but the layout lemmas hold only for disjoint, in-bounds ranges.
- `YoutubePoll.Poller.Failed`: the `set_status('yt', False)` and the
  closing message that follow an end-of-stream error go through
  `Hub.Hub.SetStatus` and `Hub.Hub.Broadcast`. They are not chained to
  the poller.
- `YoutubePoll.SleepMs`: the sleep is in milliseconds. The source
  divides by 1000 into floating-point seconds.
- `YoutubePoll.NextBackoff`: the first 429 waits 20000 ms, not 10000.
  The multiplication applies to the default as well. The model follows
  the code.
- Case folding in the end-of-stream test is ASCII only. No other
  character folds to a letter of `404|ended|not.*found` under Python's
  case-insensitive matching.
- Concurrency: the asyncio tasks all run on one event loop, and
  `broadcast` never awaits. Each hub operation is therefore modelled as
  one atomic step.

## Findings

| source | as written | input that shows it | evidently intended | confidence | as-written member | corrected member |
|---|---|---|---|---|---|---|
| server.py:171 | any line that contains `End of /NAMES list` is taken for the end of the NAMES reply, before the `PRIVMSG` test | the chat line `@color=#FF0000 :v!v@v.tmi.twitch.tv PRIVMSG #xumbr3ga :End of /NAMES list`: the message is dropped and Twitch is announced as connected again | recognise the reply by its command (numeric 366, RPL_ENDOFNAMES), so the text of a chat message cannot change how its line is handled | medium; not executed | TwitchLines.ChatTextTakenForJoin | TwitchLines.ClassifyFixedChatLine |

`TwitchLines.FrameEvents` runs the loop with the tests as written
(`TwitchLines.ClassifyLine`); `TwitchLines.FrameEventsFixed` runs it with
the NAMES test made on the IRC command (`TwitchLines.ClassifyLineFixed`),
every other test unchanged. `TwitchLines.FrameOfNamesChat` shows the two
apart on a frame of one chat line.

=== FILE: html.dfy ===
/** HTML escaping (`esc`, server.py:32) and the `<img>` element every
    renderer emits for a recognised emote.

    A rendered chat line is built from two kinds of piece: user text, which
    goes through `Esc`, and emote images, whose `alt`/`title` text also goes
    through `Esc`.  `Segment` names these pieces so that the three renderers
    can be described by the segments they cut their input into. */
module Html {
  import opened Strings

  /** `html.escape(c, quote=True)` for one character. */
  function EscChar(c: char): string {
    match c
    case '&' => "&amp;"
    case '<' => "&lt;"
    case '>' => "&gt;"
    case '"' => "&quot;"
    case '\'' => "&#x27;"
    case _ => [c]
  }

  /** `esc(s)` */
  function Esc(s: string): string {
    if s == [] then [] else EscChar(s[0]) + Esc(s[1..])
  }

  /** Escaped text never contains a character that could open or close a
      tag or an attribute value. */
  lemma {:induction false} EscNoMarkup(s: string)
    ensures '<' !in Esc(s) && '>' !in Esc(s) && '"' !in Esc(s) && '\'' !in Esc(s)
  {
    if s != [] {
      EscNoMarkup(s[1..]);
      EscCharNoMarkup(s[0]);
      assert Esc(s) == EscChar(s[0]) + Esc(s[1..]);
    }
  }

  lemma EscCharNoMarkup(c: char)
    ensures '<' !in EscChar(c) && '>' !in EscChar(c) && '"' !in EscChar(c) && '\'' !in EscChar(c)
  {
  }

  /** Decodes the five character references `Esc` produces and nothing
      else. */
  function Unescape(h: string): string
    decreases |h|
  {
    if h == [] then []
    else if h[0] != '&' then [h[0]] + Unescape(h[1..])
    else if StartsWith(h, "&amp;") then "&" + Unescape(h[5..])
    else if StartsWith(h, "&lt;") then "<" + Unescape(h[4..])
    else if StartsWith(h, "&gt;") then ">" + Unescape(h[4..])
    else if StartsWith(h, "&quot;") then "\"" + Unescape(h[6..])
    else if StartsWith(h, "&#x27;") then "'" + Unescape(h[6..])
    else [h[0]] + Unescape(h[1..])
  }

  lemma UnescapeReference(ref: string, c: char, rest: string)
    requires ref == EscChar(c) && |ref| > 1
    ensures Unescape(ref + rest) == [c] + Unescape(rest)
  {
    var h := ref + rest;
    assert h[..|ref|] == ref && h[|ref|..] == rest;
    assert h[0] == '&';
    if c == '&' {
      assert StartsWith(h, "&amp;");
    } else if c == '<' {
      assert h[1] == 'l';
    } else if c == '>' {
      assert h[1] == 'g';
    } else if c == '"' {
      assert h[1] == 'q';
    } else {
      assert h[1] == '#';
    }
  }

  lemma UnescapeEscChar(c: char, rest: string)
    ensures Unescape(EscChar(c) + rest) == [c] + Unescape(rest)
  {
    if c in "&<>\"'" {
      UnescapeReference(EscChar(c), c, rest);
    } else {
      assert EscChar(c) == [c];
      var h := [c] + rest;
      assert h[0] == c && h[1..] == rest;
    }
  }

  /** Escaping loses nothing: the escaped text decodes back to the text. */
  lemma {:induction false} UnescapeEsc(s: string)
    ensures Unescape(Esc(s)) == s
  {
    if s != [] {
      UnescapeEscChar(s[0], Esc(s[1..]));
      UnescapeEsc(s[1..]);
    }
  }

  /** Escaping works character by character, so it distributes over
      concatenation. */
  lemma {:induction false} EscAppend(a: string, b: string)
    ensures Esc(a + b) == Esc(a) + Esc(b)
  {
    if a == [] {
      assert a + b == b;
    } else {
      assert (a + b)[0] == a[0] && (a + b)[1..] == a[1..] + b;
      EscAppend(a[1..], b);
    }
  }

  predicate NoSpecialChars(s: string) {
    forall k :: 0 <= k < |s| ==> s[k] !in "&<>\"'"
  }

  /** Text without `& < > " '` is left as it is. */
  lemma {:induction false} EscPlain(s: string)
    requires NoSpecialChars(s)
    ensures Esc(s) == s
  {
    if s != [] {
      assert s[0] !in "&<>\"'";
      EscPlain(s[1..]);
    }
  }

  const ImgStyle: string :=
    " style=\"" + "height:1.4em;" + "vertical-align:" + "middle;" + "margin:0 2px;" + "\""

  /** `<img src="SRC" alt="ALT" title="ALT">`, with the inline style the
      Kick and YouTube renderers add when `styled`. */
  function ImgTag(src: string, alt: string, styled: bool): string {
    "<img src=\"" + (src + ImgTagTail(alt, styled))
  }

  /** The part of an image tag after its `src` value. */
  function ImgTagTail(alt: string, styled: bool): string {
    "\" alt=\"" + alt + "\" title=\"" + alt + "\"" + (if styled then ImgStyle else "") + ">"
  }

  lemma ImgTagTailNoOpen(alt: string, styled: bool)
    requires '<' !in alt
    ensures '<' !in ImgTagTail(alt, styled)
  {
    assert '<' !in ImgStyle;
  }

  lemma ImgTagHeadOneOpen()
    ensures CountChar("<img src=\"", '<') == 1
  {
    var head := "<img src=\"";
    assert head[0] == '<' && '<' !in head[1..];
    CountCharAbsent(head[1..], '<');
  }

  /** An image tag built from a source without `<` and an escaped caption
      holds exactly one `<`: the one that opens it. */
  lemma ImgTagOneOpen(src: string, caption: string, styled: bool)
    requires '<' !in src
    ensures CountChar(ImgTag(src, Esc(caption), styled), '<') == 1
  {
    var tail := ImgTagTail(Esc(caption), styled);
    EscNoMarkup(caption);
    ImgTagTailNoOpen(Esc(caption), styled);
    ImgTagHeadOneOpen();
    CountCharAppend("<img src=\"", src + tail, '<');
    CountCharAppend(src, tail, '<');
    CountCharAbsent(src, '<');
    CountCharAbsent(tail, '<');
  }

  /** A piece of a rendered chat line.  `raw` is the part of the input the
      piece stands for; an emote shows `caption` as its alt/title text. */
  datatype Segment =
    | Plain(raw: string)
    | Emote(src: string, caption: string, styled: bool, raw: string)

  function RenderSegment(g: Segment): string {
    match g
    case Plain(raw) => Esc(raw)
    case Emote(src, caption, styled, _) => ImgTag(src, Esc(caption), styled)
  }

  /** The HTML of a sequence of segments, in order. */
  function Render(gs: seq<Segment>): string {
    if gs == [] then [] else RenderSegment(gs[0]) + Render(gs[1..])
  }

  /** The input text the segments stand for, in order. */
  function Raw(gs: seq<Segment>): string {
    if gs == [] then [] else gs[0].raw + Raw(gs[1..])
  }

  /** The emote segments, in order. */
  function Emotes(gs: seq<Segment>): (es: seq<Segment>)
    ensures |es| <= |gs|
    ensures forall k :: 0 <= k < |es| ==> es[k].Emote?
  {
    if gs == [] then []
    else if gs[0].Emote? then [gs[0]] + Emotes(gs[1..])
    else Emotes(gs[1..])
  }

  predicate SafeSources(gs: seq<Segment>) {
    forall k :: 0 <= k < |gs| && gs[k].Emote? ==> '<' !in gs[k].src
  }

  /** No markup comes from the text: every `<` in the rendered HTML opens
      the image of an emote segment, one per segment. */
  lemma {:induction false} RenderTagCount(gs: seq<Segment>)
    requires SafeSources(gs)
    ensures CountChar(Render(gs), '<') == |Emotes(gs)|
  {
    if gs != [] {
      RenderTagCount(gs[1..]);
      CountCharAppend(RenderSegment(gs[0]), Render(gs[1..]), '<');
      match gs[0]
      case Plain(raw) =>
        EscNoMarkup(raw);
        CountCharAbsent(Esc(raw), '<');
      case Emote(src, caption, styled, _) =>
        ImgTagOneOpen(src, caption, styled);
    }
  }

  lemma RenderPair(a: Segment, b: Segment)
    ensures Render([a, b]) == RenderSegment(a) + RenderSegment(b)
  {
    assert [a, b][1..] == [b];
    assert Render([b]) == RenderSegment(b) + Render([]);
  }

  lemma RawPair(a: Segment, b: Segment)
    ensures Raw([a, b]) == a.raw + b.raw
  {
    assert [a, b][1..] == [b];
    assert Raw([b]) == b.raw + Raw([]);
  }

  lemma {:induction false} RenderAppend(a: seq<Segment>, b: seq<Segment>)
    ensures Render(a + b) == Render(a) + Render(b)
  {
    if a == [] {
      assert a + b == b;
    } else {
      assert (a + b)[0] == a[0] && (a + b)[1..] == a[1..] + b;
      RenderAppend(a[1..], b);
    }
  }

  lemma {:induction false} RawAppend(a: seq<Segment>, b: seq<Segment>)
    ensures Raw(a + b) == Raw(a) + Raw(b)
  {
    if a == [] {
      assert a + b == b;
    } else {
      assert (a + b)[0] == a[0] && (a + b)[1..] == a[1..] + b;
      RawAppend(a[1..], b);
    }
  }

  lemma {:induction false} EmotesAppend(a: seq<Segment>, b: seq<Segment>)
    ensures Emotes(a + b) == Emotes(a) + Emotes(b)
  {
    if a == [] {
      assert a + b == b;
    } else {
      assert (a + b)[0] == a[0] && (a + b)[1..] == a[1..] + b;
      EmotesAppend(a[1..], b);
    }
  }
}

=== FILE: hub.dfy ===
/** The broadcast hub (server.py:24-26, 38-48, 63-65): the set of queues
    of the connected Server-Sent-Events clients, each bounded, and the
    on/off status of each platform.  `broadcast` puts one frame into every
    queue without waiting and drops the clients whose queue was full. */
module Hub {
  import opened Wrappers
  import opened Strings

  /** The bound of a client's queue (server.py:537). */
  const ClientCapacity: nat := 200

  /** An `asyncio.Queue`: its items, oldest first, and its `maxsize`
      (0: unbounded). */
  class Queue {
    var items: seq<string>
    const capacity: nat

    predicate Full()
      reads this
    {
      0 < capacity <= |items|
    }

    constructor(capacity: nat)
      ensures items == [] && this.capacity == capacity
    {
      items := [];
      this.capacity := capacity;
    }

    /** `put_nowait`: append, or fail (`QueueFull`) leaving the queue as it
        was. */
    method PutNowait(x: string) returns (ok: bool)
      modifies this
      ensures ok == !old(Full())
      ensures items == if ok then old(items) + [x] else old(items)
    {
      if Full() {
        ok := false;
      } else {
        items := items + [x];
        ok := true;
      }
    }

    /** `get`, once an item is there: the oldest item. */
    method Get() returns (x: string)
      requires items != []
      modifies this
      ensures x == old(items)[0] && items == old(items)[1..]
    {
      x := items[0];
      items := items[1..];
    }
  }

  /** One Server-Sent-Events frame: `data: ` and the payload, ended by a
      blank line. */
  function Frame(payload: string): string {
    "data: " + payload + "\n\n"
  }

  /** The payload of a frame. */
  function Unframe(frame: string): (payload: Option<string>)
  {
    if |frame| >= 8 && frame[..6] == "data: " && frame[|frame| - 2..] == "\n\n" then
      Some(frame[6..|frame| - 2])
    else None
  }

  lemma UnframeFrame(payload: string)
    ensures Unframe(Frame(payload)) == Some(payload)
  {
    var f := Frame(payload);
    assert f == "data: " + (payload + "\n\n");
    assert f[..6] == "data: " && f[|f| - 2..] == "\n\n";
    assert f[6..|f| - 2] == payload;
  }

  /** A payload without a line break (`json.dumps` writes none) is one
      event: the frame's only LFs are the two that end it, and it has a CR,
      which SSE also reads as a line end, only where the payload has one. */
  lemma FrameLineBreaks(payload: string)
    requires '\n' !in payload
    ensures CountChar(Frame(payload), '\n') == 2
    ensures '\r' in Frame(payload) <==> '\r' in payload
  {
    assert Frame(payload) == "data: " + payload + "\n\n";
    CountCharAbsent(payload, '\n');
    CountCharAppend("data: ", payload, '\n');
    CountCharAppend("data: " + payload, "\n\n", '\n');
    CountCharAbsent("data: ", '\n');
  }

  datatype Platform = Tw | Ki | Yt

  function PlatformKey(p: Platform): string {
    match p
    case Tw => "tw"
    case Ki => "ki"
    case Yt => "yt"
  }

  /** `json.dumps({'p': 'status', 'platform': p, 'on': on})` */
  function StatusPayload(p: Platform, on: bool): string {
    "{\"p\": \"status\", \"platform\": \"" + PlatformKey(p) + "\", \"on\": " +
      (if on then "true" else "false") + "}"
  }

  /** A status message is one event. */
  lemma StatusFrameOneEvent(p: Platform, on: bool)
    ensures CountChar(Frame(StatusPayload(p, on)), '\n') == 2 && '\r' !in Frame(StatusPayload(p, on))
  {
    StatusNoLineBreak(p, on);
    FrameLineBreaks(StatusPayload(p, on));
  }

  lemma StatusNoLineBreak(p: Platform, on: bool)
    ensures '\n' !in StatusPayload(p, on) && '\r' !in StatusPayload(p, on)
  {
    var head := "{\"p\": \"status\", \"platform\": \"";
    var mid := "\", \"on\": ";
    assert '\n' !in head && '\n' !in mid && '\n' !in PlatformKey(p);
    assert '\n' !in (if on then "true" else "false");
    assert '\r' !in head && '\r' !in mid && '\r' !in PlatformKey(p);
    assert '\r' !in (if on then "true" else "false");
  }

  class Hub {
    var clients: set<Queue>
    var status: map<Platform, bool>

    /** Every platform starts off, with no client. */
    constructor()
      ensures clients == {}
      ensures status == map[Tw := false, Ki := false, Yt := false]
    {
      clients := {};
      status := map[Tw := false, Ki := false, Yt := false];
    }

    /** `broadcast(msg)`, the message already serialised as `payload`: each
        queue that had room gets the frame at its tail, each full queue is
        dropped from the clients and left as it was. */
    method Broadcast(payload: string)
      modifies this, clients
      ensures clients == set q | q in old(clients) && !old(q.Full())
      ensures forall q :: q in old(clients) ==>
                q.items == if old(q.Full()) then old(q.items) else old(q.items) + [Frame(payload)]
      ensures status == old(status)
      ensures forall q :: q in clients ==> q.capacity == 0 || |q.items| <= q.capacity
    {
      var data := Frame(payload);
      var dead: set<Queue> := {};
      var pending := clients;
      while pending != {}
        invariant pending <= clients && clients == old(clients) && status == old(status)
        invariant forall q :: q in pending ==> q.items == old(q.items) && q.Full() == old(q.Full())
        invariant forall q :: q in old(clients) && q !in pending ==>
                    q.items == if old(q.Full()) then old(q.items) else old(q.items) + [data]
        invariant dead == set q | q in old(clients) && q !in pending && old(q.Full())
        decreases pending
      {
        var q :| q in pending;
        var ok := q.PutNowait(data);
        if !ok {
          dead := dead + {q};
        }
        pending := pending - {q};
      }
      clients := clients - dead;
    }

    /** `set_status(p, on)`: the platform's entry, then the status message
        to every client. */
    method SetStatus(p: Platform, on: bool)
      modifies this, clients
      ensures status == old(status)[p := on]
      ensures clients == set q | q in old(clients) && !old(q.Full())
      ensures forall q :: q in old(clients) ==>
                q.items == if old(q.Full()) then old(q.items)
                           else old(q.items) + [Frame(StatusPayload(p, on))]
    {
      status := status[p := on];
      Broadcast(StatusPayload(p, on));
    }

    /** A client connects: a fresh empty queue of 200 joins the clients
        (server.py:536-537). */
    method Connect() returns (q: Queue)
      modifies this
      ensures fresh(q) && q.items == [] && q.capacity == ClientCapacity
      ensures clients == old(clients) + {q} && status == old(status)
    {
      q := new Queue(ClientCapacity);
      clients := clients + {q};
    }

    /** A client goes away: `clients.discard(q)` (server.py:552). */
    method Disconnect(q: Queue)
      modifies this
      ensures clients == old(clients) - {q} && status == old(status)
    {
      clients := clients - {q};
    }
  }
}

=== FILE: irc_tags.dfy ===
/** The IRCv3 message-tags block of a Twitch IRC line, `_tw_tags`
    (server.py:140-147).

    A tagged line starts `@key=value;key2=value2;flag :prefix COMMAND ...`.
    The parser takes the characters after `@` up to the first space, splits
    them at `;`, splits each item at its first `=` (an item without `=` has
    the value `''`) and builds a dictionary in which a later item overrides
    an earlier one with the same key.  Values are not unescaped. */
module IrcTags {
  import opened Wrappers
  import opened Strings

  datatype Tag = Tag(key: string, value: string)

  /** The length of the run of characters other than a space that `s`
      starts with (`[^ ]+` stops only at U+0020). */
  function NonSpaceRun(s: string): (n: nat)
    ensures n <= |s| && ' ' !in s[..n] && (n < |s| ==> s[n] == ' ')
  {
    if s == [] || s[0] == ' ' then 0
    else
      var m := NonSpaceRun(s[1..]);
      assert s[..m + 1] == [s[0]] + s[1..][..m];
      m + 1
  }

  /** `re.match(r'^@([^ ]+)', line).group(1)`, or None where it does not
      match. */
  function TagBlock(line: string): (r: Option<string>)
    ensures r.Some? ==> r.value != [] && ' ' !in r.value && StartsWith(line, "@" + r.value)
    ensures r.Some? ==> |line| == |r.value| + 1 || line[|r.value| + 1] == ' '
    ensures r.None? <==> line == [] || line[0] != '@' || |line| == 1 || line[1] == ' '
  {
    if |line| >= 2 && line[0] == '@' && line[1] != ' ' then
      var n := NonSpaceRun(line[1..]);
      assert line[..n + 1] == "@" + line[1..][..n];
      Some(line[1..][..n])
    else None
  }

  /** One `;`-separated item, split at its first `=`. */
  function ParseItem(item: string): (t: Tag)
    ensures '=' !in t.key
    ensures '=' in item ==> item == t.key + "=" + t.value
    ensures '=' !in item ==> t == Tag(item, "")
  {
    if '=' in item then
      var i := IndexOf(item, '=');
      assert item == item[..i] + "=" + item[i + 1..];
      Tag(item[..i], item[i + 1..])
    else Tag(item, "")
  }

  function ParseItems(items: seq<string>): (tags: seq<Tag>)
    ensures |tags| == |items|
    ensures forall k :: 0 <= k < |items| ==> tags[k] == ParseItem(items[k])
  {
    if items == [] then [] else [ParseItem(items[0])] + ParseItems(items[1..])
  }

  /** `dict(pairs)`: each pair in turn, a later one overriding an earlier
      one with the same key. */
  function ToMap(tags: seq<Tag>): (m: map<string, string>)
    ensures forall k :: k in m <==> exists i :: 0 <= i < |tags| && tags[i].key == k
  {
    if tags == [] then map[]
    else
      var init := ToMap(tags[..|tags| - 1]);
      var last := tags[|tags| - 1];
      assert forall i :: 0 <= i < |tags| - 1 ==> tags[..|tags| - 1][i] == tags[i];
      init[last.key := last.value]
  }

  /** `_tw_tags(line)` */
  function TwTags(line: string): map<string, string> {
    match TagBlock(line)
    case None => map[]
    case Some(block) => ToMap(ParseItems(Split(block, ';')))
  }

  /** A line that does not start with `@` followed by a non-space has no
      tags. */
  lemma TwTagsUntagged(line: string)
    requires line == [] || line[0] != '@' || |line| == 1 || line[1] == ' '
    ensures TwTags(line) == map[]
  {
  }

  /** The value of a key is the value of the last item with that key. */
  lemma {:induction false} ToMapLastWins(tags: seq<Tag>, i: nat)
    requires i < |tags|
    requires forall j :: i < j < |tags| ==> tags[j].key != tags[i].key
    ensures ToMap(tags)[tags[i].key] == tags[i].value
  {
    if i < |tags| - 1 {
      var init := tags[..|tags| - 1];
      assert forall j :: i < j < |init| ==> init[j] == tags[j];
      ToMapLastWins(init, i);
      assert init[i] == tags[i];
    }
  }

  // ---------------------------------------------------------------------
  // Writing a tag block
  // ---------------------------------------------------------------------

  function ItemText(t: Tag): string {
    t.key + "=" + t.value
  }

  function ItemTexts(tags: seq<Tag>): (items: seq<string>)
    ensures |items| == |tags|
    ensures forall k :: 0 <= k < |tags| ==> items[k] == ItemText(tags[k])
  {
    if tags == [] then [] else [ItemText(tags[0])] + ItemTexts(tags[1..])
  }

  /** A tag that can be written into a tag block unescaped: no `=` in its
      key and no `;` or space anywhere. */
  predicate Writable(t: Tag) {
    '=' !in t.key && ';' !in t.key && ';' !in t.value && ' ' !in t.key && ' ' !in t.value
  }

  /** The tag block of a line carrying `tags`. */
  function TagsText(tags: seq<Tag>): string
    requires |tags| >= 1
  {
    "@" + Join(ItemTexts(tags), ';')
  }

  lemma IndexOfAt(a: string, c: char, b: string)
    requires c !in a
    ensures IndexOf(a + [c] + b, c) == |a|
  {
    var s := a + [c] + b;
    assert s[|a|] == c && s[..|a|] == a;
  }

  /** Joining parts without the separator and splitting again gives the
      parts back. */
  lemma {:induction false} SplitJoin(parts: seq<string>, c: char)
    requires |parts| >= 1
    requires forall k :: 0 <= k < |parts| ==> c !in parts[k]
    ensures Split(Join(parts, c), c) == parts
  {
    if |parts| > 1 {
      SplitJoin(parts[1..], c);
      SplitFirst(parts[0], c, Join(parts[1..], c));
      assert parts == [parts[0]] + parts[1..];
    } else {
      assert c !in parts[0];
    }
  }

  /** The first part of a split ends at the first separator. */
  lemma SplitFirst(a: string, c: char, b: string)
    requires c !in a
    ensures Split(a + [c] + b, c) == [a] + Split(b, c)
  {
    var s := a + [c] + b;
    IndexOfAt(a, c, b);
    assert s[|a|] == c;
    assert s[..|a|] == a && s[|a| + 1..] == b;
  }

  lemma {:induction false} JoinNoChar(parts: seq<string>, c: char, d: char)
    requires |parts| >= 1 && c != d
    requires forall k :: 0 <= k < |parts| ==> d !in parts[k]
    ensures d !in Join(parts, c)
    decreases |parts|
  {
    if |parts| > 1 {
      JoinNoChar(parts[1..], c, d);
    }
  }

  lemma ParseItemText(t: Tag)
    requires Writable(t)
    ensures ParseItem(ItemText(t)) == t
  {
    var item := ItemText(t);
    IndexOfAt(t.key, '=', t.value);
    assert item == t.key + ['='] + t.value;
    assert item[..|t.key|] == t.key && item[|t.key| + 1..] == t.value;
  }

  lemma {:induction false} NonSpaceRunOf(text: string, rest: string)
    requires ' ' !in text && (rest == [] || rest[0] == ' ')
    ensures NonSpaceRun(text + rest) == |text|
    decreases |text|
  {
    if text != [] {
      assert (text + rest)[1..] == text[1..] + rest;
      NonSpaceRunOf(text[1..], rest);
    } else {
      assert text + rest == rest;
    }
  }

  lemma TagBlockOf(block: string, rest: string)
    requires block != [] && ' ' !in block && (rest == [] || rest[0] == ' ')
    ensures TagBlock("@" + block + rest) == Some(block)
  {
    var line := "@" + block + rest;
    assert line[1..] == block + rest;
    NonSpaceRunOf(block, rest);
    assert (block + rest)[..|block|] == block;
  }

  lemma ParseItemTexts(tags: seq<Tag>)
    requires forall k :: 0 <= k < |tags| ==> Writable(tags[k])
    ensures ParseItems(ItemTexts(tags)) == tags
  {
    var items := ItemTexts(tags);
    forall k | 0 <= k < |tags| ensures ParseItem(items[k]) == tags[k] {
      ParseItemText(tags[k]);
    }
  }

  lemma ItemTextsClean(tags: seq<Tag>)
    requires |tags| >= 1 && forall k :: 0 <= k < |tags| ==> Writable(tags[k])
    ensures var block := Join(ItemTexts(tags), ';');
            block != [] && ' ' !in block &&
            Split(block, ';') == ItemTexts(tags)
  {
    var items := ItemTexts(tags);
    var block := Join(items, ';');
    forall k | 0 <= k < |items| ensures ';' !in items[k] && ' ' !in items[k] {
      assert items[k] == tags[k].key + "=" + tags[k].value;
    }
    JoinNoChar(items, ';', ' ');
    SplitJoin(items, ';');
    assert items[0] == tags[0].key + "=" + tags[0].value;
    if |items| == 1 {
      assert block == items[0];
    } else {
      assert block == items[0] + [';'] + Join(items[1..], ';');
    }
  }

  /** Writing tags into a line and parsing the line gives the dictionary
      of those tags, whatever follows the block. */
  lemma TwTagsOfTagsText(tags: seq<Tag>, rest: string)
    requires |tags| >= 1 && forall k :: 0 <= k < |tags| ==> Writable(tags[k])
    requires rest == [] || rest[0] == ' '
    ensures TwTags(TagsText(tags) + rest) == ToMap(tags)
  {
    var block := Join(ItemTexts(tags), ';');
    ItemTextsClean(tags);
    TagBlockOf(block, rest);
    ParseItemTexts(tags);
    assert TagBlock(TagsText(tags) + rest) == Some(block);
    TwTagsOfBlock(TagsText(tags) + rest, block, tags);
  }

  lemma TwTagsOfBlock(line: string, block: string, tags: seq<Tag>)
    requires TagBlock(line) == Some(block) && ParseItems(Split(block, ';')) == tags
    ensures TwTags(line) == ToMap(tags)
  {
  }

  /** Hence a key written once reads back as its value. */
  lemma TwTagsValue(tags: seq<Tag>, rest: string, i: nat)
    requires |tags| >= 1 && forall k :: 0 <= k < |tags| ==> Writable(tags[k])
    requires rest == [] || rest[0] == ' '
    requires i < |tags| && forall j :: i < j < |tags| ==> tags[j].key != tags[i].key
    ensures tags[i].key in TwTags(TagsText(tags) + rest)
    ensures TwTags(TagsText(tags) + rest)[tags[i].key] == tags[i].value
  {
    TwTagsOfTagsText(tags, rest);
    ToMapLastWins(tags, i);
  }
}

=== FILE: kick_emotes.dfy ===
/** Kick emote rendering, `ki_render` (server.py:100-114).

    Kick writes an emote into the message text as `[emote:ID:NAME]`.  The
    renderer splits the text at every such token (keeping the tokens, as
    `re.split` does with a capturing group), turns each token into an image
    and escapes everything else. */
module KickEmotes {
  import opened Wrappers
  import opened Strings
  import opened Html

  /** An emote token: a run of digits and a name without `]`. */
  datatype Token = Token(id: string, name: string)

  predicate ValidToken(t: Token) {
    t.id != [] && AllDigits(t.id) && t.name != [] && ']' !in t.name
  }

  /** The text `[emote:ID:NAME]` of a token. */
  function TokenText(t: Token): string {
    "[emote:" + t.id + ":" + t.name + "]"
  }

  /** The length of the run of digits `s` starts with. */
  function DigitRun(s: string): (n: nat)
    ensures n <= |s| && AllDigits(s[..n]) && (n < |s| ==> !IsDigit(s[n]))
  {
    if s == [] || !IsDigit(s[0]) then 0
    else
      var m := DigitRun(s[1..]);
      assert s[..m + 1] == [s[0]] + s[1..][..m];
      m + 1
  }

  /** The length of the run of characters other than `]` that `s` starts
      with. */
  function NameRun(s: string): (n: nat)
    ensures n <= |s| && ']' !in s[..n] && (n < |s| ==> s[n] == ']')
  {
    if s == [] || s[0] == ']' then 0
    else
      var m := NameRun(s[1..]);
      assert s[..m + 1] == [s[0]] + s[1..][..m];
      m + 1
  }

  /** The match of `\[emote:\d+:[^\]]+\]` at the start of `s`, if any.  Both
      runs are greedy, and as neither can be followed by a character of its
      own class, the match is the maximal runs or nothing. */
  function MatchToken(s: string): (r: Option<Token>)
    ensures r.Some? ==> ValidToken(r.value) && StartsWith(s, TokenText(r.value))
  {
    if !StartsWith(s, "[emote:") then None
    else
      var d := DigitRun(s[7..]);
      if d == 0 || 7 + d == |s| || s[7 + d] != ':' then None
      else
        var n := NameRun(s[8 + d..]);
        if n == 0 || 8 + d + n == |s| then None
        else
          TokenRuns(s, d, n);
          TokenPrefix(s, d, n);
          Some(Token(s[7..7 + d], s[8 + d..8 + d + n]))
  }

  /** The two runs make a valid token. */
  lemma TokenRuns(s: string, d: nat, n: nat)
    requires 8 + d + n < |s| && 0 < d && 0 < n
    requires d == DigitRun(s[7..]) && n == NameRun(s[8 + d..])
    ensures ValidToken(Token(s[7..7 + d], s[8 + d..8 + d + n])) && s[8 + d + n] == ']'
  {
    assert s[7..][..d] == s[7..7 + d];
    assert s[8 + d..][..n] == s[8 + d..8 + d + n];
    assert s[8 + d..][n] == s[8 + d + n];
  }

  lemma SlicePrefix(s: string, j: nat, k: nat)
    requires j <= k <= |s|
    ensures s[..k] == s[..j] + s[j..k]
  {
  }

  /** The text of the token made of the two runs is where `s` starts. */
  lemma TokenPrefix(s: string, d: nat, n: nat)
    requires StartsWith(s, "[emote:") && 8 + d + n < |s| && s[7 + d] == ':' && s[8 + d + n] == ']'
    ensures StartsWith(s, TokenText(Token(s[7..7 + d], s[8 + d..8 + d + n])))
  {
    var e := 9 + d + n;
    SlicePrefix(s, 8 + d + n, e);
    SlicePrefix(s, 8 + d, 8 + d + n);
    SlicePrefix(s, 7 + d, 8 + d);
    SlicePrefix(s, 7, 7 + d);
    assert s[7 + d..8 + d] == ":" && s[8 + d + n..e] == "]";
  }

  /** A run of digits ended by a non-digit is the whole digit run. */
  lemma {:induction false} DigitRunAt(u: string, i: nat)
    requires i < |u| && AllDigits(u[..i]) && !IsDigit(u[i])
    ensures DigitRun(u) == i
  {
    if i > 0 {
      assert u[..i][0] == u[0] && u[1..][..i - 1] == u[..i][1..];
      DigitRunAt(u[1..], i - 1);
    }
  }

  /** A run without `]` ended by `]` is the whole name run. */
  lemma {:induction false} NameRunAt(u: string, i: nat)
    requires i < |u| && ']' !in u[..i] && u[i] == ']'
    ensures NameRun(u) == i
  {
    if i > 0 {
      assert u[..i][0] == u[0] && u[1..][..i - 1] == u[..i][1..];
      NameRunAt(u[1..], i - 1);
    }
  }

  /** Where the pieces of a token's text stand in it. */
  lemma TokenTextAt(t: Token)
    ensures var x := TokenText(t);
            |x| == 9 + |t.id| + |t.name| && x[..7] == "[emote:" &&
            x[7..7 + |t.id|] == t.id && x[7 + |t.id|] == ':' &&
            x[8 + |t.id|..8 + |t.id| + |t.name|] == t.name && x[8 + |t.id| + |t.name|] == ']'
  {
  }

  /** The pattern recognises exactly the valid tokens: text that starts
      with a token's text matches, with that token. */
  lemma MatchTokenComplete(t: Token, s: string)
    requires ValidToken(t) && StartsWith(s, TokenText(t))
    ensures MatchToken(s) == Some(t)
  {
    var i, m := |t.id|, |t.name|;
    TokenSlices(t, s);
    DigitRunAt(s[7..], i);
    NameRunAt(s[8 + i..], m);
    MatchTokenOf(s, t);
  }

  /** Where the pieces of the token stand in a string that starts with its
      text. */
  lemma TokenSlices(t: Token, s: string)
    requires StartsWith(s, TokenText(t))
    ensures var i, m := |t.id|, |t.name|;
            8 + i + m < |s| && StartsWith(s, "[emote:") &&
            s[7..7 + i] == t.id && s[7 + i] == ':' && s[8 + i..8 + i + m] == t.name && s[8 + i + m] == ']' &&
            s[7..][..i] == t.id && s[7..][i] == ':' && s[8 + i..][..m] == t.name && s[8 + i..][m] == ']'
  {
    var x := TokenText(t);
    var i, m := |t.id|, |t.name|;
    TokenTextAt(t);
    SliceOfPrefix(s, x, 0, 7);
    SliceOfPrefix(s, x, 7, 7 + i);
    SliceOfPrefix(s, x, 8 + i, 8 + i + m);
    assert s[7 + i] == s[..|x|][7 + i];
    assert s[8 + i + m] == s[..|x|][8 + i + m];
  }

  lemma SliceOfPrefix(s: string, x: string, a: nat, b: nat)
    requires StartsWith(s, x) && a <= b <= |x|
    ensures s[a..b] == x[a..b]
  {
    forall k | a <= k < b ensures s[k] == x[k] {
      assert s[k] == s[..|x|][k];
    }
    assert s[a..b] == x[a..b];
  }

  lemma MatchTokenOf(s: string, t: Token)
    requires ValidToken(t) && 8 + |t.id| + |t.name| < |s| && StartsWith(s, "[emote:")
    requires DigitRun(s[7..]) == |t.id| && s[7 + |t.id|] == ':'
    requires NameRun(s[8 + |t.id|..]) == |t.name|
    requires s[7..7 + |t.id|] == t.id && s[8 + |t.id|..8 + |t.id| + |t.name|] == t.name
    ensures MatchToken(s) == Some(t)
  {
  }

  // ---------------------------------------------------------------------
  // re.split with a capturing group
  // ---------------------------------------------------------------------

  /** `re.split` of `s` at the tokens, where `lit` is the literal text read
      since the last token: the scan tries a match at each position from
      left to right, and a match ends the literal and is kept as a part of
      its own. */
  function SplitTokens(s: string, lit: string): (parts: seq<string>)
    ensures |parts| % 2 == 1
    decreases |s|
  {
    if s == [] then [lit]
    else match MatchToken(s)
      case Some(t) => [lit, TokenText(t)] + SplitTokens(s[|TokenText(t)|..], "")
      case None => SplitTokens(s[1..], lit + [s[0]])
  }

  /** The text of some valid token. */
  ghost predicate IsTokenText(part: string) {
    exists t :: ValidToken(t) && part == TokenText(t)
  }

  /** Every part at an odd index is a token. */
  ghost predicate Alternates(parts: seq<string>) {
    forall k :: 0 <= k < |parts| && k % 2 == 1 ==> IsTokenText(parts[k])
  }

  /** Literal text and tokens alternate in the split. */
  lemma {:induction false} SplitTokensAlternate(s: string, lit: string)
    ensures Alternates(SplitTokens(s, lit))
    decreases |s|
  {
    if s != [] {
      match MatchToken(s)
      case Some(t) =>
        SplitTokensAlternate(s[|TokenText(t)|..], "");
        SplitTokensAlternateToken(s, lit, t);
      case None =>
        SplitTokensAlternate(s[1..], lit + [s[0]]);
        assert SplitTokens(s, lit) == SplitTokens(s[1..], lit + [s[0]]);
    }
  }

  lemma SplitTokensAlternateToken(s: string, lit: string, t: Token)
    requires s != [] && MatchToken(s) == Some(t)
    requires Alternates(SplitTokens(s[|TokenText(t)|..], ""))
    ensures Alternates(SplitTokens(s, lit))
  {
    assert SplitTokens(s, lit) == [lit, TokenText(t)] + SplitTokens(s[|TokenText(t)|..], "");
    AlternatesCons(lit, t, SplitTokens(s[|TokenText(t)|..], ""));
  }

  lemma AlternatesCons(lit: string, t: Token, rest: seq<string>)
    requires ValidToken(t) && Alternates(rest)
    ensures Alternates([lit, TokenText(t)] + rest)
  {
    var parts := [lit, TokenText(t)] + rest;
    forall k | 0 <= k < |parts| && k % 2 == 1 ensures IsTokenText(parts[k]) {
      if k == 1 {
        assert parts[1] == TokenText(t);
      } else {
        assert parts[k] == rest[k - 2];
      }
    }
  }

  /** `re.split(r'(\[emote:\d+:[^\]]+\])', text)` */
  function KiSplit(text: string): seq<string> {
    SplitTokens(text, "")
  }

  /** Splitting loses nothing: the parts join back into the text. */
  lemma {:induction false} SplitTokensConcat(s: string, lit: string)
    ensures Concat(SplitTokens(s, lit)) == lit + s
    decreases |s|
  {
    if s == [] {
      assert Concat([lit]) == lit + Concat([]);
    } else {
      match MatchToken(s)
      case Some(t) =>
        SplitTokensConcat(s[|TokenText(t)|..], "");
        SplitTokensConcatToken(s, lit, t);
      case None =>
        SplitTokensConcat(s[1..], lit + [s[0]]);
        assert lit + [s[0]] + s[1..] == lit + s;
    }
  }

  lemma SplitTokensConcatToken(s: string, lit: string, t: Token)
    requires s != [] && MatchToken(s) == Some(t)
    requires Concat(SplitTokens(s[|TokenText(t)|..], "")) == s[|TokenText(t)|..]
    ensures Concat(SplitTokens(s, lit)) == lit + s
  {
    var x := TokenText(t);
    var rest := s[|x|..];
    ConcatAppend([lit, x], SplitTokens(rest, ""));
    assert Concat([lit, x]) == lit + (x + Concat([]));
    StartsWithSplit(s, x);
    AppendAssoc(lit, x, rest);
  }

  lemma KiSplitConcat(text: string)
    ensures Concat(KiSplit(text)) == text
  {
    SplitTokensConcat(text, "");
  }

  /** No token starts inside `lit` when `lit` is followed by `s`. */
  predicate NoTokenBefore(lit: string, s: string) {
    forall k :: 0 <= k < |lit| ==> MatchToken(lit[k..] + s).None?
  }

  /** Every part at an even index is literal text: no token occurs in it. */
  predicate LiteralsPlain(parts: seq<string>) {
    forall k :: 0 <= k < |parts| && k % 2 == 0 ==> !HasToken(parts[k])
  }

  /** The split misses no token: the literal parts between the tokens
      hold none, so the tokens are every match in the text. */
  lemma KiSplitLiterals(text: string)
    ensures LiteralsPlain(KiSplit(text))
  {
    SplitTokensLiterals(text, "");
  }

  lemma {:induction false} SplitTokensLiterals(s: string, lit: string)
    requires NoTokenBefore(lit, s)
    ensures LiteralsPlain(SplitTokens(s, lit))
    decreases |s|
  {
    if s == [] {
      NoTokenIn(lit, s);
      assert SplitTokens(s, lit) == [lit];
    } else {
      match MatchToken(s)
      case Some(t) =>
        var rest := SplitTokens(s[|TokenText(t)|..], "");
        SplitTokensLiterals(s[|TokenText(t)|..], "");
        NoTokenIn(lit, s);
        LiteralsCons(lit, TokenText(t), rest);
      case None =>
        NoTokenBeforeGrows(lit, s);
        SplitTokensLiterals(s[1..], lit + [s[0]]);
        assert SplitTokens(s, lit) == SplitTokens(s[1..], lit + [s[0]]);
    }
  }

  /** A token inside `x` would also match inside `x + rest`. */
  lemma NoTokenIn(x: string, rest: string)
    requires NoTokenBefore(x, rest)
    ensures !HasToken(x)
  {
    forall k | 0 <= k < |x| ensures MatchToken(x[k..]).None? {
      if MatchToken(x[k..]).Some? {
        var t := MatchToken(x[k..]).value;
        StartsWithAppend(x[k..], TokenText(t), rest);
        MatchTokenComplete(t, x[k..] + rest);
      }
    }
  }

  lemma NoTokenBeforeGrows(lit: string, s: string)
    requires s != [] && MatchToken(s).None? && NoTokenBefore(lit, s)
    ensures NoTokenBefore(lit + [s[0]], s[1..])
  {
    var l := lit + [s[0]];
    forall k | 0 <= k < |l| ensures MatchToken(l[k..] + s[1..]).None? {
      if k < |lit| {
        assert l[k..] + s[1..] == lit[k..] + s;
      } else {
        assert l[k..] + s[1..] == s;
      }
    }
  }

  lemma LiteralsCons(lit: string, token: string, rest: seq<string>)
    requires !HasToken(lit) && LiteralsPlain(rest)
    ensures LiteralsPlain([lit, token] + rest)
  {
    var parts := [lit, token] + rest;
    forall k | 0 <= k < |parts| && k % 2 == 0 ensures !HasToken(parts[k]) {
      if k >= 2 {
        assert parts[k] == rest[k - 2];
      }
    }
  }

  // ---------------------------------------------------------------------
  // Rendering the parts (server.py:102-114)
  // ---------------------------------------------------------------------

  /** `re.match(r'^\[emote:(\d+):([^\]]+)\]$', part)`: a token that spans
      the part, or the part less a final newline, which `$` also accepts. */
  function FullMatch(part: string): (r: Option<Token>)
    ensures r.Some? ==> ValidToken(r.value) &&
                        (part == TokenText(r.value) || part == TokenText(r.value) + "\n")
  {
    match MatchToken(part)
    case None => None
    case Some(t) =>
      var n := |TokenText(t)|;
      if n == |part| then Some(t)
      else if n + 1 == |part| && part[n] == '\n' then
        assert part == part[..n] + [part[n]];
        Some(t)
      else None
  }

  function KickSrc(id: string): string {
    "https://files.kick.com/emotes/" + id + "/fullsize"
  }

  /** The image of a token; its alt/title text is `:NAME:`, escaped. */
  function KiImg(t: Token): string {
    ImgTag(KickSrc(t.id), ":" + Esc(t.name) + ":", true)
  }

  function KiRenderPart(part: string): string {
    match FullMatch(part)
    case Some(t) => KiImg(t)
    case None => Esc(part)
  }

  function KiRenderParts(parts: seq<string>): string {
    if parts == [] then [] else KiRenderPart(parts[0]) + KiRenderParts(parts[1..])
  }

  /** `ki_render(text)` */
  function KiRender(text: string): string {
    KiRenderParts(KiSplit(text))
  }

  lemma PartsStep(parts: seq<string>, i: nat)
    requires i < |parts|
    ensures KiRenderParts(parts[i..]) == KiRenderPart(parts[i]) + KiRenderParts(parts[i + 1..])
  {
    assert parts[i..][0] == parts[i] && parts[i..][1..] == parts[i + 1..];
  }

  /** The loop of `ki_render`: one rendered piece per part, joined at the
      end. */
  method KiRenderLoop(text: string) returns (html: string)
    ensures html == KiRender(text)
  {
    var parts := KiSplit(text);
    var result: seq<string> := [];
    for i := 0 to |parts|
      invariant Concat(result) + KiRenderParts(parts[i..]) == KiRender(text)
    {
      var piece := KiRenderPart(parts[i]);
      PartsStep(parts, i);
      ConcatSnoc(result, piece);
      AppendAssoc(Concat(result), piece, KiRenderParts(parts[i + 1..]));
      result := result + [piece];
    }
    assert parts[|parts|..] == [];
    html := Concat(result);
  }

  // ---------------------------------------------------------------------
  // What the renderer produces
  // ---------------------------------------------------------------------

  /** The segment a token stands for: an image captioned `:NAME:`. */
  function KiEmote(t: Token): Segment {
    Emote(KickSrc(t.id), ":" + t.name + ":", true, TokenText(t))
  }

  /** The text cut at its tokens: the literal text between them, one emote
      segment per token. */
  function KiSegments(s: string, lit: string): seq<Segment>
    decreases |s|
  {
    if s == [] then [Plain(lit)]
    else match MatchToken(s)
      case Some(t) => [Plain(lit), KiEmote(t)] + KiSegments(s[|TokenText(t)|..], "")
      case None => KiSegments(s[1..], lit + [s[0]])
  }

  lemma EscColons(name: string)
    ensures Esc(":" + name + ":") == ":" + Esc(name) + ":"
  {
    EscAppend(":" + name, ":");
    EscAppend(":", name);
    EscPlain(":");
  }

  /** A literal part never matches, because a token at its start would
      have been split off: the scan found no token where the literal
      began. */
  lemma LiteralNotMatched(lit: string, s: string)
    requires lit != [] ==> MatchToken(lit + s).None?
    ensures FullMatch(lit).None?
  {
    if FullMatch(lit).Some? {
      var t := FullMatch(lit).value;
      PrefixOf(TokenText(t), "\n");
      StartsWithAppend(lit, TokenText(t), s);
      MatchTokenComplete(t, lit + s);
    }
  }

  /** Every valid token matches as a whole part, with or without a final
      newline. */
  lemma TokenMatched(t: Token)
    requires ValidToken(t)
    ensures FullMatch(TokenText(t)) == Some(t)
    ensures FullMatch(TokenText(t) + "\n") == Some(t)
  {
    MatchTokenComplete(t, TokenText(t));
    PrefixOf(TokenText(t), "\n");
    MatchTokenComplete(t, TokenText(t) + "\n");
  }

  lemma KiRenderPartsPair(a: string, b: string)
    ensures KiRenderParts([a, b]) == KiRenderPart(a) + KiRenderPart(b)
  {
    assert [a, b][1..] == [b];
    assert KiRenderParts([b]) == KiRenderPart(b) + KiRenderParts([]);
  }

  /** The image of a token is the rendering of its segment. */
  lemma KiImgSegment(t: Token)
    ensures RenderSegment(KiEmote(t)) == KiImg(t)
  {
    EscColons(t.name);
  }

  lemma RenderHead(lit: string, t: Token)
    requires ValidToken(t) && FullMatch(lit).None?
    ensures KiRenderParts([lit, TokenText(t)]) == Render([Plain(lit), KiEmote(t)])
  {
    TokenMatched(t);
    KiImgSegment(t);
    KiRenderPartsPair(lit, TokenText(t));
    RenderPair(Plain(lit), KiEmote(t));
  }

  lemma {:induction false} KiRenderPartsAppend(a: seq<string>, b: seq<string>)
    ensures KiRenderParts(a + b) == KiRenderParts(a) + KiRenderParts(b)
  {
    if a == [] {
      assert a + b == b;
    } else {
      assert (a + b)[0] == a[0] && (a + b)[1..] == a[1..] + b;
      KiRenderPartsAppend(a[1..], b);
    }
  }

  lemma {:induction false} SplitRendersSegments(s: string, lit: string)
    requires lit != [] ==> MatchToken(lit + s).None?
    ensures KiRenderParts(SplitTokens(s, lit)) == Render(KiSegments(s, lit))
    decreases |s|
  {
    if s == [] {
      LiteralNotMatched(lit, s);
      assert KiRenderParts([lit]) == KiRenderPart(lit) + KiRenderParts([]);
      assert Render([Plain(lit)]) == RenderSegment(Plain(lit)) + Render([]);
    } else {
      match MatchToken(s)
      case Some(t) =>
        SplitRendersSegments(s[|TokenText(t)|..], "");
        SplitRendersToken(s, lit, t);
      case None =>
        LiteralGrows(s, lit);
        SplitRendersSegments(s[1..], lit + [s[0]]);
    }
  }

  /** A token ends the literal: the rendering of both splits goes on from
      after the token in step. */
  lemma SplitRendersToken(s: string, lit: string, t: Token)
    requires s != [] && MatchToken(s) == Some(t)
    requires lit != [] ==> MatchToken(lit + s).None?
    requires var rest := s[|TokenText(t)|..];
             KiRenderParts(SplitTokens(rest, "")) == Render(KiSegments(rest, ""))
    ensures KiRenderParts(SplitTokens(s, lit)) == Render(KiSegments(s, lit))
  {
    var rest := s[|TokenText(t)|..];
    LiteralNotMatched(lit, s);
    RenderHead(lit, t);
    KiRenderPartsAppend([lit, TokenText(t)], SplitTokens(rest, ""));
    RenderAppend([Plain(lit), KiEmote(t)], KiSegments(rest, ""));
  }

  /** Where no token starts, the character joins the literal, which then
      still starts no token. */
  lemma LiteralGrows(s: string, lit: string)
    requires s != [] && MatchToken(s).None?
    requires lit != [] ==> MatchToken(lit + s).None?
    ensures MatchToken(lit + [s[0]] + s[1..]).None?
  {
    assert lit + [s[0]] + s[1..] == lit + s;
    if lit == [] {
      assert lit + s == s;
    }
  }

  /** `ki_render` is the rendering of the text's segments. */
  lemma KiRenderSegments(text: string)
    ensures KiRender(text) == Render(KiSegments(text, ""))
  {
    SplitRendersSegments(text, "");
  }

  lemma KiSegmentsCoverToken(s: string, lit: string, t: Token)
    requires s != [] && MatchToken(s) == Some(t)
    requires Raw(KiSegments(s[|TokenText(t)|..], "")) == s[|TokenText(t)|..]
    ensures Raw(KiSegments(s, lit)) == lit + s
  {
    var rest := s[|TokenText(t)|..];
    RawAppend([Plain(lit), KiEmote(t)], KiSegments(rest, ""));
    RawPair(Plain(lit), KiEmote(t));
    StartsWithSplit(s, TokenText(t));
    AppendAssoc(lit, TokenText(t), rest);
  }

  /** The segments cover the text exactly, in order. */
  lemma {:induction false} KiSegmentsCover(s: string, lit: string)
    ensures Raw(KiSegments(s, lit)) == lit + s
    decreases |s|
  {
    if s == [] {
      assert Raw([Plain(lit)]) == lit + Raw([]);
    } else {
      match MatchToken(s)
      case Some(t) =>
        var rest := s[|TokenText(t)|..];
        KiSegmentsCover(rest, "");
        KiSegmentsCoverToken(s, lit, t);
      case None =>
        KiSegmentsCover(s[1..], lit + [s[0]]);
        assert lit + [s[0]] + s[1..] == lit + s;
    }
  }

  /** Every emote segment is the image of a valid token whose text it
      stands for. */
  ghost predicate TokenSegments(gs: seq<Segment>) {
    forall k :: 0 <= k < |gs| && gs[k].Emote? ==>
      exists t :: ValidToken(t) && gs[k] == KiEmote(t)
  }

  lemma {:induction false} KiSegmentsTokens(s: string, lit: string)
    ensures TokenSegments(KiSegments(s, lit))
    decreases |s|
  {
    if s != [] {
      match MatchToken(s)
      case Some(t) =>
        var rest := s[|TokenText(t)|..];
        KiSegmentsTokens(rest, "");
        var gs := KiSegments(s, lit);
        var tail := KiSegments(rest, "");
        assert gs == [Plain(lit), KiEmote(t)] + tail;
        assert forall k :: 2 <= k < |gs| ==> gs[k] == tail[k - 2];
      case None =>
        KiSegmentsTokens(s[1..], lit + [s[0]]);
    }
  }

  /** Some token starts at a position of `s`. */
  predicate HasToken(s: string) {
    exists k :: 0 <= k < |s| && MatchToken(s[k..]).Some?
  }

  /** The scan finds a token exactly when there is one in the text. */
  lemma {:induction false} KiSegmentsFind(s: string, lit: string)
    ensures Emotes(KiSegments(s, lit)) == [] <==> !HasToken(s)
    decreases |s|
  {
    if s != [] {
      match MatchToken(s)
      case Some(t) =>
        var rest := s[|TokenText(t)|..];
        EmotesAppend([Plain(lit), KiEmote(t)], KiSegments(rest, ""));
        assert Emotes([Plain(lit), KiEmote(t)]) == [KiEmote(t)];
        assert s[0..] == s;
      case None =>
        KiSegmentsFind(s[1..], lit + [s[0]]);
        assert HasToken(s) <==> HasToken(s[1..]) by {
          assert s[0..] == s;
          forall k | 1 <= k < |s| ensures s[k..] == s[1..][k - 1..] { }
          if HasToken(s[1..]) {
            var k :| 0 <= k < |s[1..]| && MatchToken(s[1..][k..]).Some?;
            assert s[k + 1..] == s[1..][k..];
          }
        }
    }
  }

  lemma KickSrcSafe(id: string)
    requires AllDigits(id)
    ensures '<' !in KickSrc(id)
  {
    assert '<' !in "https://files.kick.com/emotes/";
    assert '<' !in "/fullsize";
  }

  lemma TokenSources(gs: seq<Segment>)
    requires TokenSegments(gs)
    ensures SafeSources(gs)
  {
    forall k | 0 <= k < |gs| && gs[k].Emote? ensures '<' !in gs[k].src {
      var t :| ValidToken(t) && gs[k] == KiEmote(t);
      KickSrcSafe(t.id);
    }
  }

  /** One image per token and no markup from the text: the output holds
      exactly one `<` per emote segment. */
  lemma KiRenderOneTagPerToken(text: string)
    ensures CountChar(KiRender(text), '<') == |Emotes(KiSegments(text, ""))|
  {
    KiRenderSegments(text);
    KiSegmentsTokens(text, "");
    TokenSources(KiSegments(text, ""));
    RenderTagCount(KiSegments(text, ""));
  }

  /** A text without tokens renders as the escaped text, and only such a
      text does. */
  lemma KiRenderPlain(text: string)
    ensures KiRender(text) == Esc(text) <==> !HasToken(text)
  {
    if HasToken(text) {
      KiRenderMarkup(text);
    } else {
      KiRenderNoToken(text);
    }
  }

  lemma KiRenderNoToken(text: string)
    requires !HasToken(text)
    ensures KiRender(text) == Esc(text)
  {
    KiRenderSegments(text);
    KiSegmentsPlain(text, "");
    assert "" + text == text;
    assert Render([Plain(text)]) == Esc(text) + Render([]);
  }

  lemma KiRenderMarkup(text: string)
    requires HasToken(text)
    ensures KiRender(text) != Esc(text)
  {
    KiRenderOneTagPerToken(text);
    KiSegmentsFind(text, "");
    EscNoMarkup(text);
    CountCharAbsent(Esc(text), '<');
  }

  /** Without tokens the scan reads the whole text as one literal. */
  lemma {:induction false} KiSegmentsPlain(s: string, lit: string)
    requires !HasToken(s)
    ensures KiSegments(s, lit) == [Plain(lit + s)]
    decreases |s|
  {
    if s != [] {
      assert s[0..] == s;
      assert !HasToken(s[1..]) by {
        forall k | 0 <= k < |s[1..]| ensures MatchToken(s[1..][k..]).None? {
          assert s[1..][k..] == s[k + 1..];
        }
      }
      KiSegmentsPlain(s[1..], lit + [s[0]]);
      assert lit + [s[0]] + s[1..] == lit + s;
    } else {
      assert lit + s == lit;
    }
  }
}

=== FILE: kick_events.dfy ===
/** The Kick chat events the Pusher socket delivers (server.py:259-297),
    from an event name and its data to what the hub is sent.

    The data of an event may arrive as a JSON string and is decoded first;
    that decoding is not part of this model: the data is taken as already
    decoded into the fields the handlers read. */
module KickEvents {
  import opened Wrappers
  import opened Strings
  import KickEmotes
  import Html

  /** A field of a JSON object the handlers read as a string. */
  datatype Field = Absent | Null | Str(s: string)

  /** `d.get(k) or default` */
  function OrDefault(f: Field, default: string): (r: string)
    ensures f.Str? && f.s != "" ==> r == f.s
    ensures f.Absent? || f.Null? || f == Str("") ==> r == default
  {
    if f.Str? && f.s != "" then f.s else default
  }

  /** `d.get(k, default)`, formatted by an f-string: a present null reads
      `None`, a present empty string stays empty. */
  function GetDefault(f: Field, default: string): (r: string)
    ensures f.Absent? ==> r == default
    ensures f.Null? ==> r == "None"
    ensures f.Str? ==> r == f.s
  {
    match f
    case Absent => default
    case Null => "None"
    case Str(s) => s
  }

  /** The fields of a decoded event's `data` the handlers read. */
  datatype EventData = EventData(
    senderUsername: Field,
    senderSlug: Field,
    color: Field,
    content: Field,
    username: Field,
    giftedBy: Field,
    giftedUsernames: Option<seq<string>>)

  datatype Action =
    | Subscribe                              // send the channel subscription
    | Connected                              // status on, and a system line
    | Pong
    | Chat(user: string, color: string, html: string)
    | Sys(text: string)
    | Dropped                                // the handler raised: reconnect
    | Nothing

  const KickMark: string := "\U{1F7E2} "
  const Someone: string := "Algu\U{E9}m"
  const Anonymous: string := "An\U{F4}nimo"

  /** `len(d.get('gifted_usernames') or []) or 1` */
  function GiftCount(names: Option<seq<string>>): (count: nat)
    ensures count >= 1
    ensures names.Some? && names.value != [] ==> count == |names.value|
    ensures names.None? || names.value == [] ==> count == 1
  {
    if names.Some? && |names.value| > 0 then |names.value| else 1
  }

  /** The system line of a gift: the giver, or `Alguém` when the field is
      missing, null or empty, and the count. */
  function GiftText(d: EventData): (r: string)
    ensures d.giftedBy.Absent? || d.giftedBy.Null? || d.giftedBy == Str("") ==>
              r == KickMark + Someone + " deu " + ShowNat(GiftCount(d.giftedUsernames)) + " sub(s) no Kick!"
    ensures d.giftedBy.Str? && d.giftedBy.s != "" ==>
              r == KickMark + d.giftedBy.s + " deu " + ShowNat(GiftCount(d.giftedUsernames)) + " sub(s) no Kick!"
  {
    KickMark + OrDefault(d.giftedBy, Someone) + " deu " +
      ShowNat(GiftCount(d.giftedUsernames)) + " sub(s) no Kick!"
  }

  /** The system line of a subscription, `(d or {}).get('username',
      'Alguém')`: only missing data or a missing field read `Alguém`; an
      empty name stays empty and a null one reads `None`. */
  function SubText(d: Option<EventData>): (r: string)
    ensures d.None? || d.value.username.Absent? ==> r == KickMark + Someone + " assinou no Kick!"
    ensures d.Some? && d.value.username.Null? ==> r == KickMark + "None assinou no Kick!"
    ensures d.Some? && d.value.username.Str? ==> r == KickMark + d.value.username.s + " assinou no Kick!"
  {
    var who := if d.None? then Someone else GetDefault(d.value.username, Someone);
    KickMark + who + " assinou no Kick!"
  }

  /** A chat message: sent when its content is non-empty, with the user's
      name (or slug, or `Anônimo`) and colour, and the content rendered. */
  function ChatAction(d: Option<EventData>): (a: Action)
    ensures a.Chat? <==> d.Some? && d.value.content.Str? && d.value.content.s != ""
    ensures a.Chat? ==> a.user != "" && a.html == KickEmotes.KiRender(d.value.content.s)
    ensures a.Chat? ==> a.user == OrDefault(d.value.senderUsername, OrDefault(d.value.senderSlug, Anonymous)) &&
                        a.color == OrDefault(d.value.color, "")
    ensures a.Dropped? <==> d.None?
  {
    match d
    case None => Dropped
    case Some(e) =>
      var user := OrDefault(e.senderUsername, OrDefault(e.senderSlug, Anonymous));
      var text := OrDefault(e.content, "");
      if text != "" then Chat(user, OrDefault(e.color, ""), KickEmotes.KiRender(text)) else Nothing
  }

  /** `d or {}` for the gift handler. */
  const NoData: EventData := EventData(Absent, Absent, Absent, Absent, Absent, Absent, None)

  const ChatEventName: string := "App\\Events\\ChatMessageEvent"
  const SubEventName: string := "App\\Events\\SubscriptionEvent"
  const GiftEventName: string := "App\\Events\\GiftedSubscriptionsEvent"

  const KnownEvents: set<string> := {"pusher:connection_established", "pusher_internal:subscription_succeeded",
                                     "pusher:ping", ChatEventName, SubEventName, GiftEventName}

  /** The event name dispatch: each name the handler knows gives its
      action, and any other name gives nothing. */
  function HandleEvent(name: string, d: Option<EventData>): (a: Action)
    ensures a.Chat? ==> name == ChatEventName
    ensures name == "pusher:connection_established" ==> a == Subscribe
    ensures name == "pusher_internal:subscription_succeeded" ==> a == Connected
    ensures name == "pusher:ping" ==> a == Pong
    ensures name == ChatEventName ==> a == ChatAction(d)
    ensures name == SubEventName ==> a == Sys(SubText(d))
    ensures name == GiftEventName ==> a == Sys(GiftText(if d.None? then NoData else d.value))
    ensures name !in KnownEvents ==> a == Nothing
  {
    if name == "pusher:connection_established" then Subscribe
    else if name == "pusher_internal:subscription_succeeded" then Connected
    else if name == "pusher:ping" then Pong
    else if name == ChatEventName then ChatAction(d)
    else if name == SubEventName then Sys(SubText(d))
    else if name == GiftEventName then Sys(GiftText(if d.None? then NoData else d.value))
    else Nothing
  }

  /** A gift event names its giver and counts the gifted names; with no
      data it reads `Alguém` and 1. */
  lemma GiftEventCount(d: Option<EventData>, giver: string, names: seq<string>)
    requires d.Some? ==> d.value.giftedBy == Str(giver) && giver != "" &&
                         d.value.giftedUsernames == Some(names) && names != []
    ensures d.Some? ==> HandleEvent(GiftEventName, d) ==
                        Sys(KickMark + giver + " deu " + ShowNat(|names|) + " sub(s) no Kick!")
    ensures d.None? ==> HandleEvent(GiftEventName, d) == Sys(KickMark + Someone + " deu " + ShowNat(1) + " sub(s) no Kick!")
  {
    if d.Some? {
      assert GiftCount(d.value.giftedUsernames) == |names|;
    } else {
      assert GiftCount(NoData.giftedUsernames) == 1;
    }
  }

  /** A chat message without emote tokens is shown as its escaped text,
      under the sender's name, else slug, else `Anônimo`. */
  lemma ChatEventPlain(d: EventData, text: string)
    requires d.content == Str(text) && text != "" && !KickEmotes.HasToken(text)
    ensures HandleEvent(ChatEventName, Some(d)) ==
            Chat(OrDefault(d.senderUsername, OrDefault(d.senderSlug, Anonymous)), OrDefault(d.color, ""), Html.Esc(text))
  {
    KickEmotes.KiRenderPlain(text);
  }
}

=== FILE: strings.dfy ===
/** The handful of Python `str` operations the chat hub relies on:
    `split`, `in`, `startswith`, `int()` on a digit string, `''.join`, and
    the character classes `\d` and `\s` of the `re` module.  `\s` is
    Python's set of Unicode whitespace; `\d` and `int()` are narrowed to
    the ASCII digits, where Python also accepts every other Unicode decimal
    digit. */
module Strings {
  import opened Wrappers

  /** `''.join(parts)` */
  function Concat(parts: seq<string>): string {
    if parts == [] then [] else parts[0] + Concat(parts[1..])
  }

  lemma {:induction false} ConcatAppend(a: seq<string>, b: seq<string>)
    ensures Concat(a + b) == Concat(a) + Concat(b)
  {
    if a == [] {
      assert a + b == b;
    } else {
      assert (a + b)[1..] == a[1..] + b;
      ConcatAppend(a[1..], b);
    }
  }

  lemma AppendAssoc(a: string, b: string, c: string)
    ensures a + b + c == a + (b + c)
  {
  }

  lemma ConcatSnoc(parts: seq<string>, last: string)
    ensures Concat(parts + [last]) == Concat(parts) + last
  {
    ConcatAppend(parts, [last]);
    assert Concat([last]) == last + Concat([]);
  }

  /** `s.startswith(p)` */
  predicate StartsWith(s: string, p: string) {
    |p| <= |s| && s[..|p|] == p
  }

  lemma PrefixOf(p: string, x: string)
    ensures StartsWith(p + x, p) && (p + x)[|p|..] == x
  {
    assert (p + x)[..|p|] == p;
  }

  /** A string is its prefix followed by the rest. */
  lemma StartsWithSplit(s: string, p: string)
    requires StartsWith(s, p)
    ensures s == p + s[|p|..]
  {
    assert s == s[..|p|] + s[|p|..];
  }

  lemma StartsWithAppend(a: string, p: string, b: string)
    requires StartsWith(a, p)
    ensures StartsWith(a + b, p)
  {
    assert (a + b)[..|p|] == a[..|p|];
  }

  lemma FirstCharDiffers(s: string, p: string)
    requires s != [] && p != [] && s[0] != p[0]
    ensures !StartsWith(s, p)
  {
    if |p| <= |s| {
      assert s[..|p|][0] == s[0];
    }
  }

  /** `t` occurs in `s` at index `k`. */
  predicate OccursAt(s: string, t: string, k: int) {
    0 <= k && k + |t| <= |s| && s[k..k + |t|] == t
  }

  /** `t in s` */
  predicate Contains(s: string, t: string) {
    exists k :: 0 <= k <= |s| && OccursAt(s, t, k)
  }

  /** An occurrence in `b` is one in `a + b`, moved by `|a|`. */
  lemma OccursShift(a: string, b: string, t: string, k: nat)
    requires OccursAt(b, t, k)
    ensures OccursAt(a + b, t, |a| + k)
  {
    assert (a + b)[|a| + k..|a| + k + |t|] == b[k..k + |t|];
  }

  /** Behind a prefix without the first character of `t`, `t` occurs in
      `p + d` exactly when it occurs in `d`. */
  lemma ContainsAfterPrefix(p: string, d: string, t: string)
    requires t != [] && t[0] !in p
    ensures Contains(p + d, t) <==> Contains(d, t)
  {
    if Contains(p + d, t) {
      var k :| 0 <= k <= |p + d| && OccursAt(p + d, t, k);
      assert (p + d)[k..k + |t|][0] == (p + d)[k] == t[0];
      assert k >= |p|;
      assert (p + d)[k..k + |t|] == d[k - |p|..k - |p| + |t|];
      assert OccursAt(d, t, k - |p|);
    }
    if Contains(d, t) {
      var k :| 0 <= k <= |d| && OccursAt(d, t, k);
      OccursShift(p, d, t, k);
    }
  }

  lemma ContainsAt(s: string, t: string, k: nat)
    requires OccursAt(s, t, k)
    ensures Contains(s, t)
  {
  }

  /** The first index at which the character `c` occurs in `s`. */
  function IndexOf(s: string, c: char): (i: nat)
    requires c in s
    ensures i < |s| && s[i] == c && c !in s[..i]
  {
    if s[0] == c then 0
    else
      assert c in s[1..] by { assert s == [s[0]] + s[1..]; }
      var j := IndexOf(s[1..], c);
      assert s[..j + 1] == [s[0]] + s[1..][..j];
      1 + j
  }

  /** `s.split(c)` for a one-character separator. */
  function Split(s: string, c: char): (parts: seq<string>)
    ensures |parts| >= 1
    ensures forall k :: 0 <= k < |parts| ==> c !in parts[k]
    decreases |s|
  {
    if c !in s then [s]
    else
      var i := IndexOf(s, c);
      [s[..i]] + Split(s[i + 1..], c)
  }

  /** `c.join(parts)` */
  function Join(parts: seq<string>, c: char): string
    requires |parts| >= 1
  {
    if |parts| == 1 then parts[0] else parts[0] + [c] + Join(parts[1..], c)
  }

  /** Splitting and joining again gives back the string: `split` loses
      nothing but the separators. */
  lemma {:induction false} JoinSplit(s: string, c: char)
    ensures Join(Split(s, c), c) == s
    decreases |s|
  {
    if c in s {
      var i := IndexOf(s, c);
      JoinSplit(s[i + 1..], c);
      JoinSplitStep(s, c, i);
    }
  }

  lemma JoinSplitStep(s: string, c: char, i: nat)
    requires c in s && i == IndexOf(s, c)
    requires Join(Split(s[i + 1..], c), c) == s[i + 1..]
    ensures Join(Split(s, c), c) == s
  {
    var parts := Split(s, c);
    assert parts == [s[..i]] + Split(s[i + 1..], c);
    assert parts[1..] == Split(s[i + 1..], c);
    assert Join(parts, c) == s[..i] + [c] + s[i + 1..];
    assert s == s[..i] + [s[i]] + s[i + 1..];
  }

  /** The first index at which `sep` occurs in `s`, if any. */
  function Find(s: string, sep: string): (r: Option<nat>)
    requires sep != []
    ensures r.Some? ==> OccursAt(s, sep, r.value) &&
                        forall k :: 0 <= k < r.value ==> !OccursAt(s, sep, k)
    ensures r.None? ==> !Contains(s, sep)
    decreases |s|
  {
    if |s| < |sep| then None
    else if s[..|sep|] == sep then Some(0)
    else match Find(s[1..], sep)
      case None =>
        assert forall k :: OccursAt(s, sep, k) ==> k == 0 || OccursAt(s[1..], sep, k - 1);
        None
      case Some(j) =>
        assert forall k :: 1 <= k < j + 1 ==> (OccursAt(s, sep, k) <==> OccursAt(s[1..], sep, k - 1));
        assert s[1..][j..j + |sep|] == s[j + 1..j + 1 + |sep|];
        Some(j + 1)
  }

  /** `s.split(sep)` for a separator of any non-zero length. */
  function SplitOn(s: string, sep: string): (parts: seq<string>)
    requires sep != []
    ensures |parts| >= 1
    decreases |s|
  {
    match Find(s, sep)
    case None => [s]
    case Some(i) => [s[..i]] + SplitOn(s[i + |sep|..], sep)
  }

  /** No part holds the separator. */
  lemma {:induction false} SplitOnParts(s: string, sep: string)
    requires sep != []
    ensures forall k :: 0 <= k < |SplitOn(s, sep)| ==> !Contains(SplitOn(s, sep)[k], sep)
    decreases |s|
  {
    match Find(s, sep)
    case None =>
    case Some(i) =>
      SplitOnParts(s[i + |sep|..], sep);
      SplitOnUnfold(s, sep, i);
      forall k | 0 <= k <= i ensures !OccursAt(s[..i], sep, k) {
        if k + |sep| <= i {
          assert s[..i][k..k + |sep|] == s[k..k + |sep|];
          assert !OccursAt(s, sep, k);
        }
      }
  }

  /** `sep.join(parts)` */
  function JoinOn(parts: seq<string>, sep: string): string
    requires |parts| >= 1
  {
    if |parts| == 1 then parts[0] else parts[0] + sep + JoinOn(parts[1..], sep)
  }

  lemma {:induction false} JoinOnSplitOn(s: string, sep: string)
    requires sep != []
    ensures JoinOn(SplitOn(s, sep), sep) == s
    decreases |s|
  {
    match Find(s, sep)
    case None =>
    case Some(i) =>
      JoinOnSplitOn(s[i + |sep|..], sep);
      JoinOnSplitOnStep(s, sep, i);
  }

  lemma JoinOnSplitOnStep(s: string, sep: string, i: nat)
    requires sep != [] && Find(s, sep) == Some(i)
    requires JoinOn(SplitOn(s[i + |sep|..], sep), sep) == s[i + |sep|..]
    ensures JoinOn(SplitOn(s, sep), sep) == s
  {
    var rest := s[i + |sep|..];
    SplitOnUnfold(s, sep, i);
    JoinOnCons(s[..i], SplitOn(rest, sep), sep);
    SplitAround(s, sep, i);
  }

  lemma SplitOnUnfold(s: string, sep: string, i: nat)
    requires sep != [] && Find(s, sep) == Some(i)
    ensures i + |sep| <= |s| && SplitOn(s, sep) == [s[..i]] + SplitOn(s[i + |sep|..], sep)
  {
    assert OccursAt(s, sep, i);
    var rest := s[i + |sep|..];
    assert SplitOn(s, sep) == [s[..i]] + SplitOn(rest, sep);
  }

  lemma JoinOnCons(a: string, parts: seq<string>, sep: string)
    requires |parts| >= 1
    ensures JoinOn([a] + parts, sep) == a + sep + JoinOn(parts, sep)
  {
    assert ([a] + parts)[1..] == parts;
  }

  lemma SplitAround(s: string, sep: string, i: nat)
    requires OccursAt(s, sep, i)
    ensures s == s[..i] + sep + s[i + |sep|..]
  {
    assert s == s[..i] + s[i..i + |sep|] + s[i + |sep|..];
  }

  /** The number of occurrences of `c` in `s`. */
  function CountChar(s: string, c: char): nat {
    if s == [] then 0 else (if s[0] == c then 1 else 0) + CountChar(s[1..], c)
  }

  lemma {:induction false} CountCharAppend(a: string, b: string, c: char)
    ensures CountChar(a + b, c) == CountChar(a, c) + CountChar(b, c)
  {
    if a != [] {
      assert (a + b)[1..] == a[1..] + b;
      CountCharAppend(a[1..], b, c);
    } else {
      assert a + b == b;
    }
  }

  lemma {:induction false} CountCharAbsent(s: string, c: char)
    requires c !in s
    ensures CountChar(s, c) == 0
  {
    if s != [] {
      assert c !in s[1..];
      CountCharAbsent(s[1..], c);
    }
  }

  /** `\d`, narrowed to the ASCII digits. */
  predicate IsDigit(ch: char) {
    '0' <= ch <= '9'
  }

  /** `\s`: the characters `str.isspace()` accepts. */
  predicate IsSpace(ch: char) {
    ch == ' ' || '\t' <= ch <= '\r' || '\U{1C}' <= ch <= '\U{1F}' ||
    ch == '\U{85}' || ch == '\U{A0}' || ch == '\U{1680}' ||
    '\U{2000}' <= ch <= '\U{200A}' || ch == '\U{2028}' || ch == '\U{2029}' ||
    ch == '\U{202F}' || ch == '\U{205F}' || ch == '\U{3000}'
  }

  predicate AllDigits(s: string) {
    forall k :: 0 <= k < |s| ==> IsDigit(s[k])
  }

  /** The value of a string of decimal digits. */
  function DigitsValue(s: string): nat
    requires AllDigits(s)
  {
    if s == [] then 0
    else DigitsValue(s[..|s| - 1]) * 10 + (s[|s| - 1] as int - '0' as int)
  }

  /** `int(s)` on the strings the model accepts: a non-empty run of ASCII
      digits.  Every other string is an error (where Python raises). */
  function ParseNat(s: string): (r: Option<nat>)
    ensures r.Some? <==> s != [] && AllDigits(s)
  {
    if s != [] && AllDigits(s) then Some(DigitsValue(s)) else None
  }

  /** Decimal rendering of a natural number, as `str(n)` gives it. */
  function ShowNat(n: nat): (s: string)
    ensures s != [] && AllDigits(s)
  {
    if n < 10 then [('0' as int + n) as char]
    else ShowNat(n / 10) + [('0' as int + n % 10) as char]
  }

  /** `int(str(n)) == n` */
  lemma {:induction false} ParseShowNat(n: nat)
    ensures ParseNat(ShowNat(n)) == Some(n)
  {
    if n >= 10 {
      ParseShowNat(n / 10);
      var s := ShowNat(n);
      assert s[..|s| - 1] == ShowNat(n / 10);
      assert DigitsValue(ShowNat(n / 10)) == n / 10;
      assert s[|s| - 1] as int - '0' as int == n % 10;
      assert DigitsValue(s) == n / 10 * 10 + n % 10;
    }
  }
}

=== FILE: twitch_emotes.dfy ===
/** Twitch emote rendering, `tw_render` (server.py:70-95).

    The IRCv3 `emotes` tag lists, per emote id, the inclusive character
    ranges of the message the emote covers: `id:s-e,s-e/id:s-e`.  The
    renderer parses the ranges, sorts them by start and walks the message,
    escaping the text between ranges and replacing each range by an image
    of its emote. */
module TwitchEmotes {
  import opened Wrappers
  import opened Strings
  import opened Html

  /** Characters `start` up to, not including, `end` of the message show
      emote `id`.  The tag's inclusive end `e` is kept as `e + 1`. */
  datatype Range = Range(start: nat, end: nat, id: string)

  /** The position whose `s, e = pos.split('-')` or `int()` raised. */
  datatype TagError = BadPosition(position: string)

  /** The image URL of emote `id` on Twitch's CDN. */
  function TwitchSrc(id: string): string {
    "https://static-cdn.jtvnw.net/emoticons/v2/" + id + "/default/dark/1.0"
  }

  // ---------------------------------------------------------------------
  // Parsing the tag (server.py:71-84)
  // ---------------------------------------------------------------------

  /** One `s-e` position: exactly one `-` between two digit strings. */
  function ParsePosition(id: string, pos: string): Result<Range, TagError> {
    var halves := Split(pos, '-');
    if |halves| != 2 then Failure(BadPosition(pos))
    else match (ParseNat(halves[0]), ParseNat(halves[1]))
      case (Some(s), Some(e)) => Success(Range(s, e + 1, id))
      case _ => Failure(BadPosition(pos))
  }

  /** The comma-separated positions of one emote; those without `-` are
      skipped, the first malformed one aborts. */
  function ParsePositions(id: string, positions: seq<string>): Result<seq<Range>, TagError> {
    if positions == [] then Success([])
    else if '-' !in positions[0] then ParsePositions(id, positions[1..])
    else match ParsePosition(id, positions[0])
      case Failure(err) => Failure(err)
      case Success(r) =>
        match ParsePositions(id, positions[1..])
        case Failure(err) => Failure(err)
        case Success(rs) => Success([r] + rs)
  }

  /** The id of a `/`-separated part and its comma-separated positions. */
  function PartId(part: string): string
    requires ':' in part
  {
    part[..IndexOf(part, ':')]
  }

  function PartPositions(part: string): seq<string>
    requires ':' in part
  {
    Split(part[IndexOf(part, ':') + 1..], ',')
  }

  function ParseParts(parts: seq<string>): Result<seq<Range>, TagError> {
    if parts == [] then Success([])
    else if ':' !in parts[0] then ParseParts(parts[1..])
    else match ParsePositions(PartId(parts[0]), PartPositions(parts[0]))
      case Failure(err) => Failure(err)
      case Success(rs) =>
        match ParseParts(parts[1..])
        case Failure(err) => Failure(err)
        case Success(more) => Success(rs + more)
  }

  /** The ranges of an `emotes` tag, in tag order. */
  function ParseEmotes(tag: string): Result<seq<Range>, TagError> {
    ParseParts(Split(tag, '/'))
  }

  predicate HasDash(positions: seq<string>) {
    exists k :: 0 <= k < |positions| && '-' in positions[k]
  }

  /** A `/`-part that the parser does not skip outright. */
  predicate CandidatePart(part: string) {
    ':' in part && HasDash(PartPositions(part))
  }

  /** Some part of the tag has a `:` and a position containing `-`. */
  predicate HasCandidate(tag: string) {
    var parts := Split(tag, '/');
    exists k :: 0 <= k < |parts| && CandidatePart(parts[k])
  }

  lemma {:induction false} ParsePositionsEmpty(id: string, positions: seq<string>)
    ensures ParsePositions(id, positions) == Success([]) <==> !HasDash(positions)
  {
    if positions != [] {
      ParsePositionsEmpty(id, positions[1..]);
      if '-' !in positions[0] {
        assert HasDash(positions) <==> HasDash(positions[1..]) by {
          forall k | 0 <= k < |positions| - 1
            ensures positions[1..][k] == positions[k + 1]
          {
          }
        }
      } else {
        assert HasDash(positions) by { assert '-' in positions[0]; }
      }
    }
  }

  lemma {:induction false} ParsePartsEmpty(parts: seq<string>)
    ensures ParseParts(parts) == Success([]) <==>
            !(exists k :: 0 <= k < |parts| && CandidatePart(parts[k]))
  {
    if parts != [] {
      ParsePartsEmpty(parts[1..]);
      assert forall k :: 1 <= k < |parts| ==> parts[k] == parts[1..][k - 1];
      if ':' in parts[0] {
        var id, positions := PartId(parts[0]), PartPositions(parts[0]);
        ParsePositionsEmpty(id, positions);
        assert CandidatePart(parts[0]) <==> HasDash(positions);
        match ParsePositions(id, positions)
        case Failure(_) =>
        case Success(rs) =>
          match ParseParts(parts[1..])
          case Failure(_) =>
          case Success(more) =>
            assert ParseParts(parts) == Success(rs + more);
            assert rs + more == [] <==> rs == [] && more == [];
      }
    }
  }

  /** The parser yields no range exactly when no part of the tag has a `:`
      followed by a position with a `-`. */
  lemma ParseEmotesEmpty(tag: string)
    ensures ParseEmotes(tag) == Success([]) <==> !HasCandidate(tag)
  {
    ParsePartsEmpty(Split(tag, '/'));
  }

  // ---------------------------------------------------------------------
  // Sorting the ranges (server.py:85)
  // ---------------------------------------------------------------------

  predicate SortedByStart(rs: seq<Range>) {
    forall i, j :: 0 <= i < j < |rs| ==> rs[i].start <= rs[j].start
  }

  /** Inserts `r` before the first range that starts at or after it; as `r`
      came first in the input, ties keep their input order, as Python's
      stable `list.sort` keeps them. */
  function InsertByStart(r: Range, rs: seq<Range>): (out: seq<Range>)
    ensures multiset(out) == multiset(rs) + multiset{r}
    ensures |out| == |rs| + 1
  {
    if rs == [] || r.start <= rs[0].start then [r] + rs
    else
      var rest := InsertByStart(r, rs[1..]);
      assert rs == [rs[0]] + rs[1..];
      [rs[0]] + rest
  }

  /** `reps.sort(key=lambda x: x['s'])` */
  function SortByStart(rs: seq<Range>): (sorted: seq<Range>)
    ensures multiset(sorted) == multiset(rs)
    ensures |sorted| == |rs|
  {
    if rs == [] then []
    else
      assert rs == [rs[0]] + rs[1..];
      InsertByStart(rs[0], SortByStart(rs[1..]))
  }

  lemma {:induction false} InsertSorted(r: Range, rs: seq<Range>)
    requires SortedByStart(rs)
    ensures SortedByStart(InsertByStart(r, rs))
  {
    if rs != [] && r.start > rs[0].start {
      var rest := InsertByStart(r, rs[1..]);
      InsertSorted(r, rs[1..]);
      assert InsertByStart(r, rs) == [rs[0]] + rest;
      forall k | 0 <= k < |rest| ensures rs[0].start <= rest[k].start {
        assert rest[k] in multiset(rest);
        assert rest[k] == r || rest[k] in multiset(rs[1..]);
      }
    }
  }

  /** Sorting yields the same ranges, in ascending order of start. */
  lemma {:induction false} SortByStartSorted(rs: seq<Range>)
    ensures SortedByStart(SortByStart(rs))
  {
    if rs != [] {
      SortByStartSorted(rs[1..]);
      InsertSorted(rs[0], SortByStart(rs[1..]));
    }
  }

  // ---------------------------------------------------------------------
  // Walking the text (server.py:86-95)
  // ---------------------------------------------------------------------

  /** Python's `s[i:j]` for non-negative bounds: bounds past the end are
      clamped and an inverted slice is empty. */
  function PySlice(s: string, i: nat, j: nat): (r: string)
    ensures i <= j <= |s| ==> r == s[i..j]
    ensures |r| <= |s|
  {
    var a := if i < |s| then i else |s|;
    var b := if j < |s| then j else |s|;
    if a <= b then s[a..b] else []
  }

  /** What the loop appends to `out` from position `last` on. */
  function Walk(text: string, reps: seq<Range>, last: nat): string
    decreases |reps|
  {
    if reps == [] then Esc(PySlice(text, last, |text|))
    else
      var r := reps[0];
      Esc(PySlice(text, last, r.start)) +
      RangeImg(text, r) + Walk(text, reps[1..], r.end)
  }

  /** `tw_render(text, emotes_tag)`; a malformed position is an error, as
      it raises in Python. */
  function TwRender(text: string, tag: string): Result<string, TagError> {
    if tag == "" then Success(Esc(text))
    else match ParseEmotes(tag)
      case Failure(err) => Failure(err)
      case Success(reps) =>
        if reps == [] then Success(Esc(text))
        else Success(Walk(text, SortByStart(reps), 0))
  }

  /** The image `tw_render` emits for a range (server.py:89-93). */
  function RangeImg(text: string, r: Range): string {
    ImgTag(TwitchSrc(r.id), Esc(PySlice(text, r.start, r.end)), false)
  }

  lemma WalkStep(text: string, reps: seq<Range>, i: nat, last: nat)
    requires i < |reps|
    ensures Walk(text, reps[i..], last) ==
            Esc(PySlice(text, last, reps[i].start)) + RangeImg(text, reps[i]) +
            Walk(text, reps[i + 1..], reps[i].end)
  {
    assert reps[i..][0] == reps[i] && reps[i..][1..] == reps[i + 1..];
  }

  lemma AppendRegroup(x: string, a: string, b: string, w: string)
    ensures x + a + b + w == x + (a + b + w)
  {
  }

  /** The `out`/`last` loop of `tw_render`, over already sorted ranges. */
  method WalkLoop(text: string, reps: seq<Range>) returns (out: string)
    ensures out == Walk(text, reps, 0)
  {
    out := "";
    var last: nat := 0;
    for i := 0 to |reps|
      invariant out + Walk(text, reps[i..], last) == Walk(text, reps, 0)
    {
      var rep := reps[i];
      var gap := Esc(PySlice(text, last, rep.start));
      var alt := Esc(PySlice(text, rep.start, rep.end));
      var img := ImgTag(TwitchSrc(rep.id), alt, false);
      WalkStep(text, reps, i, last);
      AppendRegroup(out, gap, img, Walk(text, reps[i + 1..], rep.end));
      out := out + gap;
      out := out + img;
      last := rep.end;
    }
    assert reps[|reps|..] == [];
    out := out + Esc(PySlice(text, last, |text|));
  }

  lemma {:induction false} WalkHasTag(text: string, reps: seq<Range>, last: nat)
    requires reps != []
    ensures '<' in Walk(text, reps, last)
  {
    var r := reps[0];
    var pre := Esc(PySlice(text, last, r.start));
    var tag := ImgTag(TwitchSrc(r.id), Esc(PySlice(text, r.start, r.end)), false);
    assert tag[0] == '<';
    assert Walk(text, reps, last)[|pre|] == '<';
  }

  /** `tw_render` returns exactly the escaped text if and only if no part
      of the tag names a position with a `-`; in particular for an empty
      tag. */
  lemma TwRenderPlain(text: string, tag: string)
    ensures TwRender(text, tag) == Success(Esc(text)) <==> !HasCandidate(tag)
  {
    ParseEmotesEmpty(tag);
    EscNoMarkup(text);
    if tag == "" {
      assert Split(tag, '/') == [""];
      assert !HasCandidate(tag);
    } else if ParseEmotes(tag).Success? && ParseEmotes(tag).value != [] {
      WalkHasTag(text, SortByStart(ParseEmotes(tag).value), 0);
    }
  }

  // ---------------------------------------------------------------------
  // What the walk produces for well-formed ranges
  // ---------------------------------------------------------------------

  predicate Apart(a: Range, b: Range) {
    a.end <= b.start || b.end <= a.start
  }

  /** Every range is non-empty and inside a text of length `n`, and no two
      ranges overlap (the guarantee Twitch gives for its tags). */
  predicate WellFormed(rs: seq<Range>, n: nat) {
    (forall i :: 0 <= i < |rs| ==> rs[i].start < rs[i].end <= n) &&
    (forall i, j :: 0 <= i < j < |rs| ==> Apart(rs[i], rs[j]))
  }

  /** Ranges in text order, each after `last` and after its predecessor. */
  predicate Chained(rs: seq<Range>, last: nat, n: nat)
    decreases |rs|
  {
    if rs == [] then last <= n
    else last <= rs[0].start < rs[0].end <= n && Chained(rs[1..], rs[0].end, n)
  }

  lemma {:induction false} InsertWellFormed(r: Range, rs: seq<Range>, n: nat)
    requires WellFormed(rs, n) && r.start < r.end <= n
    requires forall k :: 0 <= k < |rs| ==> Apart(r, rs[k])
    ensures WellFormed(InsertByStart(r, rs), n)
  {
    if rs == [] || r.start <= rs[0].start {
      WellFormedCons(r, rs, n);
    } else {
      WellFormedTail(rs, n);
      InsertWellFormed(r, rs[1..], n);
      var rest := InsertByStart(r, rs[1..]);
      forall k | 0 <= k < |rest| ensures Apart(rs[0], rest[k]) {
        assert rest[k] in multiset(rest);
        ApartFromInserted(r, rs, n, rest[k]);
      }
      WellFormedCons(rs[0], rest, n);
    }
  }

  /** A range apart from all others can be put in front of them. */
  lemma WellFormedCons(x: Range, rs: seq<Range>, n: nat)
    requires WellFormed(rs, n) && x.start < x.end <= n
    requires forall k :: 0 <= k < |rs| ==> Apart(x, rs[k])
    ensures WellFormed([x] + rs, n)
  {
    var out := [x] + rs;
    assert forall k :: 1 <= k < |out| ==> out[k] == rs[k - 1];
  }

  lemma WellFormedTail(rs: seq<Range>, n: nat)
    requires WellFormed(rs, n) && rs != []
    ensures WellFormed(rs[1..], n)
  {
    assert forall k :: 0 <= k < |rs| - 1 ==> rs[1..][k] == rs[k + 1];
  }

  /** Each range of the insertion into the tail is the inserted range or
      one of the tail, so it is apart from the head. */
  lemma ApartFromInserted(r: Range, rs: seq<Range>, n: nat, x: Range)
    requires WellFormed(rs, n) && rs != [] && Apart(r, rs[0])
    requires x in multiset(InsertByStart(r, rs[1..]))
    ensures Apart(rs[0], x)
  {
    if x != r {
      assert x in rs[1..];
      var m :| 0 <= m < |rs[1..]| && rs[1..][m] == x;
      assert Apart(rs[0], rs[m + 1]);
    }
  }

  /** Sorting keeps the ranges well formed. */
  lemma {:induction false} SortWellFormed(rs: seq<Range>, n: nat)
    requires WellFormed(rs, n)
    ensures WellFormed(SortByStart(rs), n)
  {
    if rs != [] {
      assert WellFormed(rs[1..], n) by {
        assert forall k :: 0 <= k < |rs| - 1 ==> rs[1..][k] == rs[k + 1];
      }
      SortWellFormed(rs[1..], n);
      var sorted := SortByStart(rs[1..]);
      forall k | 0 <= k < |sorted| ensures Apart(rs[0], sorted[k]) {
        assert sorted[k] in multiset(sorted);
        assert sorted[k] in rs[1..];
        var m :| 0 <= m < |rs[1..]| && rs[1..][m] == sorted[k];
        assert Apart(rs[0], rs[m + 1]);
      }
      InsertWellFormed(rs[0], sorted, n);
    }
  }

  /** Sorted, pairwise apart ranges follow one another in the text. */
  lemma {:induction false} SortedChained(rs: seq<Range>, last: nat, n: nat)
    requires SortedByStart(rs) && WellFormed(rs, n) && last <= n
    requires rs != [] ==> last <= rs[0].start
    ensures Chained(rs, last, n)
  {
    if rs != [] {
      if |rs| > 1 {
        assert Apart(rs[0], rs[1]) && rs[0].start <= rs[1].start;
      }
      assert SortedByStart(rs[1..]) && WellFormed(rs[1..], n) by {
        assert forall k :: 0 <= k < |rs| - 1 ==> rs[1..][k] == rs[k + 1];
      }
      SortedChained(rs[1..], rs[0].end, n);
    }
  }

  /** The text cut at the ranges: plain text between them, one emote
      segment per range. */
  function Segments(text: string, rs: seq<Range>, last: nat): seq<Segment>
    requires Chained(rs, last, |text|)
    decreases |rs|
  {
    if rs == [] then [Plain(text[last..])]
    else
      var r := rs[0];
      [Plain(text[last..r.start]),
       Emote(TwitchSrc(r.id), text[r.start..r.end], false, text[r.start..r.end])] +
      Segments(text, rs[1..], r.end)
  }

  lemma {:induction false} WalkRendersSegments(text: string, rs: seq<Range>, last: nat)
    requires Chained(rs, last, |text|)
    ensures Walk(text, rs, last) == Render(Segments(text, rs, last))
    decreases |rs|
  {
    if rs == [] {
      assert PySlice(text, last, |text|) == text[last..];
      assert Render([Plain(text[last..])]) == Esc(text[last..]) + Render([]);
    } else {
      var r := rs[0];
      var gap := text[last..r.start];
      var covered := text[r.start..r.end];
      var head := [Plain(gap), Emote(TwitchSrc(r.id), covered, false, covered)];
      var tail := Segments(text, rs[1..], r.end);
      WalkRendersSegments(text, rs[1..], r.end);
      RenderAppend(head, tail);
      RenderPair(head[0], head[1]);
      assert PySlice(text, last, r.start) == gap;
      assert RangeImg(text, r) == RenderSegment(head[1]);
      assert Segments(text, rs, last) == head + tail;
    }
  }

  /** The segments cover the text from `last` on, in order, without gaps or
      overlaps. */
  lemma {:induction false} SegmentsCoverText(text: string, rs: seq<Range>, last: nat)
    requires Chained(rs, last, |text|)
    ensures Raw(Segments(text, rs, last)) == text[last..]
    decreases |rs|
  {
    if rs == [] {
      assert Raw([Plain(text[last..])]) == text[last..] + "";
    } else {
      var r := rs[0];
      var head := [Plain(text[last..r.start]),
                   Emote(TwitchSrc(r.id), text[r.start..r.end], false, text[r.start..r.end])];
      SegmentsCoverText(text, rs[1..], r.end);
      RawAppend(head, Segments(text, rs[1..], r.end));
      assert Raw(head) == text[last..r.start] + (text[r.start..r.end] + "");
      assert text[last..] == text[last..r.start] + text[r.start..r.end] + text[r.end..];
    }
  }

  /** The emote segments are the ranges, one each and in the same order,
      each showing the text it covers. */
  lemma {:induction false} SegmentsEmotes(text: string, rs: seq<Range>, last: nat)
    requires Chained(rs, last, |text|)
    ensures |Emotes(Segments(text, rs, last))| == |rs|
    ensures forall k :: 0 <= k < |rs| ==>
              rs[k].end <= |text| && rs[k].start <= rs[k].end &&
              Emotes(Segments(text, rs, last))[k] ==
              Emote(TwitchSrc(rs[k].id), text[rs[k].start..rs[k].end], false,
                    text[rs[k].start..rs[k].end])
    decreases |rs|
  {
    if rs != [] {
      var r := rs[0];
      var head := [Plain(text[last..r.start]),
                   Emote(TwitchSrc(r.id), text[r.start..r.end], false, text[r.start..r.end])];
      SegmentsEmotes(text, rs[1..], r.end);
      EmotesAppend(head, Segments(text, rs[1..], r.end));
      assert Emotes(head) == [head[1]];
      assert forall k :: 1 <= k < |rs| ==> rs[k] == rs[1..][k - 1];
    }
  }

  /** A tag that yields ranges is not empty, so `tw_render` walks them. */
  lemma TwRenderWalks(text: string, tag: string, reps: seq<Range>)
    requires ParseEmotes(tag) == Success(reps) && reps != []
    ensures TwRender(text, tag) == Success(Walk(text, SortByStart(reps), 0))
  {
    if tag == "" {
      ParseEmotesEmpty(tag);
      assert false;
    }
  }

  /** For a tag whose ranges are well formed, `tw_render` cuts the text into
      segments that cover it exactly, with one image per range in ascending
      order of start showing the escaped text it covers, and escapes
      everything in between. */
  lemma TwRenderLayout(text: string, tag: string, reps: seq<Range>)
    requires ParseEmotes(tag) == Success(reps) && reps != []
    requires WellFormed(reps, |text|)
    ensures var sorted := SortByStart(reps);
            && SortedByStart(sorted) && multiset(sorted) == multiset(reps)
            && Chained(sorted, 0, |text|)
            && TwRender(text, tag) == Success(Render(Segments(text, sorted, 0)))
            && Raw(Segments(text, sorted, 0)) == text
            && |Emotes(Segments(text, sorted, 0))| == |reps|
  {
    var sorted := SortByStart(reps);
    SortByStartSorted(reps);
    SortWellFormed(reps, |text|);
    SortedChained(sorted, 0, |text|);
    TwRenderWalks(text, tag, reps);
    WalkRendersSegments(text, sorted, 0);
    SegmentsCoverText(text, sorted, 0);
    SegmentsEmotes(text, sorted, 0);
  }

  predicate SafeIds(rs: seq<Range>) {
    forall k :: 0 <= k < |rs| ==> '<' !in rs[k].id
  }

  lemma TwitchSrcSafe(id: string)
    requires '<' !in id
    ensures '<' !in TwitchSrc(id)
  {
    assert '<' !in "https://static-cdn.jtvnw.net/emoticons/v2/";
    assert '<' !in "/default/dark/1.0";
  }

  lemma SortSafeIds(rs: seq<Range>)
    requires SafeIds(rs)
    ensures SafeIds(SortByStart(rs))
  {
    var sorted := SortByStart(rs);
    forall k | 0 <= k < |sorted| ensures '<' !in sorted[k].id {
      assert sorted[k] in multiset(rs);
    }
  }

  lemma {:induction false} SegmentsSources(text: string, rs: seq<Range>, last: nat)
    requires Chained(rs, last, |text|) && SafeIds(rs)
    ensures SafeSources(Segments(text, rs, last))
    decreases |rs|
  {
    if rs != [] {
      var r := rs[0];
      TwitchSrcSafe(r.id);
      assert SafeIds(rs[1..]) by {
        assert forall k :: 0 <= k < |rs| - 1 ==> rs[1..][k] == rs[k + 1];
      }
      SegmentsSources(text, rs[1..], r.end);
      var head := [Plain(text[last..r.start]),
                   Emote(TwitchSrc(r.id), text[r.start..r.end], false, text[r.start..r.end])];
      var tail := Segments(text, rs[1..], r.end);
      var gs := Segments(text, rs, last);
      assert gs == head + tail;
      assert forall k :: 2 <= k < |gs| ==> gs[k] == tail[k - 2];
    }
  }

  /** For well-formed ranges the output has exactly one `<` per range: no
      markup comes from the message text. */
  lemma TwRenderOneTagPerRange(text: string, tag: string, reps: seq<Range>)
    requires ParseEmotes(tag) == Success(reps) && reps != []
    requires WellFormed(reps, |text|) && SafeIds(reps)
    ensures TwRender(text, tag).Success?
    ensures CountChar(TwRender(text, tag).value, '<') == |reps|
  {
    TwRenderLayout(text, tag, reps);
    var sorted := SortByStart(reps);
    SortSafeIds(reps);
    SegmentsSources(text, sorted, 0);
    RenderTagCount(Segments(text, sorted, 0));
  }
}

=== FILE: twitch_lines.dfy ===
/** What the Twitch IRC loop does with each line it receives
    (server.py:165-201), as a pure classification of the line.

    A WebSocket frame carries one or more IRC lines separated by CR LF.
    Each non-empty line is tested, in this order, for: a `PING` at its
    start; the text `End of /NAMES list` anywhere (the end of the reply to
    JOIN, taken as "connected"); the word `PRIVMSG` anywhere (a chat
    message); the word `USERNOTICE` anywhere (a subscription, gift or
    raid).  A chat message whose emotes fail to render raises out of the
    loop: the connection drops and the rest of the frame is not read. */
module TwitchLines {
  import opened Wrappers
  import opened Strings
  import opened Html
  import opened TwitchEmotes
  import opened IrcTags

  /** What a line makes the loop do. */
  datatype LineEvent =
    | Pong                                       // answer `PONG :tmi.twitch.tv`
    | Joined                                     // mark Twitch online and announce it
    | Chat(user: string, color: string, html: string)  // broadcast and save a chat message
    | BadEmotes(error: TagError)                 // `tw_render` raised: the connection drops
    | Notice(text: string)                       // broadcast a system message
    | Ignored                                    // nothing happens

  const Anonymous: string := "An\U{F4}nimo"
  const Someone: string := "Algu\U{E9}m"
  const TwitchMark: string := "\U{1F7E3} "

  // ---------------------------------------------------------------------
  // Dictionary access as Python writes it
  // ---------------------------------------------------------------------

  /** `tags.get(key) or default` */
  function GetOr(tags: map<string, string>, key: string, default: string): (v: string)
    ensures key in tags && tags[key] != "" ==> v == tags[key]
    ensures (key !in tags || tags[key] == "") ==> v == default
  {
    if key in tags && tags[key] != "" then tags[key] else default
  }

  /** `tags.get(key, default)` */
  function GetDefault(tags: map<string, string>, key: string, default: string): (v: string)
    ensures key in tags ==> v == tags[key]
    ensures key !in tags ==> v == default
  {
    if key in tags then tags[key] else default
  }

  // ---------------------------------------------------------------------
  // re.search(r'PRIVMSG #\S+ :(.+)$', line)
  // ---------------------------------------------------------------------

  /** The length of the run of non-whitespace characters `s` starts with. */
  function NonBlankRun(s: string): (n: nat)
    ensures n <= |s| && (forall k :: 0 <= k < n ==> !IsSpace(s[k]))
    ensures n < |s| ==> IsSpace(s[n])
  {
    if s == [] || IsSpace(s[0]) then 0 else 1 + NonBlankRun(s[1..])
  }

  /** The length of the run of characters other than a newline `s` starts
      with (what `.` matches). */
  function LineRun(s: string): (n: nat)
    ensures n <= |s| && '\n' !in s[..n] && (n < |s| ==> s[n] == '\n')
  {
    if s == [] || s[0] == '\n' then 0
    else
      var m := LineRun(s[1..]);
      assert s[..m + 1] == [s[0]] + s[1..][..m];
      m + 1
  }

  /** The match of the pattern at the start of `s`, as its group.  `\S+`
      must stop at the space before `:` and `.+` at the end of the line, as
      neither can stop earlier: the character after a shorter run belongs
      to the run. `$` also accepts a final newline. */
  function MatchPrivmsg(s: string): (r: Option<string>)
    ensures r.Some? ==> r.value != [] && '\n' !in r.value
  {
    if !StartsWith(s, "PRIVMSG #") then None
    else
      var a := s[9..];
      var n := NonBlankRun(a);
      if n == 0 || n + 2 > |a| || a[n] != ' ' || a[n + 1] != ':' then None
      else
        var b := a[n + 2..];
        var m := LineRun(b);
        if m == 0 then None
        else if m == |b| || (m + 1 == |b| && b[m] == '\n') then Some(b[..m])
        else None
  }

  /** `re.search`: the match at the leftmost position where there is one. */
  function SearchPrivmsg(line: string): (r: Option<string>)
    ensures r.Some? ==> r.value != [] && '\n' !in r.value
    decreases |line|
  {
    match MatchPrivmsg(line)
    case Some(text) => Some(text)
    case None => if line == [] then None else SearchPrivmsg(line[1..])
  }

  predicate Channel(chan: string) {
    chan != [] && forall k :: 0 <= k < |chan| ==> !IsSpace(chan[k])
  }

  /** The text of a message, as `.+` accepts it. */
  predicate MessageText(text: string) {
    text != [] && '\n' !in text
  }

  lemma {:induction false} NonBlankRunOf(chan: string, x: string)
    requires forall k :: 0 <= k < |chan| ==> !IsSpace(chan[k])
    requires x != [] && IsSpace(x[0])
    ensures NonBlankRun(chan + x) == |chan|
    decreases |chan|
  {
    if chan != [] {
      assert (chan + x)[1..] == chan[1..] + x;
      NonBlankRunOf(chan[1..], x);
    } else {
      assert chan + x == x;
    }
  }

  lemma {:induction false} LineRunOf(text: string, tail: string)
    requires '\n' !in text && (tail == [] || tail[0] == '\n')
    ensures LineRun(text + tail) == |text|
    decreases |text|
  {
    if text != [] {
      assert (text + tail)[1..] == text[1..] + tail;
      LineRunOf(text[1..], tail);
    } else {
      assert text + tail == tail;
    }
  }

  /** The command and its parameters match, with the message text as the
      group, followed or not by a final newline. */
  lemma MatchPrivmsgOf(chan: string, text: string, tail: string)
    requires Channel(chan) && MessageText(text) && (tail == "" || tail == "\n")
    ensures MatchPrivmsg("PRIVMSG #" + chan + " :" + text + tail) == Some(text)
  {
    var s := "PRIVMSG #" + chan + " :" + text + tail;
    var a := chan + (" :" + (text + tail));
    PrivmsgShape(chan, text, tail, s, a);
    PrivmsgParams(chan, text, tail, a);
    LineRunOf(text, tail);
    assert (text + tail)[..|text|] == text;
  }

  lemma PrivmsgShape(chan: string, text: string, tail: string, s: string, a: string)
    requires s == "PRIVMSG #" + chan + " :" + text + tail && a == chan + (" :" + (text + tail))
    ensures StartsWith(s, "PRIVMSG #") && s[9..] == a
  {
    assert s == "PRIVMSG #" + a;
  }

  lemma PrivmsgParams(chan: string, text: string, tail: string, a: string)
    requires Channel(chan) && a == chan + (" :" + (text + tail))
    ensures NonBlankRun(a) == |chan| && |chan| + 2 <= |a|
    ensures a[|chan|] == ' ' && a[|chan| + 1] == ':' && a[|chan| + 2..] == text + tail
  {
    NonBlankRunOf(chan, " :" + (text + tail));
    assert a[|chan|..] == " :" + (text + tail);
  }

  /** Positions at which the command does not start are passed over. */
  lemma {:induction false} SearchSkips(line: string, p: nat)
    requires p <= |line|
    requires forall k :: 0 <= k < p ==> !StartsWith(line[k..], "PRIVMSG #")
    ensures SearchPrivmsg(line) == SearchPrivmsg(line[p..])
    decreases p
  {
    if p > 0 {
      assert line[0..] == line;
      assert !StartsWith(line, "PRIVMSG #");
      forall k | 0 <= k < p - 1 ensures !StartsWith(line[1..][k..], "PRIVMSG #") {
        assert line[1..][k..] == line[k + 1..];
      }
      SearchSkips(line[1..], p - 1);
      assert line[1..][p - 1..] == line[p..];
    }
  }

  // ---------------------------------------------------------------------
  // Classifying a line, as written
  // ---------------------------------------------------------------------

  /** The branch for a chat line: the group of the search is the message,
      rendered with the `emotes` tag.  Nothing is sent when the pattern
      finds no message. */
  function ChatEvent(line: string): (e: LineEvent)
    ensures e.Chat? || e.BadEmotes? || e == Ignored
    ensures e == Ignored <==> SearchPrivmsg(line).None?
    ensures e.Chat? ==> e.user != ""
  {
    var tags := TwTags(line);
    var user := GetOr(tags, "display-name", Anonymous);
    var color := GetOr(tags, "color", "");
    match SearchPrivmsg(line)
    case None => Ignored
    case Some(text) =>
      match TwRender(text, GetDefault(tags, "emotes", ""))
      case Failure(err) => BadEmotes(err)
      case Success(html) => Chat(user, color, html)
  }

  function SubText(user: string): string {
    TwitchMark + user + " assinou na Twitch!"
  }

  function GiftText(user: string): string {
    TwitchMark + user + " deu um sub na Twitch!"
  }

  function RaidText(user: string, viewers: string): string {
    TwitchMark + "Raid de " + user + " \U{2014} " + viewers + " viewers!"
  }

  /** The branch for a USERNOTICE line, by its `msg-id` tag: a message is
      sent for a sub, resub, gift, anonymous gift or raid, and for nothing
      else; it names the user, or `Alguém`. */
  function NoticeEvent(tags: map<string, string>): (e: LineEvent)
    ensures e.Notice? || e == Ignored
    ensures e.Notice? <==> GetOr(tags, "msg-id", "") in {"sub", "resub", "subgift", "anonsubgift", "raid"}
    ensures var u, id := GetOr(tags, "display-name", Someone), GetOr(tags, "msg-id", "");
            (id == "sub" || id == "resub" ==> e == Notice(SubText(u))) &&
            (id == "subgift" || id == "anonsubgift" ==> e == Notice(GiftText(u))) &&
            (id == "raid" ==> e == Notice(RaidText(u, GetDefault(tags, "msg-param-viewerCount", "?"))))
    ensures e.Notice? && GetOr(tags, "msg-id", "") == "raid" && "msg-param-viewerCount" !in tags ==>
              e.text == RaidText(GetOr(tags, "display-name", Someone), "?")
  {
    var user := GetOr(tags, "display-name", Someone);
    var msgId := GetOr(tags, "msg-id", "");
    if msgId == "sub" || msgId == "resub" then Notice(SubText(user))
    else if msgId == "subgift" || msgId == "anonsubgift" then Notice(GiftText(user))
    else if msgId == "raid" then Notice(RaidText(user, GetDefault(tags, "msg-param-viewerCount", "?")))
    else Ignored
  }

  const NamesPhrase: string := "End of /NAMES list"

  /** One line of a frame, tested in the order server.py:168-201 tests
      it: each test is reached only when the ones before it failed. */
  function ClassifyLine(line: string): (e: LineEvent)
    ensures e == Pong <==> StartsWith(line, "PING")
    ensures e == Joined <==> !StartsWith(line, "PING") && Contains(line, NamesPhrase)
    ensures e.Chat? || e.BadEmotes? ==>
              !StartsWith(line, "PING") && !Contains(line, NamesPhrase) && Contains(line, "PRIVMSG")
    ensures e.Notice? ==>
              !StartsWith(line, "PING") && !Contains(line, NamesPhrase) && !Contains(line, "PRIVMSG") &&
              Contains(line, "USERNOTICE")
  {
    if line == "" then Ignored
    else if StartsWith(line, "PING") then Pong
    else if Contains(line, NamesPhrase) then Joined
    else if Contains(line, "PRIVMSG") then ChatEvent(line)
    else if Contains(line, "USERNOTICE") then NoticeEvent(TwTags(line))
    else Ignored
  }

  /** The text of any line that contains the phrase, wherever it stands,
      is taken for the end of the NAMES reply: a chat message saying it is
      swallowed and announces Twitch as connected. */
  lemma ChatTextTakenForJoin(tags: seq<Tag>, source: string, chan: string, text: string, k: nat)
    requires ChatLineParts(tags, source, chan, text) && OccursAt(text, NamesPhrase, k)
    ensures ClassifyLine(ChatLine(tags, source, chan, text)) == Joined
  {
    var head := TagsText(tags) + " :" + source + " PRIVMSG #" + chan + " :";
    var line := ChatLine(tags, source, chan, text);
    assert line == head + text;
    OccursShift(head, text, NamesPhrase, k);
    ContainsAt(line, NamesPhrase, |head| + k);
    ChatLineStart(tags, source, chan, text);
  }

  /** A chat line starts with the `@` of its tag block, so not with
      `PING`. */
  lemma ChatLineStart(tags: seq<Tag>, source: string, chan: string, text: string)
    requires ChatLineParts(tags, source, chan, text)
    ensures !StartsWith(ChatLine(tags, source, chan, text), "PING")
  {
    var line := ChatLine(tags, source, chan, text);
    assert line == TagsText(tags) + (" :" + source + " PRIVMSG #" + chan + " :" + text);
    assert line[0] == '@';
  }

  // ---------------------------------------------------------------------
  // Classifying a line by its IRC command
  // ---------------------------------------------------------------------

  /** `s` after its first space, or nothing. */
  function AfterWord(s: string): string {
    if ' ' in s then s[IndexOf(s, ' ') + 1..] else []
  }

  /** `s` up to its first space. */
  function FirstWord(s: string): (w: string)
    ensures ' ' !in w
  {
    if ' ' in s then s[..IndexOf(s, ' ')] else s
  }

  /** The command of an IRC line: the first word after the optional tag
      block (`@...`) and source (`:...`). */
  function Command(line: string): (c: string)
    ensures ' ' !in c
  {
    var a := if StartsWith(line, "@") then AfterWord(line) else line;
    var b := if StartsWith(a, ":") then AfterWord(a) else a;
    FirstWord(b)
  }

  /** The classification with the end of the NAMES reply recognised by
      its command, 366 (RPL_ENDOFNAMES), rather than by the phrase anywhere
      in the line; every other test is as written.  The text of a chat
      message can then no longer make its line a `Joined`. */
  function ClassifyLineFixed(line: string): (e: LineEvent)
    ensures e == Pong <==> StartsWith(line, "PING")
    ensures e == Joined <==> !StartsWith(line, "PING") && Command(line) == "366"
    ensures e.Chat? || e.BadEmotes? ==>
              !StartsWith(line, "PING") && Command(line) != "366" && Contains(line, "PRIVMSG")
    ensures e.Notice? ==>
              !StartsWith(line, "PING") && Command(line) != "366" && !Contains(line, "PRIVMSG") &&
              Contains(line, "USERNOTICE")
  {
    if line == "" then Ignored
    else if StartsWith(line, "PING") then Pong
    else if Command(line) == "366" then Joined
    else if Contains(line, "PRIVMSG") then ChatEvent(line)
    else if Contains(line, "USERNOTICE") then NoticeEvent(TwTags(line))
    else Ignored
  }

  // ---------------------------------------------------------------------
  // A chat line, end to end
  // ---------------------------------------------------------------------

  /** `@tags :source PRIVMSG #chan :text` */
  function ChatLine(tags: seq<Tag>, source: string, chan: string, text: string): string
    requires |tags| >= 1
  {
    TagsText(tags) + " :" + source + " PRIVMSG #" + chan + " :" + text
  }

  predicate ChatLineParts(tags: seq<Tag>, source: string, chan: string, text: string) {
    |tags| >= 1 && (forall k :: 0 <= k < |tags| ==> Writable(tags[k])) &&
    ' ' !in source && Channel(chan) && MessageText(text)
  }

  /** The event a chat line stands for: the message text rendered with the
      `emotes` tag, the `display-name` (else `Anônimo`) and the `color`. */
  function ChatOf(tags: map<string, string>, text: string): LineEvent {
    match TwRender(text, GetDefault(tags, "emotes", ""))
    case Failure(err) => BadEmotes(err)
    case Success(html) => Chat(GetOr(tags, "display-name", Anonymous), GetOr(tags, "color", ""), html)
  }

  lemma ChatLineShape(tags: seq<Tag>, source: string, chan: string, text: string)
    requires ChatLineParts(tags, source, chan, text)
    ensures var line := ChatLine(tags, source, chan, text);
            var prefix := TagsText(tags) + " :" + source + " ";
            line == prefix + ("PRIVMSG #" + chan + " :" + text + "") &&
            line[0] == '@' && OccursAt(line, "PRIVMSG", |prefix|)
  {
    var prefix := TagsText(tags) + " :" + source + " ";
    var line := ChatLine(tags, source, chan, text);
    assert line == prefix + ("PRIVMSG #" + chan + " :" + text + "");
    assert line[|prefix|..|prefix| + 7] == "PRIVMSG";
  }

  /** The tags and the message of a chat line are read back from it. */
  lemma ChatLineRead(tags: seq<Tag>, source: string, chan: string, text: string)
    requires ChatLineParts(tags, source, chan, text)
    ensures var line := ChatLine(tags, source, chan, text);
            TwTags(line) == ToMap(tags) && SearchPrivmsg(line) == Some(text) &&
            ChatEvent(line) == ChatOf(ToMap(tags), text)
  {
    ChatLineTags(tags, source, chan, text);
    ChatLineSearch(tags, source, chan, text);
  }

  lemma ChatLineTags(tags: seq<Tag>, source: string, chan: string, text: string)
    requires ChatLineParts(tags, source, chan, text)
    ensures TwTags(ChatLine(tags, source, chan, text)) == ToMap(tags)
  {
    var line := ChatLine(tags, source, chan, text);
    assert line == TagsText(tags) + (" :" + source + " PRIVMSG #" + chan + " :" + text);
    TwTagsOfTagsText(tags, " :" + source + " PRIVMSG #" + chan + " :" + text);
  }

  lemma ChatLineSearch(tags: seq<Tag>, source: string, chan: string, text: string)
    requires ChatLineParts(tags, source, chan, text)
    ensures SearchPrivmsg(ChatLine(tags, source, chan, text)) == Some(text)
  {
    var line := ChatLine(tags, source, chan, text);
    var prefix := TagsText(tags) + " :" + source + " ";
    ChatLineShape(tags, source, chan, text);
    ChatLineFind(tags, source, chan, text);
    forall k | 0 <= k < |prefix| ensures !StartsWith(line[k..], "PRIVMSG #") {
      assert !OccursAt(line, "PRIVMSG #", k);
    }
    SearchSkips(line, |prefix|);
    MatchPrivmsgOf(chan, text, "");
  }

  /** The first `PRIVMSG #` of a chat line is its command's: the tags and
      the source hold no space, and the two spaces before the command are
      followed by `:` and `P`. */
  lemma ChatLineFind(tags: seq<Tag>, source: string, chan: string, text: string)
    requires ChatLineParts(tags, source, chan, text)
    ensures Find(ChatLine(tags, source, chan, text), "PRIVMSG #") == Some(|TagsText(tags) + " :" + source + " "|)
  {
    var line := ChatLine(tags, source, chan, text);
    var t := TagsText(tags);
    var head := t + " :" + source + " PRIVMSG";
    var rest := " #" + chan + " :" + text;
    ItemTextsClean(tags);
    assert ' ' !in t;
    SpacesBeforeCommand(t, source);
    assert line == head + rest;
    PrefixOf(head, rest);
    assert line[|head| - 7..|head| + 2] == "PRIVMSG #";
    FirstAfterSpaces(line, head, |head| - 7);
  }

  /** A `PRIVMSG #` that ends the first `|head| + 2` characters is the
      first one when no space of `head` is followed by `#`. */
  lemma FirstAfterSpaces(line: string, head: string, n: nat)
    requires StartsWith(line, head) && |head| == n + 7 && OccursAt(line, "PRIVMSG #", n)
    requires forall m :: 0 <= m < |head| ==> head[m] != ' ' || (m + 1 < |head| && head[m + 1] != '#')
    ensures Find(line, "PRIVMSG #") == Some(n)
  {
    forall j | 0 <= j < n ensures !OccursAt(line, "PRIVMSG #", j) {
      assert line[j..j + 9][7] == line[j + 7] && line[j..j + 9][8] == line[j + 8];
      assert line[j + 7] == line[..|head|][j + 7];
      if head[j + 7] == ' ' {
        assert line[j + 8] == line[..|head|][j + 8];
      }
    }
    ContainsAt(line, "PRIVMSG #", n);
  }

  /** Up to the command, a space is followed by `:` or by the command. */
  lemma SpacesBeforeCommand(t: string, source: string)
    requires ' ' !in t && ' ' !in source
    ensures var head := t + " :" + source + " PRIVMSG";
            forall m :: 0 <= m < |head| ==> head[m] != ' ' || (m + 1 < |head| && head[m + 1] != '#')
  {
    var head := t + " :" + source + " PRIVMSG";
    var n := |t| + |source| + 3;
    forall m | 0 <= m < |head| ensures head[m] != ' ' || (m + 1 < |head| && head[m + 1] != '#') {
      if m < |t| {
        assert head[m] == t[m];
      } else if m == |t| {
        assert head[m + 1] == ':';
      } else if m == |t| + 1 {
        assert head[m] == ':';
      } else if m < n - 1 {
        assert head[m] == source[m - |t| - 2];
      } else if m == n - 1 {
        assert head[m + 1] == 'P';
      } else {
        assert head[m] == "PRIVMSG"[m - n];
      }
    }
  }

  /** A chat line whose text does not hold the NAMES phrase is a chat
      message with its rendered text. */
  lemma ClassifyChatLine(tags: seq<Tag>, source: string, chan: string, text: string)
    requires ChatLineParts(tags, source, chan, text)
    requires !Contains(ChatLine(tags, source, chan, text), NamesPhrase)
    ensures ClassifyLine(ChatLine(tags, source, chan, text)) == ChatOf(ToMap(tags), text)
  {
    var line := ChatLine(tags, source, chan, text);
    ChatLineRead(tags, source, chan, text);
    ChatLineShape(tags, source, chan, text);
    ContainsAt(line, "PRIVMSG", |TagsText(tags) + " :" + source + " "|);
    ChatLineStart(tags, source, chan, text);
  }

  lemma AfterWordOf(w: string, rest: string)
    requires ' ' !in w
    ensures AfterWord(w + " " + rest) == rest
  {
    IndexOfAt(w, ' ', rest);
    assert (w + " " + rest)[|w| + 1..] == rest;
  }

  lemma FirstWordOf(w: string, rest: string)
    requires ' ' !in w
    ensures FirstWord(w + " " + rest) == w
  {
    IndexOfAt(w, ' ', rest);
    assert (w + " " + rest)[..|w|] == w;
  }

  lemma CommandOf(line: string, a: string, b: string)
    requires StartsWith(line, "@") && AfterWord(line) == a
    requires StartsWith(a, ":") && AfterWord(a) == b && !StartsWith(b, ":")
    ensures Command(line) == FirstWord(b)
  {
  }

  /** The command of a chat line is PRIVMSG. */
  lemma ChatLineCommand(tags: seq<Tag>, source: string, chan: string, text: string)
    requires ChatLineParts(tags, source, chan, text)
    ensures Command(ChatLine(tags, source, chan, text)) == "PRIVMSG"
  {
    var line := ChatLine(tags, source, chan, text);
    var block := TagsText(tags);
    ItemTextsClean(tags);
    var params := "#" + chan + " :" + text;
    var b := "PRIVMSG" + " " + params;
    var a := ":" + source + " " + b;
    ChatLineWords(tags, source, chan, text, a, b, params);
    AfterWordOf(block, a);
    AfterWordOf(":" + source, b);
    FirstWordOf("PRIVMSG", params);
    CommandOf(line, a, b);
  }

  lemma ChatLineWords(tags: seq<Tag>, source: string, chan: string, text: string,
                      a: string, b: string, params: string)
    requires ChatLineParts(tags, source, chan, text)
    requires params == "#" + chan + " :" + text && b == "PRIVMSG" + " " + params && a == ":" + source + " " + b
    ensures ChatLine(tags, source, chan, text) == TagsText(tags) + " " + a
    ensures StartsWith(ChatLine(tags, source, chan, text), "@") && StartsWith(a, ":") && !StartsWith(b, ":")
  {
    assert ChatLine(tags, source, chan, text) == TagsText(tags) + " " + a;
    assert a[0] == ':' && b[0] == 'P';
  }

  /** With the NAMES reply recognised by its command, a chat line is a
      chat message with its rendered text whatever the text says. */
  lemma ClassifyFixedChatLine(tags: seq<Tag>, source: string, chan: string, text: string)
    requires ChatLineParts(tags, source, chan, text)
    ensures ClassifyLineFixed(ChatLine(tags, source, chan, text)) == ChatOf(ToMap(tags), text)
  {
    var line := ChatLine(tags, source, chan, text);
    ChatLineCommand(tags, source, chan, text);
    ChatLineRead(tags, source, chan, text);
    ChatLineShape(tags, source, chan, text);
    ContainsAt(line, "PRIVMSG", |TagsText(tags) + " :" + source + " "|);
    ChatLineStart(tags, source, chan, text);
  }

  // ---------------------------------------------------------------------
  // A frame
  // ---------------------------------------------------------------------

  /** The events of a frame's lines, each line classified by `classify`:
      an empty line is skipped, and a line whose emotes fail to render
      ends the connection, so no line after it is read. */
  function LineEvents(classify: string -> LineEvent, lines: seq<string>): (events: seq<LineEvent>)
    ensures |events| <= |lines|
    ensures forall k :: 0 <= k < |events| - 1 ==> !events[k].BadEmotes?
  {
    if lines == [] then []
    else if lines[0] == "" then LineEvents(classify, lines[1..])
    else
      var e := classify(lines[0]);
      if e.BadEmotes? then [e] else [e] + LineEvents(classify, lines[1..])
  }

  /** `for line in msg.data.split('\r\n')` with the tests as written. */
  function FrameEvents(data: string): (events: seq<LineEvent>)
    ensures |events| <= |SplitOn(data, "\r\n")|
    ensures forall k :: 0 <= k < |events| - 1 ==> !events[k].BadEmotes?
  {
    LineEvents(ClassifyLine, SplitOn(data, "\r\n"))
  }

  /** The same loop with the corrected classification. */
  function FrameEventsFixed(data: string): (events: seq<LineEvent>)
    ensures |events| <= |SplitOn(data, "\r\n")|
    ensures forall k :: 0 <= k < |events| - 1 ==> !events[k].BadEmotes?
  {
    LineEvents(ClassifyLineFixed, SplitOn(data, "\r\n"))
  }

  /** An IRC line: not empty, and no CR or LF inside. */
  predicate IrcLine(line: string) {
    line != [] && '\r' !in line && '\n' !in line
  }

  /** Every line classified, in order. */
  function ClassifyAll(classify: string -> LineEvent, lines: seq<string>): seq<LineEvent> {
    if lines == [] then [] else [classify(lines[0])] + ClassifyAll(classify, lines[1..])
  }

  /** Events up to and including the first rendering failure. */
  function UntilDropped(events: seq<LineEvent>): seq<LineEvent> {
    if events == [] then []
    else if events[0].BadEmotes? then [events[0]]
    else [events[0]] + UntilDropped(events[1..])
  }

  lemma FindCrLf(line: string, rest: string)
    requires '\r' !in line
    ensures Find(line + "\r\n" + rest, "\r\n") == Some(|line|)
  {
    var s := line + "\r\n" + rest;
    assert OccursAt(s, "\r\n", |line|);
    forall k | 0 <= k < |line| ensures !OccursAt(s, "\r\n", k) {
      assert s[k] == line[k];
    }
  }

  /** Splitting lines joined with CR LF gives the lines back. */
  lemma {:induction false} SplitOnJoinOn(lines: seq<string>)
    requires |lines| >= 1 && forall k :: 0 <= k < |lines| ==> '\r' !in lines[k]
    ensures SplitOn(JoinOn(lines, "\r\n"), "\r\n") == lines
  {
    var s := JoinOn(lines, "\r\n");
    if |lines| == 1 {
      forall k | 0 <= k <= |s| ensures !OccursAt(s, "\r\n", k) {
        if k + 2 <= |s| {
          assert s[k..k + 2][0] == s[k];
        }
      }
    } else {
      SplitOnJoinOn(lines[1..]);
      SplitOnJoinOnStep(lines);
    }
  }

  lemma SplitOnJoinOnStep(lines: seq<string>)
    requires |lines| >= 2 && '\r' !in lines[0]
    requires SplitOn(JoinOn(lines[1..], "\r\n"), "\r\n") == lines[1..]
    ensures SplitOn(JoinOn(lines, "\r\n"), "\r\n") == lines
  {
    var rest := JoinOn(lines[1..], "\r\n");
    var s := lines[0] + "\r\n" + rest;
    assert JoinOn(lines, "\r\n") == s;
    FindCrLf(lines[0], rest);
    SplitOnUnfold(s, "\r\n", |lines[0]|);
    PiecesOf(lines[0], "\r\n", rest);
    assert lines == [lines[0]] + lines[1..];
  }

  lemma PiecesOf(a: string, sep: string, b: string)
    ensures (a + sep + b)[..|a|] == a && (a + sep + b)[|a| + |sep|..] == b
  {
  }

  /** A frame of IRC lines joined by CR LF yields, as written and as
      corrected, the classification of each line in order, up to and
      including the first line whose emotes fail to render.  Twitch ends
      every line with CR LF, so the split of a frame ends with an empty
      piece, which the loop skips: the events are the same. */
  lemma FrameEventsOfLines(lines: seq<string>)
    requires |lines| >= 1 && forall k :: 0 <= k < |lines| ==> IrcLine(lines[k])
    ensures FrameEvents(JoinOn(lines, "\r\n")) == UntilDropped(ClassifyAll(ClassifyLine, lines))
    ensures FrameEventsFixed(JoinOn(lines, "\r\n")) == UntilDropped(ClassifyAll(ClassifyLineFixed, lines))
    ensures FrameEvents(JoinOn(lines, "\r\n") + "\r\n") == UntilDropped(ClassifyAll(ClassifyLine, lines))
    ensures FrameEventsFixed(JoinOn(lines, "\r\n") + "\r\n") == UntilDropped(ClassifyAll(ClassifyLineFixed, lines))
  {
    FrameOfLines(ClassifyLine, lines);
    FrameOfLines(ClassifyLineFixed, lines);
  }

  lemma FrameOfLines(classify: string -> LineEvent, lines: seq<string>)
    requires |lines| >= 1 && forall k :: 0 <= k < |lines| ==> IrcLine(lines[k])
    ensures LineEvents(classify, SplitOn(JoinOn(lines, "\r\n"), "\r\n")) ==
            UntilDropped(ClassifyAll(classify, lines))
    ensures LineEvents(classify, SplitOn(JoinOn(lines, "\r\n") + "\r\n", "\r\n")) ==
            UntilDropped(ClassifyAll(classify, lines))
  {
    LinesWithoutCr(lines);
    SplitOnJoinOn(lines);
    LineEventsOfLines(classify, lines);
    FrameOfEndedLines(classify, lines);
  }

  lemma FrameOfEndedLines(classify: string -> LineEvent, lines: seq<string>)
    requires |lines| >= 1 && forall k :: 0 <= k < |lines| ==> IrcLine(lines[k])
    requires LineEvents(classify, lines) == UntilDropped(ClassifyAll(classify, lines))
    ensures LineEvents(classify, SplitOn(JoinOn(lines, "\r\n") + "\r\n", "\r\n")) ==
            UntilDropped(ClassifyAll(classify, lines))
  {
    var ended := lines + [""];
    EndedWithoutCr(lines);
    SplitOnJoinOn(ended);
    JoinOnEnded(lines);
    LineEventsSkipLast(classify, lines);
  }

  lemma EndedWithoutCr(lines: seq<string>)
    requires forall k :: 0 <= k < |lines| ==> IrcLine(lines[k])
    ensures |lines + [""]| >= 1 && forall k :: 0 <= k < |lines + [""]| ==> '\r' !in (lines + [""])[k]
  {
    var ended := lines + [""];
    forall k | 0 <= k < |ended| ensures '\r' !in ended[k] {
      if k < |lines| {
        assert ended[k] == lines[k] && IrcLine(lines[k]);
      }
    }
  }

  lemma LinesWithoutCr(lines: seq<string>)
    requires forall k :: 0 <= k < |lines| ==> IrcLine(lines[k])
    ensures forall k :: 0 <= k < |lines| ==> '\r' !in lines[k]
  {
    forall k | 0 <= k < |lines| ensures '\r' !in lines[k] {
      assert IrcLine(lines[k]);
    }
  }

  /** The final CR LF of a frame is one more, empty, line. */
  lemma {:induction false} JoinOnEnded(lines: seq<string>)
    requires |lines| >= 1
    ensures JoinOn(lines + [""], "\r\n") == JoinOn(lines, "\r\n") + "\r\n"
  {
    if |lines| == 1 {
      assert JoinOn([""], "\r\n") == "";
      assert lines + [""] == [lines[0], ""];
    } else {
      JoinOnEnded(lines[1..]);
      assert (lines + [""])[1..] == lines[1..] + [""];
    }
  }

  /** An empty last piece adds no event. */
  lemma {:induction false} LineEventsSkipLast(classify: string -> LineEvent, lines: seq<string>)
    ensures LineEvents(classify, lines + [""]) == LineEvents(classify, lines)
  {
    if lines != [] {
      LineEventsSkipLast(classify, lines[1..]);
      assert (lines + [""])[1..] == lines[1..] + [""];
    }
  }

  lemma {:induction false} LineEventsOfLines(classify: string -> LineEvent, lines: seq<string>)
    requires forall k :: 0 <= k < |lines| ==> IrcLine(lines[k])
    ensures LineEvents(classify, lines) == UntilDropped(ClassifyAll(classify, lines))
  {
    if lines != [] {
      assert IrcLine(lines[0]);
      LineEventsOfLines(classify, lines[1..]);
      assert ClassifyAll(classify, lines)[1..] == ClassifyAll(classify, lines[1..]);
    }
  }

  /** A frame of one IRC line, with or without the final CR LF, is that
      line's event. */
  lemma FrameOfOneLine(line: string)
    requires IrcLine(line)
    ensures FrameEvents(line) == [ClassifyLine(line)] && FrameEvents(line + "\r\n") == [ClassifyLine(line)]
    ensures FrameEventsFixed(line) == [ClassifyLineFixed(line)] &&
            FrameEventsFixed(line + "\r\n") == [ClassifyLineFixed(line)]
  {
    assert JoinOn([line], "\r\n") == line;
    FrameEventsOfLines([line]);
  }

  /** A frame that holds a chat line whose text contains the NAMES phrase:
      as written, its one event is `Joined`; corrected, it is the chat
      message. */
  lemma FrameOfNamesChat(tags: seq<Tag>, source: string, chan: string, text: string, k: nat)
    requires ChatLineParts(tags, source, chan, text) && OccursAt(text, NamesPhrase, k)
    requires IrcLine(ChatLine(tags, source, chan, text))
    ensures var frame := ChatLine(tags, source, chan, text) + "\r\n";
            FrameEvents(frame) == [Joined] && FrameEventsFixed(frame) == [ChatOf(ToMap(tags), text)]
  {
    ChatTextTakenForJoin(tags, source, chan, text, k);
    ClassifyFixedChatLine(tags, source, chan, text);
    FrameOfOneLine(ChatLine(tags, source, chan, text));
  }
}

=== FILE: wrappers.dfy ===
/** Option and Result, for the places where server.py returns None, falls
    back to a default or raises. */
module Wrappers {

  datatype Option<+T> = None | Some(value: T)

  datatype Result<+T, +E> = Success(value: T) | Failure(error: E)
}

=== FILE: youtube_poll.dfy ===
/** The state of the YouTube chat poll loop (server.py:348-405): the
    continuation token that names the next page of chat, the rate-limit
    backoff in milliseconds, and whether the first page (old messages,
    not shown) has been read. */
module YoutubePoll {
  import opened Wrappers
  import opened Strings

  // ---------------------------------------------------------------------
  // Rate-limit backoff (server.py:364-368, 396)
  // ---------------------------------------------------------------------

  const MaxBackoff: int := 60000

  /** The wait after a failed poll (server.py:405). */
  const ErrorSleepMs: int := 8000

  /** `min((backoff or 10000) * 2, 60000)` */
  function NextBackoff(backoff: int): (b: int)
    ensures b <= MaxBackoff
    ensures backoff == 0 ==> b == 20000
    ensures 0 < backoff <= 30000 ==> b == 2 * backoff
    ensures 30000 <= backoff ==> b == MaxBackoff
  {
    var base := if backoff == 0 then 10000 else backoff;
    if base * 2 < MaxBackoff then base * 2 else MaxBackoff
  }

  /** The backoff after `n` rate-limit answers in a row, from 0. */
  function BackoffAfter(n: nat): int {
    if n == 0 then 0 else NextBackoff(BackoffAfter(n - 1))
  }

  /** Consecutive 429 answers wait 20 s, 40 s, then 60 s from then on. */
  lemma {:induction false} BackoffSequence(n: nat)
    ensures BackoffAfter(n) == if n <= 3 then 20000 * n else MaxBackoff
  {
    if n > 0 {
      BackoffSequence(n - 1);
    }
  }

  /** The backoff values the loop can hold. */
  predicate BackoffValue(b: int) {
    b == 0 || b == 20000 || b == 40000 || b == 60000
  }

  lemma NextBackoffValue(b: int)
    requires BackoffValue(b)
    ensures BackoffValue(NextBackoff(b)) && NextBackoff(b) != 0
  {
  }

  // ---------------------------------------------------------------------
  // The next continuation and the poll interval (server.py:377-397)
  // ---------------------------------------------------------------------

  /** One continuation-data object of a response: its `continuation` and
      `timeoutMs` fields, None where absent or null. */
  datatype ContinuationData = ContinuationData(continuation: Option<string>, timeoutMs: Option<int>)

  /** `nc`: the first entry of the response's `continuations` list; each
      kind of data is None where the key is absent, null or `{}`. */
  datatype Continuations = Continuations(
    timed: Option<ContinuationData>,
    invalidation: Option<ContinuationData>,
    reload: Option<ContinuationData>)

  /** `(lcc.get('continuations') or [{}])[0]` */
  function FirstContinuations(cs: seq<Continuations>): Continuations {
    if cs == [] then Continuations(None, None, None) else cs[0]
  }

  /** `(d or {}).get('continuation')` when it is truthy. */
  function TokenOf(d: Option<ContinuationData>): (t: Option<string>)
    ensures t.Some? ==> t.value != ""
  {
    if d.Some? && d.value.continuation.Some? && d.value.continuation.value != "" then
      d.value.continuation
    else None
  }

  /** `(d or {}).get('timeoutMs')` when it is truthy. */
  function TimeoutOf(d: Option<ContinuationData>): (t: Option<int>)
    ensures t.Some? ==> t.value != 0
  {
    if d.Some? && d.value.timeoutMs.Some? && d.value.timeoutMs.value != 0 then
      d.value.timeoutMs
    else None
  }

  /** The continuation after a page: the first truthy token among timed,
      invalidation and reload data, else the current one. */
  function NextToken(current: string, nc: Continuations): (next: string)
    ensures current != "" ==> next != ""
    ensures TokenOf(nc.timed).Some? ==> next == TokenOf(nc.timed).value
    ensures TokenOf(nc.timed).None? && TokenOf(nc.invalidation).Some? ==>
              next == TokenOf(nc.invalidation).value
    ensures TokenOf(nc.timed).None? && TokenOf(nc.invalidation).None? && TokenOf(nc.reload).Some? ==>
              next == TokenOf(nc.reload).value
    ensures TokenOf(nc.timed).None? && TokenOf(nc.invalidation).None? && TokenOf(nc.reload).None? ==>
              next == current
  {
    match TokenOf(nc.timed)
    case Some(t) => t
    case None =>
      match TokenOf(nc.invalidation)
      case Some(t) => t
      case None =>
        match TokenOf(nc.reload)
        case Some(t) => t
        case None => current
  }

  /** Polling the same page again keeps the token it gave, and once a
      page carries a token the token held before it no longer matters. */
  lemma NextTokenStable(c1: string, c2: string, nc: Continuations)
    ensures NextToken(NextToken(c1, nc), nc) == NextToken(c1, nc)
    ensures TokenOf(nc.timed).Some? || TokenOf(nc.invalidation).Some? || TokenOf(nc.reload).Some? ==>
              NextToken(c1, nc) == NextToken(c2, nc)
  {
  }

  /** `poll_ms`: the first truthy `timeoutMs` of timed and invalidation
      data, else 5000. */
  function PollMs(nc: Continuations): (ms: int)
    ensures ms != 0
    ensures TimeoutOf(nc.timed).Some? ==> ms == TimeoutOf(nc.timed).value
    ensures TimeoutOf(nc.timed).None? && TimeoutOf(nc.invalidation).Some? ==> ms == TimeoutOf(nc.invalidation).value
    ensures TimeoutOf(nc.timed).None? && TimeoutOf(nc.invalidation).None? ==> ms == 5000
  {
    match TimeoutOf(nc.timed)
    case Some(t) => t
    case None =>
      match TimeoutOf(nc.invalidation)
      case Some(t) => t
      case None => 5000
  }

  /** A page whose timed data carries a token and an interval takes both
      from it; a page with reload data only keeps polling every 2 s. */
  lemma TimedPage(current: string, nc: Continuations)
    ensures TokenOf(nc.timed).Some? && TimeoutOf(nc.timed).Some? ==>
              NextToken(current, nc) == TokenOf(nc.timed).value && PollMs(nc) == TimeoutOf(nc.timed).value
    ensures nc.timed.None? && nc.invalidation.None? ==> PollMs(nc) == 5000 && SleepMs(nc) == 2000
  {
  }

  /** `min(poll_ms, 2000)` */
  function SleepMs(nc: Continuations): (ms: int)
    ensures ms <= 2000 && (ms == 2000 || ms == PollMs(nc))
    ensures ms == PollMs(nc) <==> PollMs(nc) <= 2000
  {
    if PollMs(nc) < 2000 then PollMs(nc) else 2000
  }

  // ---------------------------------------------------------------------
  // The end-of-stream test (server.py:399-405)
  // ---------------------------------------------------------------------

  /** ASCII case folding: the only letters that fold to those of the
      pattern below are the ASCII ones. */
  function Lower(c: char): (l: char)
    ensures 'A' <= c <= 'Z' ==> l != c && 'a' <= l <= 'z'
    ensures !('A' <= c <= 'Z') ==> l == c
  {
    if 'A' <= c <= 'Z' then (c as int - 'A' as int + 'a' as int) as char else c
  }

  function LowerAll(s: string): (l: string)
    ensures |l| == |s| && forall k :: 0 <= k < |s| ==> l[k] == Lower(s[k])
  {
    if s == [] then [] else [Lower(s[0])] + LowerAll(s[1..])
  }

  /** `not.*found`: `not`, then `found` later on the same line. */
  predicate NotFound(s: string) {
    exists i, j :: 0 <= i && i + 3 <= j <= |s| && OccursAt(s, "not", i) && OccursAt(s, "found", j) &&
                   '\n' !in s[i + 3..j]
  }

  /** `re.search(r'404|ended|not.*found', str(e), re.I)` */
  predicate IsEndedError(e: string) {
    var l := LowerAll(e);
    Contains(l, "404") || Contains(l, "ended") || NotFound(l)
  }

  /** The test ignores case. */
  lemma {:induction false} LowerAllIdempotent(s: string)
    ensures LowerAll(LowerAll(s)) == LowerAll(s)
  {
    var l := LowerAll(s);
    assert forall k :: 0 <= k < |s| ==> LowerAll(l)[k] == Lower(Lower(s[k])) == Lower(s[k]);
  }

  lemma EndedIgnoresCase(e: string)
    ensures IsEndedError(LowerAll(e)) == IsEndedError(e)
  {
    LowerAllIdempotent(e);
  }

  /** Folding keeps the positions of an occurrence. */
  lemma LowerOccurs(e: string, t: string, k: nat)
    requires OccursAt(e, t, k)
    ensures OccursAt(LowerAll(e), LowerAll(t), k)
  {
    var l := LowerAll(e);
    forall i | 0 <= i < |t| ensures l[k..k + |t|][i] == LowerAll(t)[i] {
      assert e[k..k + |t|][i] == t[i];
    }
  }

  /** Any error whose text holds `404` ends the loop. */
  lemma Contains404Ends(e: string)
    requires Contains(e, "404")
    ensures IsEndedError(e)
  {
    var k :| 0 <= k <= |e| && OccursAt(e, "404", k);
    LowerOccurs(e, "404", k);
    assert LowerAll("404") == "404";
    ContainsAt(LowerAll(e), "404", k);
  }

  /** Any error whose text holds the reason phrase `Not Found` ends the
      loop. */
  lemma NotFoundEnds(e: string)
    requires Contains(e, "Not Found")
    ensures IsEndedError(e)
  {
    var k :| 0 <= k <= |e| && OccursAt(e, "Not Found", k);
    LowerOccurs(e, "Not Found", k);
    LowerNotFound();
    NotFoundAt(LowerAll(e), k);
  }

  lemma NotFoundAt(l: string, k: nat)
    requires OccursAt(l, "not found", k)
    ensures NotFound(l)
  {
    var b := l[k..k + 9];
    assert b == "not found";
    assert l[k..k + 3] == b[0..3] == "not";
    assert l[k + 4..k + 9] == b[4..9] == "found";
    assert l[k + 3..k + 4] == b[3..4] == " ";
    assert OccursAt(l, "not", k) && OccursAt(l, "found", k + 4) && '\n' !in l[k + 3..k + 4];
  }

  lemma LowerNotFound()
    ensures LowerAll("Not Found") == "not found"
  {
    var s, l := "Not Found", "not found";
    forall k | 0 <= k < 9 ensures LowerAll(s)[k] == l[k] {
      assert Lower(s[k]) == l[k];
    }
  }

  /** The error the loop raises for a status outside 200-299 reads `HTTP`
      and the status (server.py:370).  It ends the loop exactly when the
      status's decimal digits hold `404`: a 404 ends it, a 500 does not. */
  lemma HttpStatusEnds(status: nat)
    ensures IsEndedError("HTTP " + ShowNat(status)) <==> Contains(ShowNat(status), "404")
  {
    var d := ShowNat(status);
    var l := "http " + d;
    LowerHttp(d);
    HttpLetters(d);
    FirstCharAbsent(l, "ended");
    FirstCharAbsent(l, "not");
    NoNotFound(l);
    ContainsAfterPrefix("http ", d, "404");
  }

  lemma LowerHttp(d: string)
    requires AllDigits(d)
    ensures LowerAll("HTTP " + d) == "http " + d
  {
    var x := "HTTP " + d;
    var l := LowerAll(x);
    forall k | 0 <= k < |l| ensures l[k] == ("http " + d)[k] {
      if k >= 5 {
        assert x[k] == d[k - 5] && IsDigit(d[k - 5]);
      }
    }
  }

  lemma HttpLetters(d: string)
    requires AllDigits(d)
    ensures 'e' !in "http " + d && 'n' !in "http " + d
  {
    var l := "http " + d;
    forall k | 0 <= k < |l| ensures l[k] != 'e' && l[k] != 'n' {
      if k >= 5 {
        assert l[k] == d[k - 5] && IsDigit(d[k - 5]);
      }
    }
  }

  /** Without `not` there is no `not.*found`. */
  lemma NoNotFound(l: string)
    requires !Contains(l, "not")
    ensures !NotFound(l)
  {
  }

  /** A string without the first character of `t` does not contain `t`. */
  lemma FirstCharAbsent(s: string, t: string)
    requires t != [] && t[0] !in s
    ensures !Contains(s, t)
  {
    forall k | 0 <= k <= |s| ensures !OccursAt(s, t, k) {
      if k + |t| <= |s| {
        assert s[k..k + |t|][0] == s[k];
      }
    }
  }

  // ---------------------------------------------------------------------
  // The loop's variables
  // ---------------------------------------------------------------------

  class Poller {
    var continuation: string
    var backoff: int
    var isFirst: bool

    ghost predicate Valid()
      reads this
    {
      continuation != "" && BackoffValue(backoff)
    }

    /** The loop is entered with the token read from the chat page. */
    constructor(token: string)
      requires token != ""
      ensures continuation == token && backoff == 0 && isFirst && Valid()
    {
      continuation := token;
      backoff := 0;
      isFirst := true;
    }

    /** A 429 answer: grow the backoff and wait that long. */
    method RateLimited() returns (waitMs: int)
      requires Valid()
      modifies this
      ensures Valid()
      ensures backoff == NextBackoff(old(backoff)) && waitMs == backoff
      ensures 20000 <= waitMs <= MaxBackoff
      ensures continuation == old(continuation) && isFirst == old(isFirst)
    {
      NextBackoffValue(backoff);
      backoff := NextBackoff(backoff);
      waitMs := backoff;
    }

    /** A page of chat: take the next token; unless it is the first page,
        hand the page's actions on in order; then reset the backoff and
        sleep.  `raisesAt == Some(i)` says that handling `actions[i]`
        raises with the message `error`: the actions before it have been
        handled, the backoff and the sleep are skipped, and the error goes
        to the loop's handler, as `Failed` does. */
    method Polled<A>(cs: seq<Continuations>, actions: seq<A>, raisesAt: Option<nat>, error: string)
      returns (handled: seq<A>, sleepMs: int, ended: bool)
      requires Valid()
      modifies this
      ensures Valid()
      ensures continuation == NextToken(old(continuation), FirstContinuations(cs))
      ensures !isFirst
      ensures !old(isFirst) && raisesAt.Some? && raisesAt.value < |actions| ==>
                handled == actions[..raisesAt.value] && backoff == old(backoff) &&
                ended == IsEndedError(error) && sleepMs == (if ended then 0 else ErrorSleepMs)
      ensures old(isFirst) || raisesAt.None? || raisesAt.value >= |actions| ==>
                handled == (if old(isFirst) then [] else actions) && backoff == 0 && !ended &&
                sleepMs == SleepMs(FirstContinuations(cs)) && sleepMs <= 2000
    {
      var nc := FirstContinuations(cs);
      continuation := NextToken(continuation, nc);
      if !isFirst && raisesAt.Some? && raisesAt.value < |actions| {
        handled := actions[..raisesAt.value];
        ended, sleepMs := Failed(error);
        return;
      }
      sleepMs := SleepMs(nc);
      if isFirst {
        handled := [];
      } else {
        handled := actions;
      }
      isFirst := false;
      backoff := 0;
      ended := false;
    }

    /** Any other failure: the loop ends when the error tells the stream
        is over, and otherwise waits 8 s and retries with its state
        unchanged. */
    method Failed(error: string) returns (ended: bool, sleepMs: int)
      requires Valid()
      ensures ended == IsEndedError(error)
      ensures sleepMs == if ended then 0 else ErrorSleepMs
      ensures Valid()
    {
      ended := IsEndedError(error);
      sleepMs := if ended then 0 else ErrorSleepMs;
    }
  }

  /** After any run of rate-limit answers the wait is one of 20, 40 and
      60 seconds, and a page of chat brings the backoff back to 0. */
  method BackoffRun(p: Poller, n: nat) returns (waits: seq<int>)
    requires p.Valid() && p.backoff == 0
    modifies p
    ensures p.Valid() && p.backoff == BackoffAfter(n)
    ensures |waits| == n && forall k :: 0 <= k < n ==> waits[k] == BackoffAfter(k + 1)
  {
    waits := [];
    var i := 0;
    while i < n
      invariant 0 <= i <= n && p.Valid() && p.backoff == BackoffAfter(i)
      invariant |waits| == i && forall k :: 0 <= k < i ==> waits[k] == BackoffAfter(k + 1)
    {
      var w := p.RateLimited();
      waits := waits + [w];
      i := i + 1;
    }
  }
}

=== FILE: youtube_runs.dfy ===
/** YouTube message rendering, `yt_parse_runs` (server.py:119-135).

    A YouTube chat message arrives as a list of runs: a run of text, or a
    custom emoji with thumbnails, shortcuts such as `:wave:` and an id.
    Each run becomes one fragment of HTML, and the message is the fragments
    in run order. */
module YoutubeRuns {
  import opened Wrappers
  import opened Strings
  import opened Html

  /** The fields of `run['emoji']` the renderer reads: the `url` of each
      thumbnail of its `image` (None where a thumbnail has no `url`; no
      thumbnails where the image is missing), its shortcuts and its id. */
  datatype Emoji = Emoji(thumbnails: seq<Option<string>>, shortcuts: seq<string>,
                         emojiId: Option<string>)

  /** A run: `text` is Some when the run has a string `text` field. */
  datatype Run = Run(text: Option<string>, emoji: Option<Emoji>)

  /** `s.replace(':', '')` */
  function RemoveColons(s: string): (r: string)
    ensures ':' !in r && |r| <= |s|
  {
    if s == [] then []
    else (if s[0] == ':' then [] else [s[0]]) + RemoveColons(s[1..])
  }

  /** A string without `:` is left as it is. */
  lemma {:induction false} RemoveColonsKeeps(s: string)
    requires ':' !in s
    ensures RemoveColons(s) == s
  {
    if s != [] {
      assert ':' !in s[1..];
      RemoveColonsKeeps(s[1..]);
    }
  }

  /** The first thumbnail's `url`, or `''`. */
  function EmojiUrl(e: Emoji): string {
    if e.thumbnails == [] then ""
    else match e.thumbnails[0]
      case Some(url) => url
      case None => ""
  }

  /** The first shortcut, else the emoji id, without its colons. */
  function EmojiName(e: Emoji): (name: string)
    ensures ':' !in name
  {
    RemoveColons(
      if e.shortcuts != [] then e.shortcuts[0]
      else match e.emojiId
        case Some(id) => id
        case None => "")
  }

  /** The HTML one run contributes. */
  function RunFragment(run: Run): string {
    match run.text
    case Some(t) => Esc(t)
    case None =>
      match run.emoji
      case None => ""
      case Some(e) =>
        var url, name := EmojiUrl(e), EmojiName(e);
        if url != "" then ImgTag(url, Esc(name), true)
        else if name != "" then Esc(name)
        else ""
  }

  /** `yt_parse_runs(runs)` */
  function YtParseRuns(runs: seq<Run>): string {
    if runs == [] then [] else RunFragment(runs[0]) + YtParseRuns(runs[1..])
  }

  lemma RunsStep(runs: seq<Run>, i: nat)
    requires i < |runs|
    ensures YtParseRuns(runs[i..]) == RunFragment(runs[i]) + YtParseRuns(runs[i + 1..])
  {
    assert runs[i..][0] == runs[i] && runs[i..][1..] == runs[i + 1..];
  }

  /** The loop of `yt_parse_runs`: one part per run that contributes
      something, joined at the end. */
  method YtParseRunsLoop(runs: seq<Run>) returns (html: string)
    ensures html == YtParseRuns(runs)
  {
    var parts: seq<string> := [];
    for i := 0 to |runs|
      invariant Concat(parts) + YtParseRuns(runs[i..]) == YtParseRuns(runs)
    {
      var fragment := RunFragment(runs[i]);
      RunsStep(runs, i);
      ConcatSnoc(parts, fragment);
      AppendAssoc(Concat(parts), fragment, YtParseRuns(runs[i + 1..]));
      if fragment != "" {
        parts := parts + [fragment];
      } else {
        assert fragment + YtParseRuns(runs[i + 1..]) == YtParseRuns(runs[i + 1..]);
      }
    }
    assert runs[|runs|..] == [];
    html := Concat(parts);
  }

  /** The message is the fragments of its runs in order, so the rendering
      of two lists of runs one after the other is the two renderings one
      after the other. */
  lemma {:induction false} YtParseRunsAppend(a: seq<Run>, b: seq<Run>)
    ensures YtParseRuns(a + b) == YtParseRuns(a) + YtParseRuns(b)
  {
    if a == [] {
      assert a + b == b;
    } else {
      assert (a + b)[0] == a[0] && (a + b)[1..] == a[1..] + b;
      YtParseRunsAppend(a[1..], b);
    }
  }

  /** The texts of runs that are all text runs. */
  function Texts(runs: seq<Run>): string
    requires forall k :: 0 <= k < |runs| ==> runs[k].text.Some?
  {
    if runs == [] then [] else runs[0].text.value + Texts(runs[1..])
  }

  /** A message of text runs only is its text, escaped. */
  lemma {:induction false} YtParseTextRuns(runs: seq<Run>)
    requires forall k :: 0 <= k < |runs| ==> runs[k].text.Some?
    ensures YtParseRuns(runs) == Esc(Texts(runs))
  {
    if runs != [] {
      YtParseTextRuns(runs[1..]);
      EscAppend(runs[0].text.value, Texts(runs[1..]));
    }
  }

  /** A run that shows an image: no text, an emoji with a thumbnail URL. */
  predicate IsImageRun(run: Run) {
    run.text.None? && run.emoji.Some? && EmojiUrl(run.emoji.value) != ""
  }

  function ImageRuns(runs: seq<Run>): nat {
    if runs == [] then 0 else (if IsImageRun(runs[0]) then 1 else 0) + ImageRuns(runs[1..])
  }

  /** Thumbnail URLs are put into `src` as they are, unescaped; the counting
      below holds for URLs without `<`. */
  predicate SafeUrls(runs: seq<Run>) {
    forall k :: 0 <= k < |runs| && runs[k].emoji.Some? ==> '<' !in EmojiUrl(runs[k].emoji.value)
  }

  lemma FragmentTags(run: Run)
    requires run.emoji.Some? ==> '<' !in EmojiUrl(run.emoji.value)
    ensures CountChar(RunFragment(run), '<') == if IsImageRun(run) then 1 else 0
  {
    match run.text
    case Some(t) =>
      EscNoMarkup(t);
      CountCharAbsent(Esc(t), '<');
    case None =>
      match run.emoji
      case None =>
      case Some(e) =>
        var name := EmojiName(e);
        if EmojiUrl(e) != "" {
          ImgTagOneOpen(EmojiUrl(e), name, true);
        } else {
          EscNoMarkup(name);
          CountCharAbsent(Esc(name), '<');
        }
  }

  /** No markup comes from text or emoji names: the output holds exactly
      one `<` per run that shows an image. */
  lemma {:induction false} YtTagCount(runs: seq<Run>)
    requires SafeUrls(runs)
    ensures CountChar(YtParseRuns(runs), '<') == ImageRuns(runs)
  {
    if runs != [] {
      assert SafeUrls(runs[1..]) by {
        forall k | 0 <= k < |runs| - 1 && runs[1..][k].emoji.Some?
          ensures '<' !in EmojiUrl(runs[1..][k].emoji.value)
        {
          assert runs[1..][k] == runs[k + 1];
        }
      }
      YtTagCount(runs[1..]);
      FragmentTags(runs[0]);
      CountCharAppend(RunFragment(runs[0]), YtParseRuns(runs[1..]), '<');
    }
  }

  /** An emoji run without a thumbnail URL shows its name, escaped and
      without colons; a run with neither text nor emoji shows nothing. */
  lemma FragmentWithoutImage(run: Run)
    requires run.text.None? && !IsImageRun(run)
    ensures run.emoji.None? ==> RunFragment(run) == ""
    ensures run.emoji.Some? ==>
              RunFragment(run) == Esc(EmojiName(run.emoji.value)) &&
              ':' !in RunFragment(run)
  {
    if run.emoji.Some? {
      var name := EmojiName(run.emoji.value);
      EscColonFree(name);
    }
  }

  /** Escaping adds no colon. */
  lemma {:induction false} EscColonFree(s: string)
    requires ':' !in s
    ensures ':' !in Esc(s)
  {
    if s != [] {
      assert ':' !in s[1..];
      EscColonFree(s[1..]);
    }
  }
}

=== FILE: youtube_token.dfy ===
/** The continuation token in the YouTube live-chat page,
    `_yt_extract_token` (server.py:408-419).

    The page embeds JSON; the token that starts the chat polling is the
    `continuation` string of one of its continuation objects.  Four
    patterns are tried in order, each searched leftmost in the page:

      1. `"reloadContinuationData"\s*:\s*\{\s*"continuation"\s*:\s*"([^"]{20,})"`
      2. `"timedContinuationData"\s*:\s*\{[^}]{0,200}"continuation"\s*:\s*"([^"]{20,})"`
      3. the same for `"invalidationContinuationData"`
      4. `"continuation"\s*:\s*"([^"]{20,})"[^}]{0,100}"clickTrackingParams"`

    and the first group found is the token, or `''` if none matches. */
module YoutubeToken {
  import opened Wrappers
  import opened Strings

  const ContinuationKey: string := "\"continuation\""
  const ReloadKey: string := "\"reloadContinuationData\""
  const TimedKey: string := "\"timedContinuationData\""
  const InvalidationKey: string := "\"invalidationContinuationData\""
  const ClickKey: string := "\"clickTrackingParams\""

  /** What `([^"]{20,})` accepts. */
  predicate TokenChars(t: string) {
    |t| >= 20 && '"' !in t
  }

  /** `t` stands in `s` between double quotes. */
  ghost predicate Quoted(s: string, t: string) {
    exists k :: 0 <= k <= |s| && OccursAt(s, "\"" + t + "\"", k)
  }

  // ---------------------------------------------------------------------
  // Runs of one character class (the greedy repetitions)
  // ---------------------------------------------------------------------

  /** `\s*` */
  function WsRun(s: string): (n: nat)
    ensures n <= |s| && (forall k :: 0 <= k < n ==> IsSpace(s[k]))
    ensures n < |s| ==> !IsSpace(s[n])
  {
    if s == [] || !IsSpace(s[0]) then 0 else 1 + WsRun(s[1..])
  }

  /** `[^"]*` */
  function QuoteRun(s: string): (n: nat)
    ensures n <= |s| && '"' !in s[..n] && (n < |s| ==> s[n] == '"')
  {
    if s == [] || s[0] == '"' then 0
    else
      var m := QuoteRun(s[1..]);
      assert s[..m + 1] == [s[0]] + s[1..][..m];
      m + 1
  }

  /** `[^}]*` */
  function BraceRun(s: string): (n: nat)
    ensures n <= |s| && '}' !in s[..n] && (n < |s| ==> s[n] == '}')
  {
    if s == [] || s[0] == '}' then 0
    else
      var m := BraceRun(s[1..]);
      assert s[..m + 1] == [s[0]] + s[1..][..m];
      m + 1
  }

  /** `\s*c` from index `i` of `s`: the index just after `c`.  As `c` is
      no whitespace, the run of whitespace before it is the maximal one. */
  function SkipWsThen(s: string, i: nat, c: char): (r: Option<nat>)
    requires i <= |s|
    ensures r.Some? ==> i < r.value <= |s| && s[r.value - 1] == c
  {
    var w := WsRun(s[i..]);
    if i + w < |s| && s[i + w] == c then Some(i + w + 1) else None
  }

  /** `c` at index `i` is passed at once when it is no whitespace. */
  lemma SkipWsThenAt(s: string, i: nat, c: char)
    requires i < |s| && s[i] == c && !IsSpace(c)
    ensures SkipWsThen(s, i, c) == Some(i + 1)
  {
    assert s[i..][0] == c;
  }

  // ---------------------------------------------------------------------
  // The pieces of the patterns
  // ---------------------------------------------------------------------

  /** A token found at the start of a string, and where its match ends. */
  datatype Capture = Capture(token: string, end: nat)

  /** The facts a capture carries: the token is quoted in `s` and ends
      its match. */
  predicate Captured(s: string, c: Capture) {
    TokenChars(c.token) && |c.token| + 2 <= c.end <= |s| &&
    OccursAt(s, "\"" + c.token + "\"", c.end - |c.token| - 2)
  }

  /** `([^"]{20,})"` from index `start`, just after an opening quote. */
  function QuotedValue(s: string, start: nat): (r: Option<Capture>)
    requires 0 < start <= |s| && s[start - 1] == '"'
    ensures r.Some? ==> Captured(s, r.value)
  {
    var n := QuoteRun(s[start..]);
    if n >= 20 && start + n < |s| then
      QuotedValueFacts(s, start, n);
      Some(Capture(s[start..start + n], start + n + 1))
    else None
  }

  lemma QuotedValueFacts(s: string, start: nat, n: nat)
    requires 0 < start && start + n < |s| && s[start - 1] == '"'
    requires n >= 20 && n == QuoteRun(s[start..])
    ensures Captured(s, Capture(s[start..start + n], start + n + 1))
  {
    var t := s[start..start + n];
    assert s[start..][..n] == t;
    assert s[start + n] == s[start..][n] == '"';
    assert s[start - 1..start + n + 1] == "\"" + t + "\"";
  }

  /** `"continuation"\s*:\s*"([^"]{20,})"` at the start of `s`. */
  function KeyValue(s: string): (r: Option<Capture>)
    ensures r.Some? ==> Captured(s, r.value)
  {
    if !StartsWith(s, ContinuationKey) then None
    else match SkipWsThen(s, |ContinuationKey|, ':')
      case None => None
      case Some(i) =>
        match SkipWsThen(s, i, '"')
        case None => None
        case Some(j) => QuotedValue(s, j)
  }

  /** `KEY\s*:\s*\{` at the start of `s`: the index just after the brace. */
  function KeyOpen(s: string, key: string): (r: Option<nat>)
    ensures r.Some? ==> r.value <= |s|
  {
    if !StartsWith(s, key) then None
    else match SkipWsThen(s, |key|, ':')
      case None => None
      case Some(i) => SkipWsThen(s, i, '{')
  }

  /** `[^}]{0,W}` followed by the key-value, over a window whose length
      `j` is already cut to `W` and to the text before the first `}`: the
      repetition is greedy, so the longest window after which the rest
      matches wins, which is the last key-value starting in it. */
  function LastInWindow(r: string, j: nat): (at: Option<nat>)
    requires j <= |r|
    ensures at.Some? ==> at.value <= j && KeyValue(r[at.value..]).Some? &&
                         forall i :: at.value < i <= j ==> KeyValue(r[i..]).None?
    ensures at.None? ==> forall i :: 0 <= i <= j ==> KeyValue(r[i..]).None?
    decreases j
  {
    if KeyValue(r[j..]).Some? then Some(j)
    else if j == 0 then None
    else LastInWindow(r, j - 1)
  }

  function Min(a: nat, b: nat): nat {
    if a <= b then a else b
  }

  /** Some `i <= j` at which `s[i..]` starts with `lit`. */
  function StartsWithin(s: string, lit: string, j: nat): (b: bool)
    requires j <= |s|
    ensures b <==> exists i :: 0 <= i <= j && StartsWith(s[i..], lit)
    decreases j
  {
    StartsWith(s[j..], lit) || (j > 0 && StartsWithin(s, lit, j - 1))
  }

  // ---------------------------------------------------------------------
  // The four patterns
  // ---------------------------------------------------------------------

  datatype Pattern = Reload | Timed | Invalidation | Generic

  /** The group of pattern `p` matched at the start of `s`, if it matches
      there. */
  function MatchAt(p: Pattern, s: string): (r: Option<string>)
    ensures r.Some? ==> TokenChars(r.value) && Quoted(s, r.value)
  {
    match p
    case Reload => MatchReload(s)
    case Timed => MatchWindowed(s, TimedKey)
    case Invalidation => MatchWindowed(s, InvalidationKey)
    case Generic => MatchGeneric(s)
  }

  /** Pattern 1: `KEY\s*:\s*\{\s*` and the key-value. */
  function MatchReload(s: string): (r: Option<string>)
    ensures r.Some? ==> TokenChars(r.value) && Quoted(s, r.value)
  {
    match KeyOpen(s, ReloadKey)
    case None => None
    case Some(o) => ValueAfterWs(s, o)
  }

  /** `\s*` and then the key-value, from `o` on. */
  function ValueAfterWs(s: string, o: nat): (r: Option<string>)
    requires o <= |s|
    ensures r.Some? ==> TokenChars(r.value) && Quoted(s, r.value)
  {
    var w := WsRun(s[o..]);
    match KeyValue(s[o + w..])
    case None => None
    case Some(c) => QuotedShift(s, o + w, c); Some(c.token)
  }

  /** Patterns 2 and 3: `KEY\s*:\s*\{[^}]{0,200}` and the key-value. */
  function MatchWindowed(s: string, key: string): (r: Option<string>)
    ensures r.Some? ==> TokenChars(r.value) && Quoted(s, r.value)
  {
    match KeyOpen(s, key)
    case None => None
    case Some(o) =>
      var r := s[o..];
      match LastInWindow(r, Min(200, BraceRun(r)))
      case None => None
      case Some(i) =>
        var c := KeyValue(r[i..]).value;
        assert s[o..][i..] == s[o + i..];
        QuotedShift(s, o + i, c);
        Some(c.token)
  }

  /** Pattern 4: the key-value, then `[^}]{0,100}"clickTrackingParams"`. */
  function MatchGeneric(s: string): (r: Option<string>)
    ensures r.Some? ==> TokenChars(r.value) && Quoted(s, r.value)
  {
    match KeyValue(s)
    case None => None
    case Some(c) =>
      var after := s[c.end..];
      if StartsWithin(after, ClickKey, Min(100, BraceRun(after))) then
        assert s[0..] == s;
        QuotedShift(s, 0, c);
        Some(c.token)
      else None
  }

  lemma QuotedShift(s: string, o: nat, c: Capture)
    requires o <= |s| && Captured(s[o..], c)
    ensures Quoted(s, c.token)
  {
    var q := "\"" + c.token + "\"";
    var k := c.end - |c.token| - 2;
    assert OccursAt(s[o..], q, k);
    assert s[o..][k..k + |q|] == s[o + k..o + k + |q|];
    assert OccursAt(s, q, o + k);
  }

  /** `re.search(pattern, html)`: the match at the leftmost position where
      there is one. */
  function Search(p: Pattern, s: string): (r: Option<string>)
    ensures r.Some? ==> TokenChars(r.value) && Quoted(s, r.value)
    decreases |s|
  {
    match MatchAt(p, s)
    case Some(t) => Some(t)
    case None =>
      if s == [] then None
      else
        var r := Search(p, s[1..]);
        if r.Some? then QuotedTail(s, r.value); r else r
  }

  lemma QuotedTail(s: string, t: string)
    requires s != [] && Quoted(s[1..], t)
    ensures Quoted(s, t)
  {
    var k :| 0 <= k <= |s[1..]| && OccursAt(s[1..], "\"" + t + "\"", k);
    assert s[1..][k..k + |t| + 2] == s[k + 1..k + 1 + |t| + 2];
    assert OccursAt(s, "\"" + t + "\"", k + 1);
  }

  /** `_yt_extract_token(html)`: the patterns in order, the first found
      anywhere in the page deciding; `''` exactly when none is found. */
  function ExtractToken(html: string): (token: string)
    ensures token == "" || (TokenChars(token) && Quoted(html, token))
    ensures token == "" <==>
              Search(Reload, html).None? && Search(Timed, html).None? &&
              Search(Invalidation, html).None? && Search(Generic, html).None?
    ensures Search(Reload, html).Some? ==> token == Search(Reload, html).value
    ensures Search(Reload, html).None? && Search(Timed, html).Some? ==>
              token == Search(Timed, html).value
    ensures Search(Reload, html).None? && Search(Timed, html).None? && Search(Invalidation, html).Some? ==>
              token == Search(Invalidation, html).value
    ensures Search(Reload, html).None? && Search(Timed, html).None? && Search(Invalidation, html).None? &&
            Search(Generic, html).Some? ==>
              token == Search(Generic, html).value
  {
    match Search(Reload, html)
    case Some(t) => t
    case None =>
      match Search(Timed, html)
      case Some(t) => t
      case None =>
        match Search(Invalidation, html)
        case Some(t) => t
        case None =>
          match Search(Generic, html)
          case Some(t) => t
          case None => ""
  }

  // ---------------------------------------------------------------------
  // Reading back a token that was written into a page
  // ---------------------------------------------------------------------

  /** `"continuation":"TOKEN"` */
  function KvText(token: string): string {
    ContinuationKey + ":\"" + token + "\""
  }

  /** `"reloadContinuationData":{"continuation":"TOKEN"` */
  function ReloadText(token: string): string {
    ReloadKey + ":{" + KvText(token)
  }

  lemma KeyValueOf(token: string, rest: string)
    requires TokenChars(token)
    ensures KeyValue(ContinuationKey + ":\"" + token + "\"" + rest) ==
            Some(Capture(token, 16 + |token| + 1))
  {
    var s := ContinuationKey + ":\"" + token + "\"" + rest;
    assert StartsWith(s, ContinuationKey) && s[14] == ':' && s[15] == '"' by {
      assert s == ContinuationKey + (":" + ("\"" + (token + ("\"" + rest))));
    }
    SkipWsThenAt(s, 14, ':');
    SkipWsThenAt(s, 15, '"');
    KeyValueFrom(s, 16);
    QuotedValueOf(s, token, rest);
  }

  lemma KeyValueFrom(s: string, j: nat)
    requires StartsWith(s, ContinuationKey) && j == 16
    requires SkipWsThen(s, 14, ':') == Some(15) && SkipWsThen(s, 15, '"') == Some(j)
    ensures KeyValue(s) == QuotedValue(s, j)
  {
  }

  lemma QuotedValueOf(s: string, token: string, rest: string)
    requires TokenChars(token) && s == ContinuationKey + ":\"" + token + "\"" + rest
    ensures QuotedValue(s, 16) == Some(Capture(token, 16 + |token| + 1))
  {
    assert s[16..] == token + ("\"" + rest);
    QuoteRunOf(token, "\"" + rest);
    assert s[16..16 + |token|] == token;
  }

  lemma {:induction false} QuoteRunOf(t: string, x: string)
    requires '"' !in t && x != [] && x[0] == '"'
    ensures QuoteRun(t + x) == |t|
    decreases |t|
  {
    if t != [] {
      assert (t + x)[1..] == t[1..] + x;
      QuoteRunOf(t[1..], x);
    } else {
      assert t + x == x;
    }
  }

  lemma MatchReloadText(token: string, rest: string)
    requires TokenChars(token)
    ensures MatchAt(Reload, ReloadText(token) + rest) == Some(token)
  {
    var s := ReloadText(token) + rest;
    var kv := ContinuationKey + ":\"" + token + "\"" + rest;
    ReloadShape(s, kv, token, rest);
    SkipWsThenAt(s, 24, ':');
    SkipWsThenAt(s, 25, '{');
    KeyOpenFrom(s, ReloadKey);
    assert WsRun(kv) == 0 by {
      assert kv[0] == '"';
    }
    KeyValueOf(token, rest);
    MatchReloadFrom(s, kv);
  }

  lemma ReloadShape(s: string, kv: string, token: string, rest: string)
    requires s == ReloadText(token) + rest && kv == ContinuationKey + ":\"" + token + "\"" + rest
    ensures StartsWith(s, ReloadKey) && |s| >= 26 && s[24] == ':' && s[25] == '{' && s[26..] == kv
  {
    var h := ReloadKey + ":{";
    AppendAssoc(h, KvText(token), rest);
    PrefixOf(h, kv);
    PrefixOf(ReloadKey, ":{");
    assert s[..24] == s[..26][..24];
  }

  lemma KeyOpenFrom(s: string, key: string)
    requires |key| == 24 && StartsWith(s, key)
    requires SkipWsThen(s, 24, ':') == Some(25) && SkipWsThen(s, 25, '{') == Some(26)
    ensures KeyOpen(s, key) == Some(26)
  {
  }

  lemma MatchReloadFrom(s: string, kv: string)
    requires KeyOpen(s, ReloadKey) == Some(26) && |s| >= 26 && s[26..] == kv && WsRun(kv) == 0
    requires KeyValue(kv).Some?
    ensures MatchAt(Reload, s) == Some(KeyValue(kv).value.token)
  {
    assert MatchAt(Reload, s) == ValueAfterWs(s, 26);
    ValueAfterWsAt(s, 26, kv);
  }

  lemma ValueAfterWsAt(s: string, o: nat, kv: string)
    requires o <= |s| && s[o..] == kv && WsRun(kv) == 0 && KeyValue(kv).Some?
    ensures ValueAfterWs(s, o) == Some(KeyValue(kv).value.token)
  {
    assert s[o + 0..] == kv;
  }

  lemma {:induction false} SearchSkips(p: Pattern, s: string, n: nat)
    requires n <= |s|
    requires forall k :: 0 <= k < n ==> MatchAt(p, s[k..]).None?
    ensures Search(p, s) == Search(p, s[n..])
    decreases n
  {
    if n > 0 {
      assert s[0..] == s;
      forall k | 0 <= k < n - 1 ensures MatchAt(p, s[1..][k..]).None? {
        assert s[1..][k..] == s[k + 1..];
      }
      SearchSkips(p, s[1..], n - 1);
      assert s[1..][n - 1..] == s[n..];
    }
  }

  /** A page whose first reload object carries a token yields that token,
      whatever else the page holds. */
  lemma ExtractReloadToken(pre: string, token: string, post: string)
    requires TokenChars(token)
    requires Find(pre + ReloadText(token) + post, ReloadKey) == Some(|pre|)
    ensures ExtractToken(pre + ReloadText(token) + post) == token
  {
    var html := pre + ReloadText(token) + post;
    forall k | 0 <= k < |pre| ensures MatchAt(Reload, html[k..]).None? {
      assert !OccursAt(html, ReloadKey, k);
      assert !StartsWith(html[k..], ReloadKey) by {
        if |ReloadKey| <= |html[k..]| {
          assert html[k..][..|ReloadKey|] == html[k..k + |ReloadKey|];
        }
      }
      MatchReloadNeedsKey(html[k..]);
    }
    SearchSkips(Reload, html, |pre|);
    DropPrefix(pre, ReloadText(token), post);
    MatchReloadText(token, post);
    ExtractFirst(html, token);
  }

  lemma DropPrefix(pre: string, x: string, post: string)
    ensures (pre + x + post)[|pre|..] == x + post
  {
  }

  lemma MatchReloadNeedsKey(s: string)
    requires !StartsWith(s, ReloadKey)
    ensures MatchAt(Reload, s).None?
  {
  }

  lemma ExtractFirst(html: string, token: string)
    requires Search(Reload, html) == Some(token)
    ensures ExtractToken(html) == token
  {
  }

  // ---------------------------------------------------------------------
  // The greedy window of the timed and invalidation objects
  // ---------------------------------------------------------------------

  /** `"timedContinuationData":{` and any fields `w` before the key-value
      that closes the object. */
  function TimedText(w: string, token: string): string {
    TimedKey + ":{" + w + KvText(token) + "}"
  }

  /** A key-value starts with `"c` and has a quote at index 13. */
  lemma NotKeyValue(s: string)
    requires |s| < 14 || s[0] != '"' || s[1] != 'c' || s[13] != '"'
    ensures KeyValue(s).None?
  {
    if |s| >= 14 {
      assert s[..14][0] == s[0] && s[..14][1] == s[1] && s[..14][13] == s[13];
    }
  }

  /** No key-value starts inside one that is followed by `}`. */
  lemma NoKeyValueInside(r: string, a: nat, token: string, i: nat)
    requires TokenChars(token) && a + |KvText(token)| + 1 <= |r|
    requires r[a..a + |KvText(token)| + 1] == KvText(token) + "}"
    requires a < i <= a + |KvText(token)|
    ensures KeyValue(r[i..]).None?
  {
    var t := KvText(token) + "}";
    var n := |token|;
    assert |t| == n + 18;
    var d := i - a;
    forall e | 0 <= e < |t| ensures r[a + e] == t[e] {
      assert r[a..a + |t|][e] == r[a + e];
    }
    var u := r[i..];
    assert |u| < 14 || u[0] != '"' || u[1] != 'c' || u[13] != '"' by {
      if |u| >= 14 {
        assert u[0] == r[i] == t[d];
        if d < 13 {
          assert t[d] == ContinuationKey[d];
          assert forall e :: 1 <= e < 13 ==> ContinuationKey[e] != '"';
        } else if d == 13 {
          assert u[1] == t[14] == ':';
        } else if d == 14 {
          assert t[14] == ':';
        } else if d == 15 {
          assert u[13] == t[28] == token[12];
        } else if d < 16 + n {
          assert t[d] == token[d - 16];
        } else if d == 16 + n {
          assert u[1] == t[17 + n] == '}';
        } else {
          assert t[17 + n] == '}';
        }
      }
    }
    NotKeyValue(u);
  }

  lemma {:induction false} BraceRunOf(x: string, rest: string)
    requires '}' !in x && rest != [] && rest[0] == '}'
    ensures BraceRun(x + rest) == |x|
    decreases |x|
  {
    if x != [] {
      assert (x + rest)[1..] == x[1..] + rest;
      BraceRunOf(x[1..], rest);
    } else {
      assert x + rest == rest;
    }
  }

  /** A timed object whose last field is the key-value yields its token,
      whatever fields (up to 200 characters, no `}`) come before it: the
      greedy window reaches the last key-value in it. */
  lemma MatchTimedText(w: string, token: string, rest: string)
    requires TokenChars(token) && '}' !in token && '}' !in w && |w| <= 200
    ensures MatchAt(Timed, TimedText(w, token) + rest) == Some(token)
  {
    var s := TimedText(w, token) + rest;
    var r := w + KvText(token) + ("}" + rest);
    TimedOpen(s, r, w, token, rest);
    WindowFindsLast(w, token, rest);
    MatchTimedFrom(s, r, Min(200, BraceRun(r)), |w|);
  }

  lemma TimedOpen(s: string, r: string, w: string, token: string, rest: string)
    requires s == TimedText(w, token) + rest && r == w + KvText(token) + ("}" + rest)
    ensures KeyOpen(s, TimedKey) == Some(25) && |s| >= 25 && s[25..] == r
  {
    TimedShape(s, r, w, token, rest);
    SkipWsThenAt(s, 23, ':');
    SkipWsThenAt(s, 24, '{');
    KeyOpenTimed(s);
  }

  lemma TimedShape(s: string, r: string, w: string, token: string, rest: string)
    requires s == TimedText(w, token) + rest && r == w + KvText(token) + ("}" + rest)
    ensures StartsWith(s, TimedKey) && |s| >= 25 && s[23] == ':' && s[24] == '{' && s[25..] == r
  {
    var h := TimedKey + ":{";
    var kv := KvText(token);
    AppendAssoc(h, w, kv);
    AppendAssoc(h, w + kv, "}");
    AppendAssoc(h, w + kv + "}", rest);
    AppendAssoc(w + kv, "}", rest);
    PrefixOf(h, r);
    PrefixOf(TimedKey, ":{");
    assert s[..23] == s[..25][..23];
  }

  /** In the window after the brace, the search stops at the key-value
      that closes the object. */
  lemma WindowFindsLast(w: string, token: string, rest: string)
    requires TokenChars(token) && '}' !in token && '}' !in w && |w| <= 200
    ensures var r := w + KvText(token) + ("}" + rest);
            LastInWindow(r, Min(200, BraceRun(r))) == Some(|w|) &&
            KeyValue(r[|w|..]) == Some(Capture(token, 16 + |token| + 1))
  {
    var r := w + KvText(token) + ("}" + rest);
    var top := WindowTop(w, token, rest, r);
    WindowKeyValue(w, token, rest, r);
    WindowNoLater(w, token, rest, r, top);
    LastInWindowAt(r, top, |w|);
  }

  /** The window reaches the key-value and ends inside it. */
  lemma WindowTop(w: string, token: string, rest: string, r: string) returns (top: nat)
    requires TokenChars(token) && '}' !in token && '}' !in w && |w| <= 200
    requires r == w + KvText(token) + ("}" + rest)
    ensures top == Min(200, BraceRun(r)) && |w| <= top <= |w| + |KvText(token)| && top <= |r|
  {
    var kv := KvText(token);
    assert '}' !in w + kv;
    BraceRunOf(w + kv, "}" + rest);
    top := Min(200, BraceRun(r));
  }

  lemma WindowKeyValue(w: string, token: string, rest: string, r: string)
    requires TokenChars(token) && '}' !in token
    requires r == w + KvText(token) + ("}" + rest)
    ensures |w| <= |r| && KeyValue(r[|w|..]) == Some(Capture(token, 16 + |token| + 1))
  {
    assert r[|w|..] == KvText(token) + ("}" + rest);
    KeyValueOf(token, "}" + rest);
  }

  lemma WindowNoLater(w: string, token: string, rest: string, r: string, top: nat)
    requires TokenChars(token) && '}' !in token
    requires r == w + KvText(token) + ("}" + rest)
    requires top <= |w| + |KvText(token)|
    ensures forall i :: |w| < i <= top ==> KeyValue(r[i..]).None?
  {
    var kv := KvText(token);
    assert r == w + (kv + "}") + rest;
    Middle(w, kv + "}", rest);
    forall i | |w| < i <= top ensures KeyValue(r[i..]).None? {
      NoKeyValueInside(r, |w|, token, i);
    }
  }

  lemma Middle(a: string, x: string, b: string)
    ensures (a + x + b)[|a|..|a| + |x|] == x
  {
  }

  lemma KeyOpenTimed(s: string)
    requires StartsWith(s, TimedKey)
    requires SkipWsThen(s, 23, ':') == Some(24) && SkipWsThen(s, 24, '{') == Some(25)
    ensures KeyOpen(s, TimedKey) == Some(25)
  {
  }

  /** The window search stops at the last key-value. */
  lemma LastInWindowAt(r: string, j: nat, a: nat)
    requires a <= j <= |r| && KeyValue(r[a..]).Some?
    requires forall i :: a < i <= j ==> KeyValue(r[i..]).None?
    ensures LastInWindow(r, j) == Some(a)
  {
  }

  lemma MatchTimedFrom(s: string, r: string, top: nat, a: nat)
    requires KeyOpen(s, TimedKey) == Some(25) && |s| >= 25 && s[25..] == r
    requires top == Min(200, BraceRun(r)) && LastInWindow(r, top) == Some(a)
    ensures MatchAt(Timed, s) == Some(KeyValue(r[a..]).value.token)
  {
  }
}
